=== FILE: README.md ===
# English placement test: a Dafny model of its core

The system is an English diagnostic test with four parts:

- a React front end that takes a candidate through four timed modules (Listening, Speaking, Reading, Writing);
- a Django back end that scores the modules;
- a candidate profile that keeps one result per module, a general result and a level;
- account endpoints, authenticated with a bearer token from Auth0, an external identity provider.

This project models the decision logic of those pieces as pure functions over immutable data. Every browser or server effect becomes an input or an output:

- browser storage;
- the HTTP replies;
- the database rows;
- the evaluator's answer.

Modules:

- `Session` (`session.dfy`): the assessment page. It covers the fixed tab order, the completion record kept in memory and in storage, and the forced move to the earliest pending module. It also covers the disabled tabs of completed modules, the one-second poll of storage, and the abort that wipes stored progress when the page is hidden.
- `Runner` (`runner.dfy`): the machine every module page repeats. It covers:
  - the 900-second countdown floored at 0;
  - the `hasSubmitted` latch on the automatic submit;
  - block navigation, with and without a gate;
  - the last-write-wins answer map;
  - the rounded progress percentage;
  - the `mm:ss` clock text;
  - the submit that completes only after an accepted reply;
  - the order in which `Object.keys` lists the integer keys of a JavaScript object: array indices ascending, then every other key in the order it was first stored.
- `ChoicePages` (`choice_pages.dfy`): the Listening and Reading pages. Reading's alert modal completes the module whenever it is closed.
- `SpeakingPage` (`speaking_page.dfy`): recording, the error screen that ends every action once an error is set, the stop guard, the submit-enable rule, the multipart payload with one file per recorded block, and the reply handling.
- `WritingPage` (`writing_page.dfy`): validation of the current block, navigation gated by that validation, the `texto` payload, and the reply handling.
- `AntiCopy` (`anticopy.dfy`): the Writing anti-copy check. It normalises text, splits the example into sentences, and rejects an answer that contains any normalised example sentence.
- `Content` (`content.dfy`): tests, blocks, questions and options, and the `vertical` filter of the test listings. The query parameter arrives as text. The integer field's lookup reads it as Python's `int` does: white space at either end, an optional sign, decimal digits. Any other text makes the lookup raise, and the listing ends in a server error. Reading and Speaking are mounted without a `verticalId`, so they send the text `undefined`.
- `Scoring` (`scoring.dfy`): `submit_answers` of Listening and Reading. It covers the validation order, the scoring loop and the percentage written into the profile.
- `WritingGrade` (`writing_grade.dfy`): `submit_answers` of Writing. It covers the criteria defaulting to 0, the server error when a criterion is present but not a number, their mean, the score rounded in the reply, and the error replies.
- `Profile` (`profile.dfy`): the candidate profile. Saving it recomputes the general result (the mean of the results present) and the level band.
- `WordSplit` (`words.dfy`): splitting text into words on runs of white space, with JavaScript's or Python's white-space characters, and joining words with single spaces.
- `AuthHeader` (`auth_header.dfy`): `get_token_auth_header`. The header is split on white space Python's way, and there is one error per refusal.
- `Accounts` (`accounts.dfy`): login, create-with-vertical and the merge of test results.
- `Ascii` and `Wrappers`: the character classes used by JavaScript and by Python, plus `Option` and `Result`.

Three behaviours of the code that the model keeps:

- Speaking accepts a take of any length, and a score of zero does not reopen recording.
- The manual submit button of every page sends without checking the `hasSubmitted` latch. So a manual submit and the timer can both send (`Runner.ManualSubmitIsNotLatched`).
- Reading completes the module when its modal is closed, even after a failed send.

## Model

| member | source | states |
|---|---|---|
| Session.TabIndex | frontend/src/components/pages/test.jsx:18-23 | every module has a position in the fixed tab order listening, speaking, reading, writing |
| Session.Mount | frontend/src/components/pages/test.jsx:16-28 | the page starts on listening; a module counts as completed exactly when the stored record marks it |
| Session.AllDoneIsEveryModule | frontend/src/components/pages/test.jsx:78 | "every tab is done" is the same as "every module is done" |
| Session.FirstPending | frontend/src/components/pages/test.jsx:83 | the result is absent exactly when every module is done; otherwise it is not done, and every module before it in tab order is done |
| Session.Complete | frontend/src/components/pages/test.jsx:69-88 | marks exactly the given module and leaves every other entry as it was; stores the new record; goes to the feedback page when all four are done, else activates the earliest pending module |
| Session.CompleteIdempotent | frontend/src/components/pages/test.jsx:70-73 | completing a module that is already completed leaves the record unchanged |
| Session.SelectTab | frontend/src/components/pages/test.jsx:116-120 | a completed tab cannot be activated, and choosing one leaves the page exactly as it was; any other tab becomes active; the record is untouched |
| Session.CompleteEstablishesActiveIsPending | frontend/src/components/pages/test.jsx:83-85 | after a completion, the active module, if still on the test page, is a pending one |
| Session.SelectTabKeepsActiveIsPending | frontend/src/components/pages/test.jsx:116 | choosing a tab never makes a completed module active |
| Session.Abort | frontend/src/components/pages/test.jsx:44-57 | removes the completion record and the four answer caches, sets `test_aborted` to `true`, goes home, and keeps every other storage key |
| Session.StoreStaysWellFormed | frontend/src/components/pages/test.jsx:48-75 | the completion record is kept apart from the other storage keys: neither a completion nor an abort writes it into them |
| Session.Poll | frontend/src/components/pages/test.jsx:32-37 | adopts the stored record when one exists; otherwise nothing changes |
| Session.PollAfterAbortKeepsMemory | frontend/src/components/pages/test.jsx:34-35 | after an abort, the next poll does not reset the in-memory record |
| Session.PollAfterCompleteIsNoOp | frontend/src/components/pages/test.jsx:74-75 | storage and memory agree after a completion, so the next poll changes nothing |
| Session.RemountAfterAbortStartsEmpty | frontend/src/components/pages/test.jsx:25-28 | remounting after an abort starts with nothing completed |
| Session.CompletingInAnyOrder | frontend/src/components/pages/test.jsx:77-86 | completing modules in any order marks exactly those modules; the feedback page is reached exactly when, after at least one completion, every module is done |
| Session.CompletionOnlyGrows | frontend/src/components/pages/test.jsx:70-73 | completions never unmark a module |
| Session.FeedbackEndStays | frontend/src/components/pages/test.jsx:79-80 | once every module is done, further completions stay on the feedback page |
| AntiCopy.Trim | frontend/src/components/pages/Writing.jsx:15 | the result has no white space at either end, is a slice of the input, and is empty exactly when the input is all white space |
| AntiCopy.TrimKeepsWords | frontend/src/components/pages/Writing.jsx:15 | trimming keeps the words of the text, in order |
| AntiCopy.TrimKeepsNoEdgeSpace | frontend/src/components/pages/Writing.jsx:20 | trimming text without edge white space changes nothing |
| AntiCopy.Collapse | frontend/src/components/pages/Writing.jsx:15 | collapsing never lengthens the text, empties only empty text, keeps whether it starts and ends with white space, and leaves no two white-space characters adjacent |
| AntiCopy.CollapseKeepsWords | frontend/src/components/pages/Writing.jsx:15 | collapsing keeps the words of the text, in order, so with the kept edges and single spacing it fixes where every break falls |
| AntiCopy.CollapseKeepsVisible | frontend/src/components/pages/Writing.jsx:15 | collapsing keeps every visible character, in order |
| AntiCopy.CollapseKeepsSingleSpaced | frontend/src/components/pages/Writing.jsx:15 | single-spaced text is left as it is |
| AntiCopy.Normalize | frontend/src/components/pages/Writing.jsx:13-16 | normalised text is the text's words, lower-cased and joined by single spaces; so it has no edge white space, no run of two white-space characters and no upper-case letter, and it is empty exactly when the input is all white space |
| AntiCopy.CollapsedTrim | frontend/src/components/pages/Writing.jsx:15 | trimming then collapsing gives the words joined by single spaces |
| AntiCopy.TidyIsUnwords | frontend/src/components/pages/Writing.jsx:15 | text without edge white space and with single spaces only is its own words joined by spaces |
| AntiCopy.NormalizeIdempotent | frontend/src/components/pages/Writing.jsx:13-16 | normalising twice is normalising once |
| AntiCopy.NormalizeTidy | frontend/src/components/pages/Writing.jsx:15 | on text that is already trimmed and single-spaced, normalising only lower-cases |
| AntiCopy.NormalIsFixedPoint | frontend/src/components/pages/Writing.jsx:13-16 | normal text is a fixed point of normalisation |
| AntiCopy.SplitOn | frontend/src/components/pages/Writing.jsx:20 | splitting yields at least one piece, and no piece contains the delimiter |
| AntiCopy.SplitOnJoinRoundTrip | frontend/src/components/pages/Writing.jsx:20 | joining the pieces with the delimiter gives the text back |
| AntiCopy.SplitOnNoDelimiter | frontend/src/components/pages/Writing.jsx:20 | text without the delimiter is one piece |
| AntiCopy.SplitOnAfterPiece | frontend/src/components/pages/Writing.jsx:20 | a delimiter after a piece starts a new piece |
| AntiCopy.TrimAll | frontend/src/components/pages/Writing.jsx:20 | every piece is trimmed in place |
| AntiCopy.DropEmpty | frontend/src/components/pages/Writing.jsx:20 | keeps exactly the non-empty pieces |
| AntiCopy.TrimmedPieces | frontend/src/components/pages/Writing.jsx:20 | the trimmed pieces are the trims of the pieces, and trimming adds no delimiter |
| AntiCopy.Sentences | frontend/src/components/pages/Writing.jsx:19-21 | every sentence is non-empty, trimmed and free of `.`; a string is a sentence exactly when it is the non-empty trim of a piece between dots |
| AntiCopy.SentenceNormalisesNonEmpty | frontend/src/components/pages/Writing.jsx:43 | a sentence never normalises to the empty string |
| AntiCopy.Includes | frontend/src/components/pages/Writing.jsx:43 | the search succeeds exactly when the pattern occurs as a contiguous slice |
| AntiCopy.IncludesShift | frontend/src/components/pages/Writing.jsx:43 | when the pattern does not start the text, it occurs in the text exactly when it occurs in the text's tail |
| AntiCopy.AnyContained | frontend/src/components/pages/Writing.jsx:41-47 | the loop finds a hit exactly when some sentence, normalised, occurs in the normalised answer |
| AntiCopy.Validate | frontend/src/components/pages/Writing.jsx:31-50 | an answer is refused exactly when some normalised example sentence occurs in the normalised answer; only that direction is checked |
| AntiCopy.EmptyAnswerPasses | frontend/src/components/pages/Writing.jsx:140 | an empty answer passes against every example |
| AntiCopy.BlankAnswerPasses | frontend/src/components/pages/Writing.jsx:32 | an answer of white space only passes against every example |
| AntiCopy.FirstSentenceOf | frontend/src/components/pages/Writing.jsx:19-21 | the text before the first dot is a sentence of the example |
| AntiCopy.FirstSentenceCopiedRejected | frontend/src/components/pages/Writing.jsx:41-46 | an answer containing the example's first sentence is refused |
| AntiCopy.ShortAnswerPasses | frontend/src/components/pages/Writing.jsx:41-50 | an answer shorter, once normalised, than every normalised sentence passes |
| AntiCopy.CopiedSentenceRejected | frontend/src/components/pages/Writing.jsx:41-46 | an answer containing any example sentence is refused |
| Runner.Tick | frontend/src/components/pages/Listening.jsx:20-26 | a tick takes one second off a running clock; the clock reads 0 exactly after a tick from 1 or less |
| Runner.TicksCountDown | frontend/src/components/pages/Listening.jsx:17-28 | n ticks from t leave t - n seconds, floored at 0 |
| Runner.Expiry | frontend/src/components/pages/Listening.jsx:32-38 | at zero the automatic submit fires once and latches; otherwise nothing happens |
| Runner.ManualSubmit | frontend/src/components/pages/Writing.jsx:374-382 | the button sends once more and leaves the clock and the latch as they were |
| Runner.TimerSubmitsOnce | frontend/src/components/pages/Listening.jsx:10-38 | from 900, after n seconds the clock shows 900 - n floored at 0; the timer has sent exactly once from second 900 on, and never before |
| Runner.RunFrom | frontend/src/components/pages/Reading.jsx:21-42 | from any clock whose latch matches its expiry, the countdown and the single automatic submit proceed as above |
| Runner.LatchedClockNeverSubmits | frontend/src/components/pages/Speaking.jsx:31-39 | once latched, the timer never sends again |
| Runner.ManualSubmitIsNotLatched | frontend/src/components/pages/Writing.jsx:70-78 | a manual submit followed by expiry sends twice |
| Runner.NextBlock | frontend/src/components/pages/Listening.jsx:107-111 | next moves forward one block exactly when a later block exists, and otherwise stays |
| Runner.PreviousBlock | frontend/src/components/pages/Listening.jsx:113-117 | previous moves back one block exactly when not on the first, and otherwise stays |
| Runner.Navigate | frontend/src/components/pages/Listening.jsx:107-117 | a run of presses moves the index by at most one block per press |
| Runner.NavigationStaysInRange | frontend/src/components/pages/Listening.jsx:107-117 | any sequence of next and previous keeps the block index in [0, len) |
| Runner.NextThenPrevious | frontend/src/components/pages/Reading.jsx:116-126 | next advances exactly below the last block, else stays; previous undoes next, and next undoes previous |
| Runner.GatedNavigate | frontend/src/components/pages/Writing.jsx:138-157 | gated navigation keeps the index within the blocks |
| Runner.ReachedThroughOpenGates | frontend/src/components/pages/Writing.jsx:143-150 | every block passed on the way forward had an open gate |
| Runner.OpenGatesWalk | frontend/src/components/pages/Writing.jsx:148-150 | with every gate open, n presses of next advance n blocks, stopping at the last |
| Runner.Record | frontend/src/components/pages/Listening.jsx:100-105 | the edited key gets the new value; every other entry is unchanged |
| Runner.LastWriteWins | frontend/src/components/pages/Reading.jsx:109-114 | writing a key twice keeps the later value; writes to different keys commute |
| Runner.ProgressPercent | frontend/src/components/pages/Listening.jsx:157-159 | the result is the integer nearest to answered × 100 / total, halves rounded up; a total of 0 gives NaN or Infinity |
| Runner.ProgressBounds | frontend/src/components/pages/Reading.jsx:207-209 | progress is between 0 and 100; 0 when nothing is answered, 100 when everything is |
| Runner.ProgressMonotone | frontend/src/components/pages/Writing.jsx:246-248 | more answers never lower the progress |
| Runner.EightOfTen | frontend/src/components/pages/Speaking.jsx:242-244 | 8 of 10 blocks recorded reads 80 |
| Runner.Decimal | frontend/src/components/pages/Listening.jsx:41-42 | a number prints as a non-empty string of digits, one digit exactly below 10 and at most two below 100 |
| Runner.DecimalRoundTrip | frontend/src/components/pages/Listening.jsx:41-42 | the printed digits read back as the number |
| Runner.DecimalInjective | frontend/src/components/pages/Listening.jsx:41-42 | different numbers print differently |
| Runner.LeadingZeroIgnored | frontend/src/components/pages/Listening.jsx:41-42 | a leading zero does not change the value read |
| Runner.PadTwo | frontend/src/components/pages/Listening.jsx:41-42 | padding makes a string at least two long and leaves longer ones alone |
| Runner.PaddedRoundTrip | frontend/src/components/pages/Listening.jsx:41-42 | a padded number reads back as itself, and below 100 it is exactly two digits |
| Runner.FormatTime | frontend/src/components/pages/Listening.jsx:40-44 | the clock text is at least five characters, with the colon third from the end |
| Runner.FormatTimeRoundTrip | frontend/src/components/pages/Listening.jsx:40-44 | the clock text has the colon third from the end, and it reads back as the seconds it was made from |
| Runner.BudgetReadsFifteenMinutes | frontend/src/components/pages/Listening.jsx:40-44 | 900 seconds reads `15:00` |
| Runner.SubmitAttempt | frontend/src/components/pages/Listening.jsx:162-166 | nothing is sent exactly when no stored email exists; otherwise the attempt is accepted as the reply was |
| Runner.CompletesOnlyWhenAccepted | frontend/src/components/pages/Listening.jsx:183-198 | the module completes exactly when an email was stored and the reply was accepted |
| Runner.Least | frontend/src/components/pages/Speaking.jsx:158 | the result is in the set and no larger than any member |
| Runner.AscendingKeys | frontend/src/components/pages/Speaking.jsx:158 | lists exactly the keys, each once, in strictly ascending order |
| Runner.StringKeys | frontend/src/components/pages/Speaking.jsx:158 | the keys that are not array indices, in the order stored |
| Runner.ObjectKeys | frontend/src/components/pages/Speaking.jsx:158 | lists every key once: the array indices ascending, then the other keys in the order first stored; all ascending when every key is an index |
| Runner.ObjectKeyOrderUnique | frontend/src/components/pages/Writing.jsx:175 | the listing is determined by the keys and the order they were stored in |
| Runner.AscendingUnique | frontend/src/components/pages/Writing.jsx:175 | two strictly ascending lists of the same keys are equal |
| ChoicePages.Progress | frontend/src/components/pages/Listening.jsx:157-159 | with questions on the page, the bar is the answered questions over all questions times 100, rounded to the nearest integer with halves up; with none, NaN before any answer and Infinity after |
| ChoicePages.ProgressOfOfferedQuestions | frontend/src/components/pages/Listening.jsx:157-159 | with answers only to offered questions, progress is a number between 0 and 100, and 100 once every question is answered |
| ChoicePages.SelectingNeverLowersProgress | frontend/src/components/pages/Reading.jsx:207-209 | selecting an option never lowers the progress |
| ChoicePages.ListeningCompletes | frontend/src/components/pages/Listening.jsx:161-199 | Listening completes only with a stored email |
| ChoicePages.ListeningCompletesOnlyWhenAccepted | frontend/src/components/pages/Listening.jsx:183-198 | Listening completes exactly with a stored email and an accepted reply |
| ChoicePages.ReadingSubmit | frontend/src/components/pages/Reading.jsx:128-160 | without an email, the error screen shows and the modal is unchanged; with one, the modal reports success or failure as the reply was |
| ChoicePages.ReadingTimeUp | frontend/src/components/pages/Reading.jsx:34-42 | at time-up with a stored email the reply's notice replaces the time-up notice; without one the error screen covers the time-up notice |
| ChoicePages.CloseModal | frontend/src/components/pages/Reading.jsx:162-167 | closing the modal hides it and always completes the module |
| ChoicePages.ReadingCompletesAfterAnyReply | frontend/src/components/pages/Reading.jsx:154-158 | with an email, the modal can be closed, and so the module completed, after a failed send too, unlike Listening |
| SpeakingPage.StartRecording | frontend/src/components/pages/Speaking.jsx:92-125 | a refused microphone sets the error and changes nothing else, which ends recording for the mount (`SpeakingPage.RefusalEndsRecording`); a granted one starts a recorder for the block; no recording is stored either way |
| SpeakingPage.StopRecording | frontend/src/components/pages/Speaking.jsx:127-133 | without a live recorder nothing changes; otherwise recording stops and only the started block's take is stored or replaced |
| SpeakingPage.StopTwiceIsStopOnce | frontend/src/components/pages/Speaking.jsx:128 | a second stop does nothing |
| SpeakingPage.Apply | frontend/src/components/pages/Speaking.jsx:92-145 | while no error is set, every action keeps the block index on the page, a move leaves the microphone state alone, and starting and stopping leave the block alone; a refused start sets the error; once an error is set, no action changes the page |
| SpeakingPage.ErrorScreenIsFinal | frontend/src/components/pages/Speaking.jsx:215-229 | with an error set, the error screen replaces the page and its retry button keeps the error, so no run of actions changes the page |
| SpeakingPage.RefusalEndsRecording | frontend/src/components/pages/Speaking.jsx:122-124 | a refused microphone sets the error and keeps the takes, and after it no action records, stops or moves |
| SpeakingPage.ApplyMoves | frontend/src/components/pages/Speaking.jsx:135-145 | navigation keeps the index in range and leaves the microphone state alone |
| SpeakingPage.TakeFiledUnderStartingBlock | frontend/src/components/pages/Speaking.jsx:102-117 | a take is filed under the block where recording started, however far the candidate navigated before stopping; on the error screen nothing happens |
| SpeakingPage.SubmitEnabledIffEveryBlockRecorded | frontend/src/components/pages/Speaking.jsx:391 | the submit button is enabled exactly when every block has a take |
| SpeakingPage.IdText | frontend/src/components/pages/Speaking.jsx:159 | a block id prints with a minus sign exactly when it is negative, followed by its digits |
| SpeakingPage.IdTextDistinct | frontend/src/components/pages/Speaking.jsx:159 | different ids print differently |
| SpeakingPage.FileNamesDistinct | frontend/src/components/pages/Speaking.jsx:159 | different blocks get different file names |
| SpeakingPage.PartsOf | frontend/src/components/pages/Speaking.jsx:158-160 | one part per id, named after the block and carrying its take |
| SpeakingPage.DistinctIdsDistinctNames | frontend/src/components/pages/Speaking.jsx:159 | parts for distinct ids have distinct file names |
| SpeakingPage.AudioParts | frontend/src/components/pages/Speaking.jsx:158-160 | the payload has exactly one part per recorded block, in the order `Object.entries` lists the block ids (ascending when every id is an array index), each with its own take and a file name no other part shares |
| SpeakingPage.SpeakingSubmit | frontend/src/components/pages/Speaking.jsx:147-202 | completes exactly with an email and an accepted reply; only then are the score, the report and a non-empty level stored, each as the reply gave it, an absent one keeping the stored value; no other storage key changes |
| WritingPage.ValidateAnswer | frontend/src/components/pages/Writing.jsx:24-51 | a block's answer is refused exactly when it contains a sentence of that block's example |
| WritingPage.ValidationIgnoresBlockId | frontend/src/components/pages/Writing.jsx:24-25 | the block id passed to validation does not matter |
| WritingPage.AnswerOf | frontend/src/components/pages/Writing.jsx:140 | a block without an answer reads as the empty string |
| WritingPage.NextBlock | frontend/src/components/pages/Writing.jsx:138-151 | next moves one block on exactly when the current answer passes and a later block exists; otherwise the index stays |
| WritingPage.Gates | frontend/src/components/pages/Writing.jsx:143 | one gate per block, open exactly when that block's answer passes |
| WritingPage.Navigate | frontend/src/components/pages/Writing.jsx:138-157 | navigation keeps the index within the blocks |
| WritingPage.NavigateIsGated | frontend/src/components/pages/Writing.jsx:138-157 | Writing's navigation is the generic gated navigation over its validation gates |
| WritingPage.ReachedBlocksPassed | frontend/src/components/pages/Writing.jsx:143-150 | every block left behind going forward held a passing answer |
| WritingPage.BlankAnswersWalkThrough | frontend/src/components/pages/Writing.jsx:140-150 | with no answers typed, n presses of next advance n blocks, up to the last |
| WritingPage.ValuesAt | frontend/src/components/pages/Writing.jsx:175 | the answers of the listed blocks, in the listed order |
| WritingPage.Texto | frontend/src/components/pages/Writing.jsx:175 | the payload joins every answer by a blank line, in the order `Object.values` lists the block ids (ascending when every id is an array index); every answer occurs in it, validated or not |
| WritingPage.JoinedPieceOccurs | frontend/src/components/pages/Writing.jsx:175 | every piece of a join occurs in the joined text |
| WritingPage.WritingSubmit | frontend/src/components/pages/Writing.jsx:159-206 | completes exactly with an email and an accepted reply; only then are the score and the criteria stored |
| Content.ByVertical | backend/core/viewsets/listening_viewsets.py:19-27 | once the parameter is read as a number: no parameter lists every test; a parameter keeps exactly the tests of that vertical |
| Content.ListTests | backend/core/viewsets/listening_viewsets.py:19-27 | without the parameter every test is listed; a parameter that Python's `int` reads as a number keeps exactly that vertical's tests; any other text is the error outcome (the filter raises, the server answers 500) |
| Content.PyIntReadsDecimal | backend/core/viewsets/reading_viewsets.py:24-26 | a decimal number, with an optional sign and white space at either end, reads as its value |
| Content.OnlyNumberCharacters | backend/core/viewsets/listening_viewsets.py:24-26 | a parameter that reads as a number holds nothing but white space, signs and digits |
| Content.LetterIsNotANumber | backend/core/viewsets/reading_viewsets.py:24-26 | a parameter holding a letter never reads as a number |
| Content.ListTestsByDecimal | backend/core/viewsets/reading_viewsets.py:19-27 | a vertical sent as its decimal text lists exactly that vertical's tests |
| Content.UndefinedVerticalFails | frontend/src/components/pages/Reading.jsx:58 | the text `undefined`, which Reading and Speaking send when mounted without a vertical, makes the listing fail |
| Content.ByVerticalKeepsOrder | backend/core/viewsets/reading_viewsets.py:19-27 | filtering keeps the listing order, and filtering twice is filtering once |
| Content.QuestionIdsBounded | backend/core/viewsets/listening_viewsets.py:102-104 | there are never more distinct question ids than questions |
| Scoring.FindOption | backend/core/viewsets/listening_viewsets.py:109-112 | an option is found only among that question's own options, and is absent exactly when none has the id |
| Scoring.CorrectIn | backend/core/viewsets/listening_viewsets.py:103-114 | a block never has more correct answers than questions |
| Scoring.CorrectCountBounded | backend/core/viewsets/listening_viewsets.py:99-116 | 0 ≤ correct ≤ total |
| Scoring.AllCorrectIn | backend/core/viewsets/reading_viewsets.py:54-67 | a block's count equals its size exactly when every question is correct |
| Scoring.AllCorrect | backend/core/viewsets/reading_viewsets.py:53-67 | the count reaches the total exactly when every question of every block is correct |
| Scoring.NoAnswersInBlock | backend/core/viewsets/reading_viewsets.py:56-58 | with no answers, no question of a block is correct |
| Scoring.NoAnswersNoneCorrect | backend/core/viewsets/listening_viewsets.py:105-107 | with no answers, nothing is correct |
| Scoring.ForeignOptionNotCounted | backend/core/viewsets/listening_viewsets.py:109-116 | an option id from another question scores nothing, even a correct one |
| Scoring.CorrectInSnoc | backend/core/viewsets/listening_viewsets.py:103-114 | one more question adds one exactly when it is correct |
| Scoring.CountsSnoc | backend/core/viewsets/listening_viewsets.py:102-104 | one more block adds its questions and its correct answers |
| Scoring.Tally | backend/core/viewsets/listening_viewsets.py:99-116 | the nested loop counts every question of every block, and exactly the correct ones |
| Scoring.Score | backend/core/viewsets/listening_viewsets.py:119-122 | score × total = 100 × correct; a test without questions scores 0 |
| Scoring.ScoreBounds | backend/core/viewsets/reading_viewsets.py:69-73 | the score is between 0 and 100; 0 with nothing correct; 100 exactly when everything is correct |
| Scoring.ScoreMonotone | backend/core/viewsets/listening_viewsets.py:119-120 | more correct answers never lower the score |
| Scoring.HttpStatus | backend/core/viewsets/listening_viewsets.py:79-96 | 200 exactly for a scored submission, 400 exactly for a missing email, 404 exactly for an unknown test or user |
| Scoring.Record | backend/core/viewsets/listening_viewsets.py:124-126 | only the section's result changes; the profile is saved consistent |
| Scoring.SubmitAnswers | backend/core/viewsets/listening_viewsets.py:79-133 | checks the test, then the email (400), then the user (404); every error leaves profiles alone; a score is returned and stored exactly for an existing user, and it is the percentage of correct answers |
| WritingGrade.Numeric | backend/core/viewsets/writing_viewsets.py:54 | `sum` adds a number as itself and a boolean as 1 or 0, and refuses anything else |
| WritingGrade.Field | backend/core/viewsets/writing_viewsets.py:47-50 | a criterion the evaluator omitted counts as 0; a present one counts as `sum` reads it |
| WritingGrade.Normalise | backend/core/viewsets/writing_viewsets.py:46-54 | each normalised criterion is read from its long key, defaulting to 0; there are no criteria exactly when one of the four is present but not a number |
| WritingGrade.Average | backend/core/viewsets/writing_viewsets.py:54 | the score is the mean of the four criteria: their deviations from it sum to zero |
| WritingGrade.AverageBetween | backend/core/viewsets/writing_viewsets.py:54 | the mean of the four criteria lies between their bounds |
| WritingGrade.MissingCriteriaScoreZero | backend/core/viewsets/writing_viewsets.py:46-54 | an evaluation naming none of the four criteria scores 0 |
| WritingGrade.Round2 | backend/core/viewsets/writing_viewsets.py:62 | the result has at most two decimals and lies within half a hundredth of the input |
| WritingGrade.Round2KeepsTwoDecimals | backend/core/viewsets/writing_viewsets.py:62 | a value with two decimals is not changed by rounding |
| WritingGrade.Round2Idempotent | backend/core/viewsets/writing_viewsets.py:62 | rounding twice is rounding once |
| WritingGrade.WholeCriteriaNeedNoRounding | backend/core/viewsets/writing_viewsets.py:54-62 | with whole-number criteria the replied score equals the stored one |
| WritingGrade.HttpStatus | backend/core/viewsets/writing_viewsets.py:26-70 | 200 exactly for a graded answer, 400 exactly for missing input, 404 exactly for an unknown test or user, 500 exactly for a failed evaluation |
| WritingGrade.SubmitWriting | backend/core/viewsets/writing_viewsets.py:26-70 | checks the test, then email and text (400), then the user (404), then the evaluation and its criteria (500); only a graded reply changes profiles; it stores the unrounded mean and replies with it rounded |
| WritingGrade.NonNumericCriterionIsServerError | backend/core/viewsets/writing_viewsets.py:54-70 | a criterion such as `null` or `"8"` gives 500 and saves nothing |
| WritingGrade.StoredScoreIsMean | backend/core/viewsets/writing_viewsets.py:54-58 | the profile keeps the exact mean |
| WritingGrade.RepliedScoreIsRounded | backend/core/viewsets/writing_viewsets.py:60-65 | the reply carries the mean rounded to two decimals |
| Profile.Present | backend/core/models/sections/user_profile.py:56 | keeps exactly the results that are present; empty exactly when none is |
| Profile.SumBetween | backend/core/models/sections/user_profile.py:58 | a sum of values in [lo, hi] lies between count × lo and count × hi |
| Profile.Mean | backend/core/models/sections/user_profile.py:57-61 | there is no mean exactly when no result is present |
| Profile.MeanBetween | backend/core/models/sections/user_profile.py:56-58 | the general result lies between the least and the greatest present result |
| Profile.LevelOf | backend/core/models/sections/user_profile.py:64-74 | no level without a general result; advanced from 80, intermediate in [50, 80), basic in [0, 50), beginner only below 0 |
| Profile.LevelMonotone | backend/core/models/sections/user_profile.py:67-74 | a higher general result never gives a lower level |
| Profile.Save | backend/core/models/sections/user_profile.py:76-78 | saving keeps the results and recomputes the general result and the level; no general result exactly when no result is present |
| Profile.SaveIsConsistentAndIdempotent | backend/core/models/sections/user_profile.py:76-78 | a saved profile is never stale; saving again changes nothing; a consistent profile saves unchanged |
| Profile.InRangeNeverBeginner | backend/core/models/sections/user_profile.py:64-74 | with every result within the validators' 0 to 100, the general result is too, and the level is never beginner |
| Profile.UniformResultsSetLevel | backend/core/models/sections/user_profile.py:49-74 | results all from 80 up give advanced; all in [0, 50) give basic |
| WordSplit.SpaceRun | backend/core/utils/auth0.py:13 | the length of the leading run of white space |
| WordSplit.WordRun | backend/core/utils/auth0.py:13 | the length of the leading run without white space |
| WordSplit.Words | backend/core/utils/auth0.py:13 | splitting yields non-empty words without white space |
| WordSplit.WordsOfBlanks | backend/core/utils/auth0.py:13 | there are no words exactly when the text is all white space |
| WordSplit.WordsUnwords | backend/core/utils/auth0.py:13 | splitting words joined by spaces gives the words back |
| WordSplit.WordsAcrossBlank | frontend/src/components/pages/Writing.jsx:15 | the words of two texts joined by a run of white space are the words of the first followed by the words of the second |
| WordSplit.LeadingBlanksDropped | backend/core/utils/auth0.py:13 | white space before a text adds no word |
| WordSplit.TrailingBlanksDropped | backend/core/utils/auth0.py:13 | white space after a text adds no word |
| WordSplit.WordThenBlank | backend/core/utils/auth0.py:13 | a word followed by white space or the end is the first word |
| AuthHeader.TokenOf | backend/core/utils/auth0.py:8-22 | a returned token is a word; the header counts as missing exactly when it is absent or empty |
| AuthHeader.TokenOfCharacterised | backend/core/utils/auth0.py:13-22 | a token is returned exactly for two words whose first reads `bearer` in any case, and it is the second word |
| AuthHeader.TokenErrorsCharacterised | backend/core/utils/auth0.py:9-20 | a white-space header has no words; a first word other than `bearer` is refused for its scheme, even alone; `bearer` alone has no token; more than two words are refused |
| AuthHeader.BearerRoundTrip | backend/core/utils/auth0.py:13-22 | `Bearer <token>`, in any letter case, yields the token |
| AuthHeader.SpacedBearer | backend/core/utils/auth0.py:13-22 | any run of white space between scheme and token, and any white space around them, still yields the token |
| Accounts.EmailFromToken | backend/core/viewsets/user_viewsets.py:14-28 | the email claim if present; otherwise the user-info email when a subject exists; otherwise no email |
| Accounts.Authenticate | backend/core/viewsets/user_viewsets.py:39-40 | claims exist exactly when the header yields a token and that token verifies |
| Accounts.GetOrCreate | backend/core/viewsets/user_viewsets.py:54-62 | creates exactly for an unknown email, as a saved new profile; the profile ends with the given vertical; an existing profile keeps its email and results; with the same vertical neither the profile nor the profiles change; with another vertical the re-save leaves it consistent (general result and level recomputed) |
| Accounts.LoginStatus | backend/core/viewsets/user_viewsets.py:44-68 | 200 exactly for a profile, 401 exactly for a refused token, 400 exactly for a missing email, vertical or subject, 404 exactly for an unknown user |
| Accounts.CreateStatus | backend/core/viewsets/user_viewsets.py:227-231 | 201 exactly for a created profile, 200 exactly for an existing one; a refusal answers as login does |
| Accounts.Login | backend/core/viewsets/user_viewsets.py:33-68 | a profile is returned exactly for an accepted token with an email and a vertical; every refusal leaves profiles alone |
| Accounts.CreateWithVertical | backend/core/viewsets/user_viewsets.py:194-237 | a profile is returned exactly for an accepted token whose email resolves and a request vertical; `created` exactly for a new email |
| Accounts.RefusalOrderAndStatus | backend/core/viewsets/user_viewsets.py:206-231 | the missing email is reported before the missing vertical, each with 400; 201 exactly when a profile was created; login answers 200 on success |
| Accounts.CreateWithVerticalRepeatable | backend/core/viewsets/user_viewsets.py:214-231 | repeating the call changes nothing more and answers 200 |
| Accounts.LoginAndCreateAgree | backend/core/viewsets/user_viewsets.py:214-225 | with the same email and vertical, login and create-with-vertical leave the same profiles |
| Accounts.Merge | backend/core/viewsets/user_viewsets.py:299-309 | each result is replaced only by a given value, the rest stay, and the profile is saved consistent |
| Accounts.MergeLaws | backend/core/viewsets/user_viewsets.py:299-306 | merging nothing changes a consistent profile; merging the same results twice is merging them once |
| Accounts.UpdateTestResults | backend/core/viewsets/user_viewsets.py:275-358 | refusals before the lookup leave profiles alone; for a known user the merge is saved even when the missing subject then gives 400 |
| Accounts.ProviderFailureIsInvisible | backend/core/viewsets/user_viewsets.py:329-347 | the reply does not depend on whether the identity provider accepted the update |

## Left out

- Network and database I/O are left out: `fetch`, the REST framework's responses and the ORM. Lookups are given maps and sequences, and replies are datatypes.
- Browser storage is a map from keys to strings, plus the parsed completion record. JSON encoding is not modelled.
- Timers and React scheduling are left out. The countdown is a discrete tick and the expiry check is a separate step. The effect that runs after each render is not modelled.
- The alert texts, `console` output and rendering are left out, except the flags that decide what happens next.
- The token's signature check (`verify_jwt`), the user-info request, the management API token and `update_user_app_metadata` are network and cryptography. They enter as inputs: verified claims, the user-info email, and whether the provider accepted.
- MediaRecorder, microphone access, Blobs and object URLs are left out. A take is an opaque sequence and access is a granted flag.
- The fetch of the available tests and of one test, with its loading and error screens, is left out. The pages are modelled once test content is present.
- The external evaluators for speaking and writing are left out. The Speaking reply and the Writing criteria are inputs.
- The speaking endpoint itself is not part of this model.
- Numbers are unbounded integers and exact reals, not IEEE doubles:
  - `Math.round` becomes half-up integer rounding.
  - Python's `round(score, 2)` becomes `WritingGrade.Round2`, which rounds halves up instead of to even.
- White space and letter case follow ASCII only. JavaScript `\s` and Python `str.split` also accept further Unicode spaces, and `toLowerCase` folds non-ASCII letters.
- Object keys are integers. The order in which the keys of `recordings` and `answers` were first stored is an input (`inserted`) of `SpeakingPage.AudioParts` and `WritingPage.Texto`; the page state does not track it. Keys that are not integers are not modelled.
- Each tab switch mounts a fresh module page (frontend/src/components/pages/test.jsx:90-103). Switching away and back restarts that module's 900-second countdown and drops its answers and recordings. No page stores its answers: the only storage keys the pages write are `userTestInfo`, `completedTests`, `speaking_feedback`, `speaking_level` and `writing_criterios`. So the `Runner` properties hold for one mount of a page, not across tab switches.
- Content.ByVertical: takes the parameter already read as a number; reading its text, and the error for text that is not a number, is `Content.ListTests`.
- Content.ListTests: reads the parameter as Python's `int` does on ASCII text. Underscores between digits (`1_000`) and non-ASCII digits, which `int` also accepts, are not modelled.
- Accounts.CreateWithVertical: the request's `vertical_id` is modelled as a number. The selection modal sends the select's text (for example `"3"`), so the comparison `user.vertical != vertical_id` in backend/core/viewsets/user_viewsets.py:220 holds for every existing profile, and the profile is saved again on each call. Saving a consistent profile changes no modelled field, so only the extra write is not shown.
- SpeakingPage.Apply: the manual submit is not one of its actions. On the error screen the submit button is gone as well, and only the timer's automatic submit still sends.
- The model validators (0 to 100) are not run on `save` in the source. The model does not enforce them either; `Profile.InRangeNeverBeginner` assumes them.
- The `nivel` request field of `update_test_results` is read and never used, so it is left out.
- The profile's timestamps and the metadata sent to the identity provider are left out, because nothing decides on them.
- Runner.ProgressPercent: counts answer keys as the page does. Keys that name no offered question are the page's concern, and `ChoicePages.ProgressOfOfferedQuestions` assumes there are none.
- SpeakingPage.SpeakingSubmit: the stored score is the reply's score as a real. The JSON form of the report is not modelled.
- AntiCopy.Trim: its own contract fixes the edges and that the result is a slice of the input; that it keeps the words is the separate lemma `AntiCopy.TrimKeepsWords`.
- AntiCopy.Collapse: its own contract fixes the length, the edges and the single spacing; that it keeps the words is the separate lemma `AntiCopy.CollapseKeepsWords`.
- WritingGrade.Normalise: a boolean criterion counts as 1 or 0, as in `sum`; the reply echoes it as `true` or `false`, which the model shows as its number. A criterion that is a float infinity or NaN is not modelled.
- WritingGrade.SubmitWriting: an evaluator reply that is not JSON, or not a JSON object, is the `Unavailable` evaluation.

=== FILE: accounts.dfy ===
/**
 * The account endpoints: login, which creates or updates the profile from
 * the token's claims; create-with-vertical, which does the same with the
 * vertical taken from the request; and the test-results update, which
 * merges the given module results into the profile and mirrors the
 * outcome to the identity provider.
 */
module Accounts {
  import opened Wrappers
  import opened Profile
  import opened AuthHeader

  /** The claims of a verified token that the endpoints read. */
  datatype Claims = Claims(email: Option<string>, sub: Option<string>, verticalId: Option<int>)

  /** `if not vertical_id`: missing or 0. */
  predicate HasVertical(v: Option<int>) {
    v.Some? && v.value != 0
  }

  /** `get_email_from_token`: the email claim, or, when it is missing and a
      subject is present, the email the identity provider's user-info
      endpoint returned. */
  function EmailFromToken(claims: Claims, userinfoEmail: Option<string>): (e: Option<string>)
    ensures Truthy(claims.email) ==> e == claims.email
    ensures !Truthy(claims.email) && !Truthy(claims.sub) ==> !Truthy(e)
    ensures !Truthy(claims.email) && Truthy(claims.sub) ==> e == userinfoEmail
  {
    if Truthy(claims.email) then claims.email
    else if Truthy(claims.sub) then userinfoEmail
    else claims.email
  }

  /** The replies of the account endpoints. */
  datatype Reply =
    | Unauthorized
    | EmailNotFound
    | VerticalMissing
    | SubjectMissing
    | UserNotFound
    | Profiled(profile: UserProfile, created: bool)

  /** The status codes the endpoints answer with. Login answers 200 even
      when it created the profile. */
  function LoginStatus(r: Reply): (code: int)
    ensures code == 200 <==> r.Profiled?
    ensures code == 401 <==> r.Unauthorized?
    ensures code == 404 <==> r.UserNotFound?
    ensures code == 400 <==> r.EmailNotFound? || r.VerticalMissing? || r.SubjectMissing?
  {
    match r
    case Unauthorized => 401
    case UserNotFound => 404
    case Profiled(_, _) => 200
    case _ => 400
  }

  function CreateStatus(r: Reply): (code: int)
    ensures code == 201 <==> r.Profiled? && r.created
    ensures code == 200 <==> r.Profiled? && !r.created
    ensures !r.Profiled? ==> code == LoginStatus(r)
  {
    match r
    case Profiled(_, created) => if created then 201 else 200
    case _ => LoginStatus(r)
  }

  /** The token: the header must yield one, and it must verify. */
  function Authenticate(header: Option<string>, verified: Option<Claims>): (c: Option<Claims>)
    ensures c.Some? <==> TokenOf(header).Success? && verified.Some?
    ensures c.Some? ==> c == verified
  {
    if TokenOf(header).Failure? then None else verified
  }

  /** `get_or_create` followed by the vertical update: a new profile gets
      the vertical; an existing one is re-saved only if its vertical differs. */
  function GetOrCreate(profiles: map<string, UserProfile>, email: string, vertical: int): (r: (UserProfile, bool, map<string, UserProfile>))
    ensures r.1 <==> email !in profiles
    ensures r.2 == profiles[email := r.0]
    ensures r.0.email == (if r.1 then email else profiles[email].email)
    ensures r.0.vertical == vertical
    ensures !r.1 ==> Results(r.0) == Results(profiles[email])
    ensures r.1 ==> r.0 == Save(NewProfile(email, vertical))
    ensures !r.1 && profiles[email].vertical == vertical ==> r.0 == profiles[email] && r.2 == profiles
    ensures !r.1 && profiles[email].vertical != vertical ==> Consistent(r.0)
  {
    if email !in profiles then
      var p := Save(NewProfile(email, vertical));
      (p, true, profiles[email := p])
    else
      var p := profiles[email];
      if p.vertical != vertical then
        var p' := Save(p.(vertical := vertical));
        SaveIsConsistentAndIdempotent(p.(vertical := vertical));
        (p', false, profiles[email := p'])
      else (p, false, profiles)
  }

  /** `auth0_login_view`: the email and the vertical come from the token's claims. */
  function Login(header: Option<string>, verified: Option<Claims>, profiles: map<string, UserProfile>): (r: (Reply, map<string, UserProfile>))
    ensures Authenticate(header, verified).None? ==> r.0 == Unauthorized
    ensures !r.0.Profiled? ==> r.1 == profiles
    ensures r.0.Profiled? <==> Authenticate(header, verified).Some? && Truthy(verified.value.email) && HasVertical(verified.value.verticalId)
    ensures r.0.Profiled? ==> r.1 == GetOrCreate(profiles, verified.value.email.value, verified.value.verticalId.value).2
    ensures r.0.Profiled? ==> r.1[verified.value.email.value] == r.0.profile && r.0.profile.vertical == verified.value.verticalId.value
  {
    match Authenticate(header, verified)
    case None => (Unauthorized, profiles)
    case Some(claims) =>
      if !Truthy(claims.email) then (EmailNotFound, profiles)
      else if !HasVertical(claims.verticalId) then (VerticalMissing, profiles)
      else
        var (p, created, after) := GetOrCreate(profiles, claims.email.value, claims.verticalId.value);
        (Profiled(p, created), after)
  }

  /** `create_with_vertical`: the email may come from the user-info
      endpoint; the vertical comes from the request body. */
  function CreateWithVertical(header: Option<string>, verified: Option<Claims>, userinfoEmail: Option<string>,
                              vertical: Option<int>, profiles: map<string, UserProfile>): (r: (Reply, map<string, UserProfile>))
    ensures Authenticate(header, verified).None? ==> r.0 == Unauthorized
    ensures !r.0.Profiled? ==> r.1 == profiles
    ensures r.0.Profiled? <==> Authenticate(header, verified).Some? && Truthy(EmailFromToken(verified.value, userinfoEmail)) && HasVertical(vertical)
    ensures r.0.Profiled? ==> (r.0.created <==> EmailFromToken(verified.value, userinfoEmail).value !in profiles)
    ensures r.0.Profiled? ==> r.1 == GetOrCreate(profiles, EmailFromToken(verified.value, userinfoEmail).value, vertical.value).2
  {
    match Authenticate(header, verified)
    case None => (Unauthorized, profiles)
    case Some(claims) =>
      var email := EmailFromToken(claims, userinfoEmail);
      if !Truthy(email) then (EmailNotFound, profiles)
      else if !HasVertical(vertical) then (VerticalMissing, profiles)
      else
        var (p, created, after) := GetOrCreate(profiles, email.value, vertical.value);
        (Profiled(p, created), after)
  }

  /** Once the token is accepted, both endpoints refuse a missing email
      before a missing vertical, each with 400; create-with-vertical answers
      201 exactly when it made a new profile, login answers 200 either way. */
  lemma RefusalOrderAndStatus(header: Option<string>, claims: Claims, userinfoEmail: Option<string>,
                              vertical: Option<int>, profiles: map<string, UserProfile>)
    requires TokenOf(header).Success?
    ensures !Truthy(claims.email) ==> Login(header, Some(claims), profiles).0 == EmailNotFound
    ensures Truthy(claims.email) && !HasVertical(claims.verticalId) ==> Login(header, Some(claims), profiles).0 == VerticalMissing
    ensures LoginStatus(Login(header, Some(claims), profiles).0) == 400 <==> !(Truthy(claims.email) && HasVertical(claims.verticalId))
    ensures LoginStatus(Login(header, Some(claims), profiles).0) == 200 <==> Truthy(claims.email) && HasVertical(claims.verticalId)
    ensures !Truthy(EmailFromToken(claims, userinfoEmail)) ==>
      CreateWithVertical(header, Some(claims), userinfoEmail, vertical, profiles).0 == EmailNotFound
    ensures Truthy(EmailFromToken(claims, userinfoEmail)) && !HasVertical(vertical) ==>
      CreateWithVertical(header, Some(claims), userinfoEmail, vertical, profiles).0 == VerticalMissing
    ensures CreateStatus(CreateWithVertical(header, Some(claims), userinfoEmail, vertical, profiles).0) == 201 <==>
      Truthy(EmailFromToken(claims, userinfoEmail)) && HasVertical(vertical) && EmailFromToken(claims, userinfoEmail).value !in profiles
  {
  }

  /** Repeating the same call answers 200 instead of 201 and changes nothing. */
  lemma CreateWithVerticalRepeatable(header: Option<string>, verified: Option<Claims>, userinfoEmail: Option<string>,
                                     vertical: Option<int>, profiles: map<string, UserProfile>)
    ensures var first := CreateWithVertical(header, verified, userinfoEmail, vertical, profiles);
      var second := CreateWithVertical(header, verified, userinfoEmail, vertical, first.1);
      second.1 == first.1 && (first.0.Profiled? ==> CreateStatus(second.0) == 200)
  {
  }

  /** With the same email and vertical, logging in and
      create-with-vertical leave the same profiles behind. */
  lemma LoginAndCreateAgree(header: Option<string>, claims: Claims, userinfoEmail: Option<string>, profiles: map<string, UserProfile>)
    requires Truthy(claims.email) && HasVertical(claims.verticalId)
    ensures Login(header, Some(claims), profiles).1 == CreateWithVertical(header, Some(claims), userinfoEmail, claims.verticalId, profiles).1
  {
  }

  // ---------------------------------------------------------------------------
  // Test results

  /** The `test_results` object; a null or missing entry leaves that result alone. */
  datatype TestResults = TestResults(listening: Option<real>, speaking: Option<real>, reading: Option<real>, writing: Option<real>)

  function Override(stored: Option<real>, given: Option<real>): Option<real> {
    if given.Some? then given else stored
  }

  /** Each non-null result replaces the stored one; the save recomputes the
      general result and level. */
  function Merge(p: UserProfile, t: TestResults): (r: UserProfile)
    ensures r.listening == Override(p.listening, t.listening) && r.speaking == Override(p.speaking, t.speaking)
    ensures r.reading == Override(p.reading, t.reading) && r.writing == Override(p.writing, t.writing)
    ensures r.email == p.email && r.vertical == p.vertical
    ensures Consistent(r)
  {
    Save(p.(listening := Override(p.listening, t.listening), speaking := Override(p.speaking, t.speaking),
            reading := Override(p.reading, t.reading), writing := Override(p.writing, t.writing)))
  }

  /** Sending no results leaves a consistent profile as it was; sending the
      same results twice is sending them once. */
  lemma MergeLaws(p: UserProfile, t: TestResults)
    ensures Consistent(p) ==> Merge(p, TestResults(None, None, None, None)) == p
    ensures Merge(Merge(p, t), t) == Merge(p, t)
  {
    SaveIsConsistentAndIdempotent(p);
  }

  /** `update_test_results`. The identity provider's update is attempted
      and its failure ignored: the reply is the same either way. */
  function UpdateTestResults(header: Option<string>, verified: Option<Claims>, userinfoEmail: Option<string>,
                             results: TestResults, profiles: map<string, UserProfile>,
                             providerAccepted: bool): (r: (Reply, map<string, UserProfile>))
    ensures Authenticate(header, verified).None? ==> r.0 == Unauthorized && r.1 == profiles
    ensures r.0 == EmailNotFound || r.0 == UserNotFound ==> r.1 == profiles
    ensures r.0.Profiled? || r.0 == SubjectMissing <==>
      Authenticate(header, verified).Some? && Truthy(EmailFromToken(verified.value, userinfoEmail))
      && EmailFromToken(verified.value, userinfoEmail).value in profiles
    ensures r.0.Profiled? || r.0 == SubjectMissing ==>
      var e := EmailFromToken(verified.value, userinfoEmail).value;
      r.1 == profiles[e := Merge(profiles[e], results)]
    ensures r.0 == SubjectMissing <==> r.0 != Unauthorized && r.0 != EmailNotFound && r.0 != UserNotFound && !Truthy(verified.value.sub)
    ensures r.0.Profiled? ==> !r.0.created
  {
    match Authenticate(header, verified)
    case None => (Unauthorized, profiles)
    case Some(claims) =>
      var email := EmailFromToken(claims, userinfoEmail);
      if !Truthy(email) then (EmailNotFound, profiles)
      else if email.value !in profiles then (UserNotFound, profiles)
      else
        var p := Merge(profiles[email.value], results);
        var after := profiles[email.value := p];
        if !Truthy(claims.sub) then (SubjectMissing, after)
        else (Profiled(p, false), after)
  }

  /** The reply does not depend on whether the identity provider accepted
      the update. */
  lemma ProviderFailureIsInvisible(header: Option<string>, verified: Option<Claims>, userinfoEmail: Option<string>,
                                   results: TestResults, profiles: map<string, UserProfile>)
    ensures UpdateTestResults(header, verified, userinfoEmail, results, profiles, true) ==
      UpdateTestResults(header, verified, userinfoEmail, results, profiles, false)
  {
  }
}

=== FILE: anticopy.dfy ===
/**
 * The Writing page's anti-copy check: an answer is refused when it contains,
 * after normalisation, any sentence of the block's example text.
 * Normalisation trims, collapses runs of white space to one space and
 * lower-cases; sentences are the non-empty trimmed pieces between periods.
 */
module AntiCopy {
  import opened Ascii
  import opened WordSplit

  // ---------------------------------------------------------------------------
  // Shapes of normalised text

  /** No white space at either end. */
  predicate NoEdgeSpace(s: string) {
    s == [] || (!IsJsSpace(s[0]) && !IsJsSpace(s[|s| - 1]))
  }

  /** Every white-space character is a plain space and no two are adjacent. */
  predicate SingleSpaced(s: string) {
    && (forall i :: 0 <= i < |s| && IsJsSpace(s[i]) ==> s[i] == ' ')
    && (forall i :: 0 <= i < |s| - 1 ==> !(IsJsSpace(s[i]) && IsJsSpace(s[i + 1])))
  }

  predicate NoUpper(s: string) {
    forall i :: 0 <= i < |s| ==> !IsUpper(s[i])
  }

  /** What the normaliser promises of its output. */
  predicate IsNormal(s: string) {
    NoEdgeSpace(s) && SingleSpaced(s) && NoUpper(s)
  }

  /** The characters of `s` that are not white space, in order. */
  function Visible(s: string): (r: string)
    ensures forall c :: c in r ==> c in s && !IsJsSpace(c)
  {
    if s == [] then []
    else if IsJsSpace(s[0]) then Visible(s[1..])
    else [s[0]] + Visible(s[1..])
  }

  /** `p` occurs in `s` starting at position `i`. */
  predicate OccursAt(p: string, s: string, i: int) {
    0 <= i <= |s| - |p| && s[i..i + |p|] == p
  }

  /** `p` occurs in `s` as a contiguous slice. */
  ghost predicate IsSubstring(p: string, s: string) {
    exists i :: OccursAt(p, s, i)
  }

  // ---------------------------------------------------------------------------
  // Trimming

  /** How many white-space characters `s` starts with. */
  function LeadingSpace(s: string): (n: nat)
    ensures n <= |s|
    ensures forall i :: 0 <= i < n ==> IsJsSpace(s[i])
    ensures n < |s| ==> !IsJsSpace(s[n])
  {
    if s != [] && IsJsSpace(s[0]) then 1 + LeadingSpace(s[1..]) else 0
  }

  /** How many white-space characters `s` ends with. */
  function TrailingSpace(s: string): (n: nat)
    ensures n <= |s|
    ensures forall i :: |s| - n <= i < |s| ==> IsJsSpace(s[i])
    ensures n < |s| ==> !IsJsSpace(s[|s| - 1 - n])
  {
    if s != [] && IsJsSpace(s[|s| - 1]) then 1 + TrailingSpace(s[..|s| - 1]) else 0
  }

  /** `String.prototype.trim`: a slice of `s` that starts and ends with a
      visible character, or empty when there is none; that it keeps all the
      words is `TrimKeepsWords`. */
  function Trim(s: string): (r: string)
    ensures NoEdgeSpace(r)
    ensures IsSubstring(r, s)
    ensures r == [] <==> forall i :: 0 <= i < |s| ==> IsJsSpace(s[i])
  {
    var a := LeadingSpace(s);
    if a == |s| then
      assert OccursAt([], s, 0);
      []
    else
      var r := s[a..|s| - TrailingSpace(s)];
      assert OccursAt(r, s, a);
      r
  }

  /** Trimming keeps every word, so with `NoEdgeSpace` and `IsSubstring`
      it fixes the result: from the first visible character to the last. */
  lemma TrimKeepsWords(s: string)
    ensures Words(JsBlanks, Trim(s)) == Words(JsBlanks, s)
  {
    var a, t := LeadingSpace(s), TrailingSpace(s);
    if a == |s| {
      assert Trim(s) == [];
      WordsOfBlanks(JsBlanks, s);
      WordsOfBlanks(JsBlanks, []);
    } else {
      var e := |s| - t;
      assert a <= e by {
        assert !IsJsSpace(s[a]);
      }
      assert Trim(s) == s[a..e];
      EdgeBlanksDropped(s, a, e);
    }
  }

  /** Cutting white space off both ends keeps the words. */
  lemma EdgeBlanksDropped(s: string, a: nat, e: nat)
    requires a <= e <= |s|
    requires forall i :: 0 <= i < a ==> IsJsSpace(s[i])
    requires forall i :: e <= i < |s| ==> IsJsSpace(s[i])
    ensures Words(JsBlanks, s[a..e]) == Words(JsBlanks, s)
  {
    var pre, mid, post := s[..a], s[a..e], s[e..];
    Split3(s, a, e);
    LeadingBlanksDropped(JsBlanks, pre, mid + post);
    TrailingBlanksDropped(JsBlanks, mid, post);
  }

  lemma TrimKeepsNoEdgeSpace(s: string)
    requires NoEdgeSpace(s)
    ensures Trim(s) == s
  {
  }

  lemma Split3(s: string, a: nat, e: nat)
    requires a <= e <= |s|
    requires forall i :: 0 <= i < a ==> IsJsSpace(s[i])
    requires forall i :: e <= i < |s| ==> IsJsSpace(s[i])
    ensures s == s[..a] + (s[a..e] + s[e..])
    ensures AllBlank(JsBlanks, s[..a]) && AllBlank(JsBlanks, s[e..])
  {
  }

  // ---------------------------------------------------------------------------
  // Collapsing white space

  /** `replace(/\s+/g, ' ')`: each maximal run of white space becomes one
      space. What is left is single-spaced; that the words stay as they are
      is `CollapseKeepsWords`. */
  function Collapse(s: string): (r: string)
    ensures |r| <= |s|
    ensures r == [] <==> s == []
    ensures r != [] ==> (IsJsSpace(r[0]) <==> IsJsSpace(s[0]))
    ensures r != [] ==> (IsJsSpace(r[|r| - 1]) <==> IsJsSpace(s[|s| - 1]))
    ensures SingleSpaced(r)
    decreases |s|
  {
    if s == [] then []
    else if IsJsSpace(s[0]) then
      var tail := Collapse(s[LeadingSpace(s)..]);
      ConsSingleSpaced(' ', tail);
      [' '] + tail
    else
      var tail := Collapse(s[1..]);
      ConsSingleSpaced(s[0], tail);
      [s[0]] + tail
  }

  /** Collapsing keeps the words: the maximal runs of visible characters,
      in order. With single spacing and the kept edges this fixes the result. */
  lemma {:induction false} CollapseKeepsWords(s: string)
    ensures Words(JsBlanks, Collapse(s)) == Words(JsBlanks, s)
    decreases |s|
  {
    if s != [] {
      if IsJsSpace(s[0]) {
        var k := LeadingSpace(s);
        CollapseKeepsWords(s[k..]);
        SpaceRunCollapsed(s, k, Collapse(s[k..]));
      } else {
        CollapseKeepsWords(s[1..]);
        VisibleHeadKept(s, Collapse(s[1..]));
      }
    }
  }

  /** A character put before single-spaced text keeps it single-spaced,
      unless it is white space meeting white space. */
  lemma ConsSingleSpaced(c: char, t: string)
    requires SingleSpaced(t)
    requires IsJsSpace(c) ==> c == ' ' && (t == [] || !IsJsSpace(t[0]))
    ensures SingleSpaced([c] + t)
  {
    var r := [c] + t;
    assert forall i :: 1 <= i < |r| ==> r[i] == t[i - 1];
  }

  /** One space in place of a leading run of white space keeps the words. */
  lemma SpaceRunCollapsed(s: string, k: nat, tail: string)
    requires 0 < k <= |s|
    requires forall i :: 0 <= i < k ==> IsJsSpace(s[i])
    requires Words(JsBlanks, tail) == Words(JsBlanks, s[k..])
    ensures Words(JsBlanks, [' '] + tail) == Words(JsBlanks, s)
  {
    assert s == s[..k] + s[k..];
    assert AllBlank(JsBlanks, s[..k]);
    LeadingBlanksDropped(JsBlanks, s[..k], s[k..]);
    LeadingBlanksDropped(JsBlanks, [' '], tail);
  }

  /** A visible first character put before text with the same words and the
      same start keeps the words. */
  lemma VisibleHeadKept(s: string, tail: string)
    requires s != [] && !IsJsSpace(s[0])
    requires Words(JsBlanks, tail) == Words(JsBlanks, s[1..])
    requires tail == [] <==> |s| == 1
    requires tail != [] ==> (IsJsSpace(tail[0]) <==> IsJsSpace(s[1]))
    ensures Words(JsBlanks, [s[0]] + tail) == Words(JsBlanks, s)
  {
    assert s == [s[0]] + s[1..];
    ConsSameWords(JsBlanks, s[0], tail, s[1..]);
  }

  /** Collapsing never adds, drops or reorders a visible character. */
  lemma {:induction false} CollapseKeepsVisible(s: string)
    ensures Visible(Collapse(s)) == Visible(s)
    decreases |s|
  {
    if s != [] {
      if IsJsSpace(s[0]) {
        var k := LeadingSpace(s);
        VisibleSkipsSpace(s, k);
        CollapseKeepsVisible(s[k..]);
        assert ([' '] + Collapse(s[k..]))[1..] == Collapse(s[k..]);
      } else {
        CollapseKeepsVisible(s[1..]);
        assert ([s[0]] + Collapse(s[1..]))[1..] == Collapse(s[1..]);
      }
    }
  }

  /** Dropping a white-space prefix does not change the visible characters. */
  lemma {:induction false} VisibleSkipsSpace(s: string, k: nat)
    requires k <= |s|
    requires forall i :: 0 <= i < k ==> IsJsSpace(s[i])
    ensures Visible(s) == Visible(s[k..])
    decreases k
  {
    if k > 0 {
      VisibleSkipsSpace(s[1..], k - 1);
      assert s[1..][k - 1..] == s[k..];
    }
  }

  /** Single-spaced text is left as it is. */
  lemma {:induction false} CollapseKeepsSingleSpaced(s: string)
    requires SingleSpaced(s)
    ensures Collapse(s) == s
    decreases |s|
  {
    if s != [] {
      SingleSpacedTail(s);
      CollapseKeepsSingleSpaced(s[1..]);
    }
  }

  /** After the first character, single-spaced text is single-spaced still;
      a leading space is a run of one. */
  lemma SingleSpacedTail(s: string)
    requires s != [] && SingleSpaced(s)
    ensures SingleSpaced(s[1..])
    ensures s == [s[0]] + s[1..]
    ensures IsJsSpace(s[0]) ==> s[0] == ' ' && LeadingSpace(s) == 1
  {
    var t := s[1..];
    assert forall i :: 0 <= i < |t| ==> t[i] == s[i + 1];
    if IsJsSpace(s[0]) {
      assert |s| == 1 || !IsJsSpace(s[1]);
    }
  }

  // ---------------------------------------------------------------------------
  // Normalisation

  /** `normalizeText`: trim, collapse white space, lower-case. The result
      is the words of the text, lower-cased and joined by single spaces. */
  function Normalize(t: string): (r: string)
    ensures r == LowerString(Unwords(Words(JsBlanks, t)))
    ensures IsNormal(r)
    ensures |r| <= |t|
    ensures r == [] <==> forall i :: 0 <= i < |t| ==> IsJsSpace(t[i])
  {
    CollapsedTrim(t);
    LowerString(Collapse(Trim(t)))
  }

  /** Trimming and then collapsing leaves the words joined by single spaces. */
  lemma CollapsedTrim(t: string)
    ensures NoEdgeSpace(Collapse(Trim(t))) && SingleSpaced(Collapse(Trim(t)))
    ensures Collapse(Trim(t)) == Unwords(Words(JsBlanks, t))
    ensures |Collapse(Trim(t))| <= |t|
    ensures Collapse(Trim(t)) == [] <==> forall i :: 0 <= i < |t| ==> IsJsSpace(t[i])
  {
    var c := Collapse(Trim(t));
    CollapseKeepsWords(Trim(t));
    TrimKeepsWords(t);
    TidyIsUnwords(c);
    var i :| OccursAt(Trim(t), t, i);
  }

  /** Trimmed, single-spaced text is its words joined by single spaces. */
  lemma {:induction false} TidyIsUnwords(s: string)
    requires NoEdgeSpace(s) && SingleSpaced(s)
    ensures Unwords(Words(JsBlanks, s)) == s
    decreases |s|
  {
    if s == [] {
      WordsOfBlanks(JsBlanks, s);
    } else {
      var n := WordRun(JsBlanks, s);
      var w, rest := s[..n], s[n..];
      SplitAt(s, n);
      WordThenBlank(JsBlanks, w, rest);
      if rest == [] {
        WordsOfBlanks(JsBlanks, rest);
      } else {
        var t := s[n + 1..];
        TidyAfterWord(s, n);
        OneSpaceDropped(JsBlanks, t);
        TidyIsUnwords(t);
        WordsOfBlanks(JsBlanks, t);
        UnwordsPrepend(w, Words(JsBlanks, t));
      }
    }
  }

  lemma SplitAt(s: string, n: nat)
    requires n <= |s|
    ensures s == s[..n] + s[n..]
    ensures s[n..] == [] ==> s == s[..n] && [s[..n]] + [] == [s[..n]]
  {
  }

  /** What follows the first word of trimmed, single-spaced text: one space,
      then trimmed, single-spaced text again. */
  lemma TidyAfterWord(s: string, n: nat)
    requires NoEdgeSpace(s) && SingleSpaced(s)
    requires n < |s| && IsJsSpace(s[n])
    ensures n + 1 < |s| && s[n..] == " " + s[n + 1..] && !IsBlank(JsBlanks, s[n + 1])
    ensures NoEdgeSpace(s[n + 1..]) && SingleSpaced(s[n + 1..])
  {
    assert s[n] == ' ';
    var t := s[n + 1..];
    assert forall i :: 0 <= i < |t| ==> t[i] == s[n + 1 + i];
  }

  /** Normalising twice is normalising once. */
  lemma NormalizeIdempotent(t: string)
    ensures Normalize(Normalize(t)) == Normalize(t)
  {
    var n := Normalize(t);
    TrimKeepsNoEdgeSpace(n);
    CollapseKeepsSingleSpaced(n);
    assert LowerString(n) == n;
  }

  /** Text that is already trimmed and single-spaced is only lower-cased. */
  lemma NormalizeTidy(s: string)
    requires NoEdgeSpace(s) && SingleSpaced(s)
    ensures Normalize(s) == LowerString(s)
  {
    TrimKeepsNoEdgeSpace(s);
    CollapseKeepsSingleSpaced(s);
  }

  /** A normal string is its own normal form. */
  lemma NormalIsFixedPoint(s: string)
    requires IsNormal(s)
    ensures Normalize(s) == s
  {
    TrimKeepsNoEdgeSpace(s);
    CollapseKeepsSingleSpaced(s);
    assert LowerString(s) == s;
  }

  // ---------------------------------------------------------------------------
  // Sentences

  /** `text.split(d)`: the pieces between occurrences of `d`, empty ones
      included, so there is always one more piece than there are `d`s. */
  function SplitOn(s: string, d: char): (r: seq<string>)
    ensures |r| >= 1
    ensures forall i :: 0 <= i < |r| ==> d !in r[i]
    decreases |s|
  {
    if s == [] then [[]]
    else
      var rest := SplitOn(s[1..], d);
      if s[0] == d then [[]] + rest
      else [[s[0]] + rest[0]] + rest[1..]
  }

  /** Glues pieces back together with `d` between consecutive ones. */
  function JoinWith(ps: seq<string>, sep: string): string {
    if ps == [] then []
    else if |ps| == 1 then ps[0]
    else ps[0] + sep + JoinWith(ps[1..], sep)
  }

  /** Splitting loses nothing: joining the pieces with the delimiter gives the
      text back. */
  lemma {:induction false} SplitOnJoinRoundTrip(s: string, d: char)
    ensures JoinWith(SplitOn(s, d), [d]) == s
    decreases |s|
  {
    if s != [] {
      var rest := SplitOn(s[1..], d);
      SplitOnJoinRoundTrip(s[1..], d);
      if s[0] == d {
        assert SplitOn(s, d) == [[]] + rest;
        assert ([[]] + rest)[1..] == rest;
      } else {
        var r := [[s[0]] + rest[0]] + rest[1..];
        assert SplitOn(s, d) == r;
        if |rest| == 1 {
          assert JoinWith(r, [d]) == [s[0]] + rest[0];
        } else {
          assert r[1..] == rest[1..];
          assert JoinWith(rest, [d]) == rest[0] + [d] + JoinWith(rest[1..], [d]);
          assert JoinWith(r, [d]) == [s[0]] + rest[0] + [d] + JoinWith(rest[1..], [d]);
        }
        assert s == [s[0]] + s[1..];
      }
    }
  }

  /** Text without the delimiter is a single piece. */
  lemma {:induction false} SplitOnNoDelimiter(a: string, d: char)
    requires d !in a
    ensures SplitOn(a, d) == [a]
    decreases |a|
  {
    if a != [] {
      SplitOnNoDelimiter(a[1..], d);
      assert [a[0]] + a[1..] == a;
    }
  }

  /** A delimiter-free prefix followed by the delimiter is the first piece. */
  lemma {:induction false} SplitOnAfterPiece(a: string, b: string, d: char)
    requires d !in a
    ensures SplitOn(a + [d] + b, d) == [a] + SplitOn(b, d)
    decreases |a|
  {
    if a == [] {
      assert a + [d] + b == [d] + b;
      assert ([d] + b)[1..] == b;
    } else {
      SplitOnAfterPiece(a[1..], b, d);
      assert (a + [d] + b)[1..] == a[1..] + [d] + b;
      assert [a[0]] + a[1..] == a;
    }
  }

  /** Trims every piece. */
  function TrimAll(ps: seq<string>): (r: seq<string>)
    ensures |r| == |ps|
    ensures forall i :: 0 <= i < |ps| ==> r[i] == Trim(ps[i])
  {
    if ps == [] then [] else [Trim(ps[0])] + TrimAll(ps[1..])
  }

  /** Keeps the non-empty pieces, in order. */
  function DropEmpty(ps: seq<string>): (r: seq<string>)
    ensures |r| <= |ps|
    ensures forall x :: x in r <==> x in ps && x != []
  {
    if ps == [] then []
    else if ps[0] == [] then DropEmpty(ps[1..])
    else [ps[0]] + DropEmpty(ps[1..])
  }

  /** `splitTextIntoSentences`: the trimmed, non-empty pieces between periods. */
  function Sentences(text: string): (r: seq<string>)
    ensures forall x :: x in r ==> x != [] && NoEdgeSpace(x) && '.' !in x
    ensures forall x :: x in r <==> x != [] && exists p :: p in SplitOn(text, '.') && Trim(p) == x
  {
    TrimmedPieces(SplitOn(text, '.'));
    DropEmpty(TrimAll(SplitOn(text, '.')))
  }

  /** The trimmed pieces are exactly the trims of the pieces, and trimming a
      piece free of periods leaves it free of periods. */
  lemma TrimmedPieces(pieces: seq<string>)
    requires forall i :: 0 <= i < |pieces| ==> '.' !in pieces[i]
    ensures forall x :: x in TrimAll(pieces) <==> exists p :: p in pieces && Trim(p) == x
    ensures forall x :: x in TrimAll(pieces) ==> '.' !in x
  {
    var trimmed := TrimAll(pieces);
    forall x | x in trimmed ensures exists p :: p in pieces && Trim(p) == x {
      var i :| 0 <= i < |trimmed| && trimmed[i] == x;
      assert pieces[i] in pieces;
    }
    forall x | exists p :: p in pieces && Trim(p) == x ensures x in trimmed {
      var p :| p in pieces && Trim(p) == x;
      var i :| 0 <= i < |pieces| && pieces[i] == p;
      assert trimmed[i] == x;
    }
    forall x | x in trimmed ensures '.' !in x {
      var i :| 0 <= i < |trimmed| && trimmed[i] == x;
      var a :| OccursAt(x, pieces[i], a);
      SliceKeepsAbsent(x, pieces[i], a, '.');
    }
  }

  /** A character absent from a string is absent from every slice of it. */
  lemma SliceKeepsAbsent(x: string, p: string, a: int, c: char)
    requires OccursAt(x, p, a) && c !in p
    ensures c !in x
  {
  }

  // ---------------------------------------------------------------------------
  // Containment

  /** `s.includes(p)`, scanning start positions left to right. */
  function Includes(s: string, p: string): (r: bool)
    ensures r <==> IsSubstring(p, s)
    decreases |s|
  {
    if |p| > |s| then false
    else if s[..|p|] == p then
      assert OccursAt(p, s, 0);
      true
    else
      IncludesShift(s, p);
      Includes(s[1..], p)
  }

  /** Past a failed first position, `p` occurs in `s` exactly when it occurs
      in `s[1..]`. */
  lemma IncludesShift(s: string, p: string)
    requires |p| <= |s| && s[..|p|] != p
    ensures IsSubstring(p, s) <==> IsSubstring(p, s[1..])
  {
    if IsSubstring(p, s) {
      var i :| OccursAt(p, s, i);
      assert i != 0 by {
        assert s[..|p|] == s[0..|p|];
      }
      TailSlice(s, i - 1, i - 1 + |p|);
      assert OccursAt(p, s[1..], i - 1);
    }
    if IsSubstring(p, s[1..]) {
      var i :| OccursAt(p, s[1..], i);
      TailSlice(s, i, i + |p|);
      assert OccursAt(p, s, i + 1);
    }
  }

  /** A slice of the tail is the slice of the whole one position later. */
  lemma TailSlice(s: string, a: int, b: int)
    requires 0 <= a <= b <= |s| - 1
    ensures s[1..][a..b] == s[a + 1..b + 1]
  {
    assert forall k :: 0 <= k < b - a ==> s[1..][a..b][k] == s[a + 1 + k];
  }

  /** The loop of `validateAnswer`: does some sentence, normalised, occur in
      the normalised answer? */
  function AnyContained(sentences: seq<string>, normAnswer: string): (hit: bool)
    ensures hit <==> exists x :: x in sentences && IsSubstring(Normalize(x), normAnswer)
  {
    if sentences == [] then false
    else if Includes(normAnswer, Normalize(sentences[0])) then true
    else
      assert forall x :: x in sentences <==> x == sentences[0] || x in sentences[1..];
      AnyContained(sentences[1..], normAnswer)
  }

  /** `validateAnswer`: true lets the candidate move on; false means some
      sentence of the example was copied into the answer. */
  function Validate(answer: string, example: string): (ok: bool)
    ensures !ok <==> exists x :: x in Sentences(example) && IsSubstring(Normalize(x), Normalize(answer))
  {
    !AnyContained(Sentences(example), Normalize(answer))
  }

  /** A sentence never normalises to the empty string. */
  lemma SentenceNormalisesNonEmpty(x: string)
    requires x != [] && NoEdgeSpace(x)
    ensures Normalize(x) != []
  {
    assert !IsJsSpace(x[0]);
  }

  /** An empty (or missing, hence empty) answer always passes. */
  lemma EmptyAnswerPasses(example: string)
    ensures Validate("", example)
  {
    assert Normalize("") == [];
    forall x | x in Sentences(example) ensures !IsSubstring(Normalize(x), []) {
      SentenceNormalisesNonEmpty(x);
    }
  }

  /** An answer consisting only of white space passes too. */
  lemma BlankAnswerPasses(answer: string, example: string)
    requires forall i :: 0 <= i < |answer| ==> IsJsSpace(answer[i])
    ensures Validate(answer, example)
  {
    forall x | x in Sentences(example) ensures !IsSubstring(Normalize(x), Normalize(answer)) {
      SentenceNormalisesNonEmpty(x);
    }
  }

  /** The text before the first period, once trimmed and if not blank, is a
      sentence. */
  lemma FirstSentenceOf(first: string, rest: string)
    requires first != [] && NoEdgeSpace(first) && '.' !in first
    ensures first in Sentences(first + ['.'] + rest)
  {
    SplitOnAfterPiece(first, rest, '.');
    TrimKeepsNoEdgeSpace(first);
    assert first in SplitOn(first + ['.'] + rest, '.');
  }

  /** The scenario "example `This is a test. Another sentence.`, answer
      `I wrote this is a test today`" in general form: an answer whose
      normal form contains the normal form of the example's first sentence
      is refused. */
  lemma FirstSentenceCopiedRejected(first: string, rest: string, answer: string)
    requires first != [] && NoEdgeSpace(first) && '.' !in first
    requires IsSubstring(Normalize(first), Normalize(answer))
    ensures !Validate(answer, first + ['.'] + rest)
  {
    FirstSentenceOf(first, rest);
  }

  /** Only example-in-answer containment is checked: an answer whose normal
      form is shorter than every example sentence passes, even when it is a
      piece of the example itself. */
  lemma ShortAnswerPasses(answer: string, example: string)
    requires forall x :: x in Sentences(example) ==> |Normalize(answer)| < |Normalize(x)|
    ensures Validate(answer, example)
  {
  }

  /** Copying one example sentence verbatim, in any letter case and spacing,
      is refused. */
  lemma CopiedSentenceRejected(answer: string, example: string, x: string)
    requires x in Sentences(example)
    requires IsSubstring(Normalize(x), Normalize(answer))
    ensures !Validate(answer, example)
  {
  }
}

=== FILE: ascii.dfy ===
/**
 * Character classes over ASCII. The JavaScript frontend and the Python
 * backend disagree on what counts as white space, so both are spelled out.
 */
module Ascii {

  /** JavaScript `\s` and `String.prototype.trim`, restricted to ASCII. */
  predicate IsJsSpace(c: char) {
    c == ' ' || c == '\t' || c == '\n' || c == '\r' || c == '\U{0B}' || c == '\U{0C}'
  }

  /** Python `str.isspace`, restricted to ASCII: also the separators 0x1C-0x1F. */
  predicate IsPySpace(c: char) {
    IsJsSpace(c) || ('\U{1C}' <= c <= '\U{1F}')
  }

  predicate IsUpper(c: char) {
    'A' <= c <= 'Z'
  }

  /** `toLowerCase` / `str.lower` on one ASCII character. */
  function Lower(c: char): (r: char)
    ensures !IsUpper(r)
    ensures IsUpper(c) ==> r as int == c as int + 32
    ensures !IsUpper(c) ==> r == c
    ensures IsJsSpace(r) <==> IsJsSpace(c)
    ensures IsPySpace(r) <==> IsPySpace(c)
  {
    if IsUpper(c) then (c as int + 32) as char else c
  }

  /** Lower-casing a whole string, character by character. */
  function LowerString(s: string): (r: string)
    ensures |r| == |s|
    ensures forall i :: 0 <= i < |s| ==> r[i] == Lower(s[i])
  {
    seq(|s|, i requires 0 <= i < |s| => Lower(s[i]))
  }
}

=== FILE: auth_header.dfy ===
/**
 * Extraction of the bearer token from the `Authorization` header: the
 * header is split on runs of white space; the first word must read
 * `bearer` in any letter case, and exactly one word must follow it.
 */
module AuthHeader {
  import opened Wrappers
  import opened Ascii
  import opened WordSplit

  /** Why no token came out; each becomes the message of a 401 reply. */
  datatype AuthError =
    | HeaderMissing   // no header, or an empty one
    | NoWords         // a header of white space only: `parts[0]` fails
    | NotBearer       // the first word is not `bearer`
    | TokenNotFound   // `Bearer` alone
    | TooManyWords    // more than one word after `Bearer`

  /** `get_token_auth_header`. The scheme test comes before the count
      tests, so `Basic` with any number of words is refused as not bearer. */
  function TokenOf(header: Option<string>): (r: Result<string, AuthError>)
    ensures r.Success? ==> IsWord(PyBlanks, r.value)
    ensures r == Failure(HeaderMissing) <==> header.None? || header.value == ""
  {
    if header.None? || header.value == "" then Failure(HeaderMissing)
    else
      var parts := Words(PyBlanks, header.value);
      if |parts| == 0 then Failure(NoWords)
      else if LowerString(parts[0]) != "bearer" then Failure(NotBearer)
      else if |parts| == 1 then Failure(TokenNotFound)
      else if |parts| > 2 then Failure(TooManyWords)
      else Success(parts[1])
  }

  /** A token is returned exactly when the header is two words, the first
      reading `bearer` in any case; the token is the second word. */
  lemma TokenOfCharacterised(header: Option<string>)
    ensures TokenOf(header).Success? <==>
      header.Some? && |Words(PyBlanks, header.value)| == 2 && LowerString(Words(PyBlanks, header.value)[0]) == "bearer"
    ensures TokenOf(header).Success? ==> TokenOf(header).value == Words(PyBlanks, header.value)[1]
  {
  }

  /** Each refusal and the headers that draw it. A header of white space
      only is not missing, yet has no first word; a single word other than
      `bearer` is refused for its scheme, not for a missing token. */
  lemma TokenErrorsCharacterised(header: Option<string>)
    ensures TokenOf(header) == Failure(NoWords) <==>
      header.Some? && header.value != "" && forall i :: 0 <= i < |header.value| ==> IsPySpace(header.value[i])
    ensures TokenOf(header) == Failure(NotBearer) <==>
      header.Some? && |Words(PyBlanks, header.value)| >= 1 && LowerString(Words(PyBlanks, header.value)[0]) != "bearer"
    ensures TokenOf(header) == Failure(TokenNotFound) <==>
      header.Some? && |Words(PyBlanks, header.value)| == 1 && LowerString(Words(PyBlanks, header.value)[0]) == "bearer"
    ensures TokenOf(header) == Failure(TooManyWords) <==>
      header.Some? && |Words(PyBlanks, header.value)| > 2 && LowerString(Words(PyBlanks, header.value)[0]) == "bearer"
  {
    if header.Some? {
      WordsOfBlanks(PyBlanks, header.value);
    }
  }

  /** `Bearer <token>` and its case variants give the token back. */
  lemma BearerRoundTrip(scheme: string, token: string)
    requires IsWord(PyBlanks, token)
    requires |scheme| == 6 && LowerString(scheme) == "bearer"
    ensures TokenOf(Some(scheme + " " + token)) == Success(token)
  {
    SchemeIsWord(scheme);
    WordsUnwords(PyBlanks, [scheme, token]);
    assert Unwords([scheme, token]) == scheme + " " + token;
  }

  /** Any run of white space may separate the scheme from the token, and
      white space may surround both. */
  lemma SpacedBearer(lead: string, scheme: string, sp: string, token: string, trail: string)
    requires IsWord(PyBlanks, token)
    requires |scheme| == 6 && LowerString(scheme) == "bearer"
    requires sp != [] && AllBlank(PyBlanks, sp)
    requires AllBlank(PyBlanks, lead) && AllBlank(PyBlanks, trail)
    ensures TokenOf(Some(lead + scheme + sp + token + trail)) == Success(token)
  {
    var header := lead + scheme + sp + token + trail;
    assert Words(PyBlanks, header) == [scheme, token] by {
      SchemeIsWord(scheme);
      var rest := scheme + sp + (token + trail);
      HeaderRegroup(lead, scheme, sp, token, trail);
      LeadingBlanksDropped(PyBlanks, lead, rest);
      WordsAcrossBlank(PyBlanks, scheme, sp, token + trail);
      WordAlone(PyBlanks, scheme, []);
      WordAlone(PyBlanks, token, trail);
    }
  }

  lemma HeaderRegroup(lead: string, scheme: string, sp: string, token: string, trail: string)
    ensures lead + scheme + sp + token + trail == lead + (scheme + sp + (token + trail))
    ensures scheme + [] == scheme
    ensures [scheme] + [token] == [scheme, token]
  {
  }

  lemma SchemeIsWord(scheme: string)
    requires |scheme| == 6 && LowerString(scheme) == "bearer"
    ensures IsWord(PyBlanks, scheme)
  {
    forall i | 0 <= i < |scheme| ensures !IsPySpace(scheme[i]) {
      assert Lower(scheme[i]) == "bearer"[i];
    }
  }
}

=== FILE: choice_pages.dfy ===
/**
 * The two multiple-choice pages, Listening and Reading. Both keep the chosen
 * option per question id and show progress over the questions of every
 * block. Listening completes after an accepted reply. Reading instead shows
 * the outcome in a modal whose Close button completes the module, whatever
 * the outcome was.
 */
module ChoicePages {
  import opened Wrappers
  import opened Content
  import Runner

  /** `selectedAnswers`: question id to the chosen option id. */
  type Selections = map<int, int>

  /** The progress bar: questions with a selection over all questions. */
  function Progress(blocks: seq<Block>, sel: Selections): (r: Runner.Percent)
    ensures QuestionCount(blocks) == 0 ==> (r == if sel == map[] then Runner.NotANumber else Runner.Infinite)
    ensures QuestionCount(blocks) > 0 ==> r.Finite?
    ensures r.Finite? ==> (
      var n := QuestionCount(blocks);
      2 * n * r.value <= 200 * |sel.Keys| + n < 2 * n * (r.value + 1))
  {
    Runner.ProgressPercent(|sel.Keys|, QuestionCount(blocks))
  }

  /** Selections only ever name questions the page offered, so the bar stays
      between 0 and 100; with one answer per distinct question it reads 100. */
  lemma ProgressOfOfferedQuestions(blocks: seq<Block>, sel: Selections)
    requires sel.Keys <= QuestionIds(blocks)
    requires QuestionCount(blocks) > 0
    ensures Progress(blocks, sel).Finite?
    ensures 0 <= Progress(blocks, sel).value <= 100
    ensures sel.Keys == QuestionIds(blocks) && |QuestionIds(blocks)| == QuestionCount(blocks) ==>
      Progress(blocks, sel).value == 100
  {
    QuestionIdsBounded(blocks);
    SubsetSize(sel.Keys, QuestionIds(blocks));
    Runner.ProgressBounds(|sel.Keys|, QuestionCount(blocks));
  }

  /** Choosing an option for one more question never moves the bar back. */
  lemma SelectingNeverLowersProgress(blocks: seq<Block>, sel: Selections, q: int, o: int)
    requires QuestionCount(blocks) > 0
    ensures Progress(blocks, Runner.Record(sel, q, o)).value >= Progress(blocks, sel).value
  {
    SubsetSize(sel.Keys, Runner.Record(sel, q, o).Keys);
    Runner.ProgressMonotone(|sel.Keys|, |Runner.Record(sel, q, o).Keys|, QuestionCount(blocks));
  }

  /** Listening: `onComplete` follows an accepted reply and nothing else. */
  function ListeningCompletes(user: Option<Runner.StoredUser>, replyOk: bool): (done: bool)
    ensures done ==> Runner.HasEmail(user)
  {
    Runner.CompletesAfter(Runner.SubmitAttempt(user, replyOk))
  }

  lemma ListeningCompletesOnlyWhenAccepted(user: Option<Runner.StoredUser>, replyOk: bool)
    ensures ListeningCompletes(user, replyOk) <==> Runner.HasEmail(user) && replyOk
  {
    Runner.CompletesOnlyWhenAccepted(user, replyOk);
  }

  // ---------------------------------------------------------------------------
  // Reading's modal

  /** Which message the Reading modal shows. */
  datatype Notice = TimeUp | Saved | SendFailed

  /** What Reading renders: an error screen replaces the whole page, modal
      included; otherwise the modal is shown when it holds a notice. */
  datatype ReadingView = ReadingView(modal: Option<Notice>, errorScreen: bool)

  const FreshReading := ReadingView(None, false)

  /** The Close button can be clicked only on a modal that is on screen. */
  predicate CanClose(v: ReadingView) {
    v.modal.Some? && !v.errorScreen
  }

  /** `handleSubmitTest` on Reading: a missing user switches to the error
      screen; otherwise the reply, accepted or not, is shown in the modal. */
  function ReadingSubmit(v: ReadingView, user: Option<Runner.StoredUser>, replyOk: bool): (r: ReadingView)
    ensures !Runner.HasEmail(user) ==> r.errorScreen && r.modal == v.modal
    ensures Runner.HasEmail(user) ==> r.errorScreen == v.errorScreen
    ensures Runner.HasEmail(user) ==> r.modal == Some(if replyOk then Saved else SendFailed)
  {
    match Runner.SubmitAttempt(user, replyOk)
    case NoUser => v.(errorScreen := true)
    case Sent(ok) => v.(modal := Some(if ok then Saved else SendFailed))
  }

  /** Time running out on Reading: the time-up notice, then the submission. */
  function ReadingTimeUp(v: ReadingView, user: Option<Runner.StoredUser>, replyOk: bool): (r: ReadingView)
    ensures !Runner.HasEmail(user) ==> r.errorScreen && r.modal == Some(TimeUp)
    ensures Runner.HasEmail(user) ==> r.errorScreen == v.errorScreen
    ensures Runner.HasEmail(user) ==> r.modal == Some(if replyOk then Saved else SendFailed)
  {
    ReadingSubmit(v.(modal := Some(TimeUp)), user, replyOk)
  }

  /** `handleModalClose`: hide the modal and complete the module. */
  function CloseModal(v: ReadingView): (r: (ReadingView, bool))
    requires CanClose(v)
    ensures r.0.modal.None? && !CanClose(r.0)
    ensures r.1
  {
    (v.(modal := None), true)
  }

  /** Unlike Listening, Reading can be completed after a rejected reply: any
      reply puts a closable modal on screen. Without a stored email the
      error screen hides the modal and the module cannot be completed from
      this page, by the button or by the timer. */
  lemma ReadingCompletesAfterAnyReply(user: Option<Runner.StoredUser>, replyOk: bool)
    ensures CanClose(ReadingSubmit(FreshReading, user, replyOk)) <==> Runner.HasEmail(user)
    ensures CanClose(ReadingTimeUp(FreshReading, user, replyOk)) <==> Runner.HasEmail(user)
    ensures Runner.HasEmail(user) && !replyOk ==>
      CanClose(ReadingSubmit(FreshReading, user, replyOk)) && !ListeningCompletes(user, replyOk)
  {
  }
}

=== FILE: content.dfy ===
/**
 * Test content as served by the backend: a test has ordered blocks; a
 * Listening or Reading block has ordered questions with ordered options; a
 * Speaking or Writing block has a prompt with an example text. Identifiers
 * are database primary keys.
 */
module Content {
  import opened Wrappers
  import opened Ascii
  import Runner

  datatype Choice = Choice(id: int, isCorrect: bool)

  datatype Question = Question(id: int, options: seq<Choice>)

  datatype Block = Block(id: int, questions: seq<Question>)

  /** A Listening or Reading test. */
  datatype ChoiceTest = ChoiceTest(id: int, vertical: int, blocks: seq<Block>)

  /** A Speaking or Writing prompt. */
  datatype Prompt = Prompt(id: int, instruction: string, example: string)

  /** Number of questions over all blocks. */
  function QuestionCount(blocks: seq<Block>): nat {
    if blocks == [] then 0 else |blocks[0].questions| + QuestionCount(blocks[1..])
  }

  /** The ids of every question of every block. */
  function QuestionIds(blocks: seq<Block>): set<int> {
    if blocks == [] then {}
    else (set q | q in blocks[0].questions :: q.id) + QuestionIds(blocks[1..])
  }

  /** There are never more distinct question ids than questions. */
  lemma {:induction false} QuestionIdsBounded(blocks: seq<Block>)
    ensures |QuestionIds(blocks)| <= QuestionCount(blocks)
    decreases |blocks|
  {
    if blocks != [] {
      QuestionIdsBounded(blocks[1..]);
      IdsOfBounded(blocks[0].questions);
      var here := set q | q in blocks[0].questions :: q.id;
      assert |here + QuestionIds(blocks[1..])| <= |here| + |QuestionIds(blocks[1..])| by {
        UnionSize(here, QuestionIds(blocks[1..]));
      }
    }
  }

  lemma {:induction false} IdsOfBounded(qs: seq<Question>)
    ensures |set q | q in qs :: q.id| <= |qs|
    decreases |qs|
  {
    if qs != [] {
      IdsOfBounded(qs[1..]);
      var rest := set q | q in qs[1..] :: q.id;
      assert (set q | q in qs :: q.id) == {qs[0].id} + rest;
      UnionSize({qs[0].id}, rest);
    }
  }

  lemma UnionSize<T>(a: set<T>, b: set<T>)
    ensures |a + b| <= |a| + |b|
  {
    assert |a + b| == |a| + |b - a|;
  }

  /** A subset is never larger than its superset. */
  lemma SubsetSize<T>(a: set<T>, b: set<T>)
    requires a <= b
    ensures |a| <= |b|
  {
    assert b == a + (b - a);
  }

  // ---------------------------------------------------------------------------
  // Listing

  /** `get_queryset` with the optional `vertical` query parameter: no
      parameter lists every test; a parameter keeps the tests of that
      vertical, in their original order. */
  function ByVertical<T(!new)>(tests: seq<T>, vertical: T -> int, wanted: Option<int>): (r: seq<T>)
    ensures wanted.None? ==> r == tests
    ensures wanted.Some? ==> forall t :: t in r <==> t in tests && vertical(t) == wanted.value
    ensures |r| <= |tests|
  {
    if wanted.None? || tests == [] then tests
    else
      var rest := ByVertical(tests[1..], vertical, wanted);
      assert forall t :: t in tests <==> t == tests[0] || t in tests[1..];
      if vertical(tests[0]) == wanted.value then [tests[0]] + rest else rest
  }

  // ---------------------------------------------------------------------------
  // The `vertical` query parameter

  /* The parameter arrives as text and goes straight into a filter on an
     integer column, which reads it with Python's `int`. */

  predicate IsDigit(c: char) {
    '0' <= c <= '9'
  }

  predicate AllDigits(s: string) {
    forall i :: 0 <= i < |s| ==> IsDigit(s[i])
  }

  predicate AllPySpace(s: string) {
    forall i :: 0 <= i < |s| ==> IsPySpace(s[i])
  }

  /** `s` without its leading white space. */
  function DropLeading(s: string): (r: string)
    ensures |r| <= |s|
    ensures r != [] ==> !IsPySpace(r[0])
  {
    if s != [] && IsPySpace(s[0]) then DropLeading(s[1..]) else s
  }

  /** `s` without its trailing white space. */
  function DropTrailing(s: string): (r: string)
    ensures |r| <= |s|
    ensures r != [] ==> !IsPySpace(r[|r| - 1]) && r[0] == s[0]
  {
    if s != [] && IsPySpace(s[|s| - 1]) then DropTrailing(s[..|s| - 1]) else s
  }

  /** What `DropLeading` drops is white space, and it keeps a suffix. */
  lemma {:induction false} DropLeadingShape(s: string)
    ensures var r := DropLeading(s);
      r == s[|s| - |r|..] && AllPySpace(s[..|s| - |r|])
    decreases |s|
  {
    if s != [] && IsPySpace(s[0]) {
      DropLeadingShape(s[1..]);
      var r := DropLeading(s[1..]);
      assert s[1..][|s| - 1 - |r|..] == s[|s| - |r|..];
      assert forall i :: 1 <= i < |s| - |r| ==> s[i] == s[1..][..|s| - 1 - |r|][i - 1];
    }
  }

  /** What `DropTrailing` drops is white space, and it keeps a prefix. */
  lemma {:induction false} DropTrailingShape(s: string)
    ensures var r := DropTrailing(s);
      r == s[..|r|] && AllPySpace(s[|r|..])
    decreases |s|
  {
    if s != [] && IsPySpace(s[|s| - 1]) {
      var t := s[..|s| - 1];
      DropTrailingShape(t);
      var r := DropTrailing(t);
      assert t[..|r|] == s[..|r|];
      assert forall i :: |r| <= i < |s| - 1 ==> s[i] == t[|r|..][i - |r|];
    }
  }

  /** One or more decimal digits, read as a number. */
  function Digits(s: string): (r: Option<nat>)
    ensures r.Some? <==> s != [] && AllDigits(s)
  {
    if s != [] && AllDigits(s) then Some(Runner.ParseDecimal(s)) else None
  }

  /** `s` without white space at either end. */
  function Strip(s: string): (r: string)
    ensures r == [] || (!IsPySpace(r[0]) && !IsPySpace(r[|r| - 1]))
  {
    DropTrailing(DropLeading(s))
  }

  /** An optional sign and one or more decimal digits, read as a number. */
  function Signed(core: string): (r: Option<int>)
    ensures r.Some? ==> forall i :: 0 <= i < |core| ==> IsDigit(core[i]) || (i == 0 && (core[0] == '+' || core[0] == '-'))
  {
    if core != [] && (core[0] == '+' || core[0] == '-') then
      match Digits(core[1..])
      case None => None
      case Some(n) => Some(if core[0] == '-' then -(n as int) else n as int)
    else
      match Digits(core)
      case None => None
      case Some(n) => Some(n)
  }

  /** Python's `int(text)` on ASCII text: an optional sign and one or more
      decimal digits, with white space around them; anything else raises.
      `PyIntReadsDecimal` and `OnlyNumberCharacters` say what it accepts. */
  function PyInt(text: string): Option<int> {
    Signed(Strip(text))
  }

  /** A text that reads as a number holds only white space, signs and digits. */
  lemma OnlyNumberCharacters(text: string)
    ensures PyInt(text).Some? ==> forall i :: 0 <= i < |text| ==>
      IsPySpace(text[i]) || IsDigit(text[i]) || text[i] == '+' || text[i] == '-'
  {
    StrippedInside(text);
  }

  /** Every character of `text` is white space or a character of its stripped core. */
  lemma StrippedInside(text: string)
    ensures forall i :: 0 <= i < |text| ==> IsPySpace(text[i]) || text[i] in Strip(text)
  {
    var lead := DropLeading(text);
    var core := DropTrailing(lead);
    var a := |text| - |lead|;
    DropLeadingShape(text);
    DropTrailingShape(lead);
    forall i | 0 <= i < |text| ensures IsPySpace(text[i]) || text[i] in core {
      if i < a {
        assert text[..a][i] == text[i];
      } else {
        var j := i - a;
        assert lead[j] == text[i];
        if j < |core| {
          assert core[j] == text[i];
        } else {
          assert lead[|core|..][j - |core|] == text[i];
        }
      }
    }
  }

  /** White space before a text that starts visibly is dropped, and no more. */
  lemma {:induction false} DropLeadingBlanks(lead: string, x: string)
    requires AllPySpace(lead)
    requires x != [] && !IsPySpace(x[0])
    ensures DropLeading(lead + x) == x
    decreases |lead|
  {
    if lead != [] {
      assert (lead + x)[1..] == lead[1..] + x;
      DropLeadingBlanks(lead[1..], x);
    }
  }

  /** White space after a text that ends visibly is dropped, and no more. */
  lemma {:induction false} DropTrailingBlanks(x: string, trail: string)
    requires AllPySpace(trail)
    requires x != [] && !IsPySpace(x[|x| - 1])
    ensures DropTrailing(x + trail) == x
    decreases |trail|
  {
    if trail != [] {
      var t := trail[..|trail| - 1];
      assert (x + trail)[..|x + trail| - 1] == x + t;
      DropTrailingBlanks(x, t);
    }
  }

  /** A number printed in decimal, with an optional sign and white space
      around it, reads back as itself. */
  lemma PyIntReadsDecimal(lead: string, sign: string, n: nat, trail: string)
    requires AllPySpace(lead) && AllPySpace(trail)
    requires sign == "" || sign == "+" || sign == "-"
    ensures PyInt(lead + sign + Runner.Decimal(n) + trail) == Some(if sign == "-" then -(n as int) else n as int)
  {
    DecimalDigits(n);
    PyIntReadsDigits(lead, sign, Runner.Decimal(n), trail, n);
  }

  /** Signed digits with white space around them read as their value. */
  lemma PyIntReadsDigits(lead: string, sign: string, d: string, trail: string, v: nat)
    requires AllPySpace(lead) && AllPySpace(trail)
    requires sign == "" || sign == "+" || sign == "-"
    requires d != [] && AllDigits(d) && Runner.ParseDecimal(d) == v
    ensures PyInt(lead + sign + d + trail) == Some(if sign == "-" then -(v as int) else v as int)
  {
    SignThenDigits(sign, d);
    Regroup(lead, sign, d, trail);
    StripAround(lead, sign + d, trail);
    SignedDigits(sign, d);
  }

  /** White space around a text that starts and ends visibly is stripped, and no more. */
  lemma StripAround(lead: string, core: string, trail: string)
    requires AllPySpace(lead) && AllPySpace(trail)
    requires core != [] && !IsPySpace(core[0]) && !IsPySpace(core[|core| - 1])
    ensures Strip(lead + (core + trail)) == core
  {
    DropLeadingBlanks(lead, core + trail);
    DropTrailingBlanks(core, trail);
  }

  lemma SignedDigits(sign: string, d: string)
    requires sign == "" || sign == "+" || sign == "-"
    requires d != [] && AllDigits(d)
    ensures Signed(sign + d) == Some(if sign == "-" then -(Runner.ParseDecimal(d) as int) else Runner.ParseDecimal(d) as int)
  {
    SignThenDigits(sign, d);
  }

  lemma DecimalDigits(n: nat)
    ensures var d := Runner.Decimal(n);
      && d != [] && AllDigits(d)
      && Runner.ParseDecimal(d) == n
  {
    Runner.DecimalRoundTrip(n);
  }

  lemma SignThenDigits(sign: string, d: string)
    requires sign == "" || sign == "+" || sign == "-"
    requires d != [] && AllDigits(d)
    ensures var core := sign + d;
      && core != [] && !IsPySpace(core[0]) && !IsPySpace(core[|core| - 1])
      && (sign != "" ==> core[0] == sign[0] && core[1..] == d)
      && (sign == "" ==> core == d && core[0] != '+' && core[0] != '-')
  {
    assert IsDigit(d[0]) && IsDigit(d[|d| - 1]);
    assert (sign + d)[|sign + d| - 1] == d[|d| - 1];
    if sign != "" {
      assert (sign + d)[1..] == d;
    }
  }

  lemma Regroup(lead: string, sign: string, d: string, trail: string)
    ensures lead + sign + d + trail == lead + ((sign + d) + trail)
  {
  }

  /** Text holding a letter is not a number. */
  lemma LetterIsNotANumber(text: string, i: nat)
    requires i < |text| && ('a' <= text[i] <= 'z' || 'A' <= text[i] <= 'Z')
    ensures PyInt(text).None?
  {
    OnlyNumberCharacters(text);
  }

  /** The filter raises on a parameter that is not a number, and the
      request ends in a 500 reply. */
  datatype ListError = VerticalNotANumber

  /** `get_queryset` on the text of the query parameter. */
  function ListTests<T(!new)>(tests: seq<T>, vertical: T -> int, param: Option<string>): (r: Result<seq<T>, ListError>)
    ensures param.None? ==> r == Success(tests)
    ensures param.Some? ==> (r.Failure? <==> PyInt(param.value).None?)
    ensures param.Some? && r.Success? ==> r.value == ByVertical(tests, vertical, PyInt(param.value))
  {
    if param.None? then Success(tests)
    else match PyInt(param.value)
      case None => Failure(VerticalNotANumber)
      case Some(v) => Success(ByVertical(tests, vertical, Some(v)))
  }

  /** A vertical sent as its decimal text lists exactly that vertical's tests. */
  lemma ListTestsByDecimal<T(!new)>(tests: seq<T>, vertical: T -> int, v: nat)
    ensures ListTests(tests, vertical, Some(Runner.Decimal(v))) == Success(ByVertical(tests, vertical, Some(v)))
  {
    PyIntReadsDecimal("", "", v, "");
    assert "" + "" + Runner.Decimal(v) + "" == Runner.Decimal(v);
  }

  /** A page that has no vertical sends the text `undefined`: the listing fails. */
  lemma UndefinedVerticalFails<T(!new)>(tests: seq<T>, vertical: T -> int)
    ensures ListTests(tests, vertical, Some("undefined")) == Failure(VerticalNotANumber)
  {
    LetterIsNotANumber("undefined", 0);
  }

  /** `a` can be obtained from `b` by deleting elements. */
  ghost predicate SubsequenceOf<T>(a: seq<T>, b: seq<T>)
    decreases |b|
  {
    if a == [] then true
    else if b == [] then false
    else if a[0] == b[0] then SubsequenceOf(a[1..], b[1..])
    else SubsequenceOf(a, b[1..])
  }

  /** Filtering keeps the listing order, and filtering again by the same
      vertical changes nothing. */
  lemma {:induction false} ByVerticalKeepsOrder<T(!new)>(tests: seq<T>, vertical: T -> int, wanted: Option<int>)
    ensures SubsequenceOf(ByVertical(tests, vertical, wanted), tests)
    ensures ByVertical(ByVertical(tests, vertical, wanted), vertical, wanted) == ByVertical(tests, vertical, wanted)
    decreases |tests|
  {
    if wanted.None? {
      SubsequenceOfSelf(tests);
    } else if tests != [] {
      ByVerticalKeepsOrder(tests[1..], vertical, wanted);
      var rest := ByVertical(tests[1..], vertical, wanted);
      if vertical(tests[0]) == wanted.value {
        assert ([tests[0]] + rest)[1..] == rest;
      } else {
        SubsequenceSkip(rest, tests);
      }
    }
  }

  lemma {:induction false} SubsequenceOfSelf<T>(a: seq<T>)
    ensures SubsequenceOf(a, a)
    decreases |a|
  {
    if a != [] {
      SubsequenceOfSelf(a[1..]);
    }
  }

  /** Skipping the head of `b` keeps a subsequence of its tail one of `b`. */
  lemma {:induction false} SubsequenceSkip<T>(a: seq<T>, b: seq<T>)
    requires b != [] && SubsequenceOf(a, b[1..])
    ensures SubsequenceOf(a, b)
    decreases |b|, 0
  {
    if a != [] && a[0] == b[0] {
      SubsequenceTail(a, b[1..]);
    }
  }

  /** Dropping the head of a subsequence leaves a subsequence. */
  lemma {:induction false} SubsequenceTail<T>(a: seq<T>, b: seq<T>)
    requires a != [] && SubsequenceOf(a, b)
    ensures SubsequenceOf(a[1..], b)
    decreases |b|, 1
  {
    if b != [] {
      if a[0] == b[0] {
        if a[1..] != [] {
          SubsequenceTail(a[1..], b[1..]);
          SubsequenceSkip(a[1..], b);
        }
      } else {
        SubsequenceTail(a, b[1..]);
        SubsequenceSkip(a[1..], b);
      }
    }
  }
}

=== FILE: profile.dfy ===
/**
 * The stored candidate profile: four optional module results, and the
 * general result and level that every save recomputes from them. The
 * general result is the plain mean of the results present; the level is
 * the band that mean falls in.
 */
module Profile {
  import opened Wrappers

  datatype Level = Beginner | Basic | Intermediate | Advanced

  /** `UserProfile`: identified by its unique email. */
  datatype UserProfile = UserProfile(
    email: string,
    vertical: int,
    listening: Option<real>,
    speaking: Option<real>,
    writing: Option<real>,
    reading: Option<real>,
    general: Option<real>,
    level: Option<Level>)

  /** A profile as `get_or_create` makes it: no results, nothing derived. */
  function NewProfile(email: string, vertical: int): UserProfile {
    UserProfile(email, vertical, None, None, None, None, None, None)
  }

  /** The module results in the order the general result lists them. */
  function Results(p: UserProfile): seq<Option<real>> {
    [p.listening, p.speaking, p.writing, p.reading]
  }

  /** The results that are not null, in order. */
  function Present(rs: seq<Option<real>>): (xs: seq<real>)
    ensures |xs| <= |rs|
    ensures forall x :: x in xs <==> Some(x) in rs
    ensures xs == [] <==> forall i :: 0 <= i < |rs| ==> rs[i].None?
  {
    if rs == [] then []
    else if rs[0].Some? then [rs[0].value] + Present(rs[1..])
    else
      assert forall x :: Some(x) in rs <==> Some(x) in rs[1..];
      Present(rs[1..])
  }

  function Sum(xs: seq<real>): real {
    if xs == [] then 0.0 else xs[0] + Sum(xs[1..])
  }

  /** A sum of values in `[lo, hi]` lies between `|xs|` times each bound. */
  lemma {:induction false} SumBetween(xs: seq<real>, lo: real, hi: real)
    requires forall x :: x in xs ==> lo <= x <= hi
    ensures |xs| as real * lo <= Sum(xs) <= |xs| as real * hi
    decreases |xs|
  {
    if xs != [] {
      assert forall x :: x in xs[1..] ==> x in xs;
      SumBetween(xs[1..], lo, hi);
      assert xs[0] in xs && Sum(xs) == xs[0] + Sum(xs[1..]);
      OneMore(|xs[1..]| as real, lo);
      OneMore(|xs[1..]| as real, hi);
    }
  }

  lemma OneMore(m: real, b: real)
    ensures (m + 1.0) * b == m * b + b
  {
  }

  /** `calcular_resultado_general`'s mean: null when no result is present. */
  function Mean(xs: seq<real>): (m: Option<real>)
    ensures m.None? <==> xs == []
  {
    if xs == [] then None else Some(Sum(xs) / |xs| as real)
  }

  /** The mean of values in `[lo, hi]` is in `[lo, hi]`. */
  lemma MeanBetween(xs: seq<real>, lo: real, hi: real)
    requires xs != []
    requires forall x :: x in xs ==> lo <= x <= hi
    ensures lo <= Mean(xs).value <= hi
  {
    SumBetween(xs, lo, hi);
    var n := |xs| as real;
    assert Sum(xs) / n >= lo by {
      assert Sum(xs) >= n * lo;
    }
    assert Sum(xs) / n <= hi by {
      assert Sum(xs) <= n * hi;
    }
  }

  /** `actualizar_nivel`: the band of the general result. */
  function LevelOf(general: Option<real>): (l: Option<Level>)
    ensures l.None? <==> general.None?
    ensures l == Some(Advanced) <==> general.Some? && general.value >= 80.0
    ensures l == Some(Intermediate) <==> general.Some? && 50.0 <= general.value < 80.0
    ensures l == Some(Basic) <==> general.Some? && 0.0 <= general.value < 50.0
    ensures l == Some(Beginner) <==> general.Some? && general.value < 0.0
  {
    match general
    case None => None
    case Some(g) =>
      if g >= 80.0 then Some(Advanced)
      else if g >= 50.0 then Some(Intermediate)
      else if g >= 0.0 then Some(Basic)
      else Some(Beginner)
  }

  function Rank(l: Level): nat {
    match l
    case Beginner => 0
    case Basic => 1
    case Intermediate => 2
    case Advanced => 3
  }

  /** A higher general result never gives a lower level. */
  lemma LevelMonotone(g1: real, g2: real)
    requires g1 <= g2
    ensures Rank(LevelOf(Some(g1)).value) <= Rank(LevelOf(Some(g2)).value)
  {
  }

  /** `save`: the general result and level are recomputed from the module
      results before the row is written. */
  function Save(p: UserProfile): (r: UserProfile)
    ensures r.email == p.email && r.vertical == p.vertical && Results(r) == Results(p)
    ensures r.general.None? <==> forall i :: 0 <= i < 4 ==> Results(p)[i].None?
    ensures r.level == LevelOf(r.general)
  {
    var g := Mean(Present(Results(p)));
    p.(general := g, level := LevelOf(g))
  }

  /** A saved profile is never stale: its general result is the mean of its
      present results, whatever was stored there before. */
  predicate Consistent(p: UserProfile) {
    p.general == Mean(Present(Results(p))) && p.level == LevelOf(p.general)
  }

  lemma SaveIsConsistentAndIdempotent(p: UserProfile)
    ensures Consistent(Save(p))
    ensures Save(Save(p)) == Save(p)
    ensures Consistent(p) ==> Save(p) == p
  {
  }

  /** Results a model validator would accept: each present one in `[0, 100]`. */
  predicate InRange(p: UserProfile) {
    forall i :: 0 <= i < 4 && Results(p)[i].Some? ==> 0.0 <= Results(p)[i].value <= 100.0
  }

  /** With results in range the general result is in range too, and the
      `beginner` band, reserved for negative means, is never assigned. */
  lemma InRangeNeverBeginner(p: UserProfile)
    requires InRange(p)
    ensures Save(p).general.Some? ==> 0.0 <= Save(p).general.value <= 100.0
    ensures Save(p).level != Some(Beginner)
  {
    var xs := Present(Results(p));
    if xs != [] {
      forall x | x in xs ensures 0.0 <= x <= 100.0 {
        assert Some(x) in Results(p);
        var i :| 0 <= i < 4 && Results(p)[i] == Some(x);
      }
      MeanBetween(xs, 0.0, 100.0);
    }
  }

  /** With every result at 80 or more the level is advanced; with every one
      under 50 it is at most basic. */
  lemma UniformResultsSetLevel(p: UserProfile, lo: real, hi: real)
    requires exists i :: 0 <= i < 4 && Results(p)[i].Some?
    requires forall i :: 0 <= i < 4 && Results(p)[i].Some? ==> lo <= Results(p)[i].value <= hi
    ensures lo >= 80.0 ==> Save(p).level == Some(Advanced)
    ensures 0.0 <= lo && hi < 50.0 ==> Save(p).level == Some(Basic)
  {
    var xs := Present(Results(p));
    forall x | x in xs ensures lo <= x <= hi {
      assert Some(x) in Results(p);
      var i :| 0 <= i < 4 && Results(p)[i] == Some(x);
    }
    MeanBetween(xs, lo, hi);
  }
}

=== FILE: runner.dfy ===
/**
 * The machine every module page repeats: a 900-second countdown floored at
 * zero, a latch that lets the timer submit at most once, a block index kept
 * inside the block list, a last-write-wins answer map, an integer progress
 * percentage, the `mm:ss` clock text, and the guarded submission that only
 * reports completion after an accepted reply.
 */
module Runner {
  import opened Wrappers

  // ---------------------------------------------------------------------------
  // Countdown and auto-submit latch

  /** Every module gets fifteen minutes. */
  const TimeBudget: nat := 900

  /** One timer tick: the functional update passed to `setTimeLeft`. */
  function Tick(t: nat): (r: nat)
    ensures t > 0 ==> r + 1 == t
    ensures r == 0 <==> t <= 1
  {
    if t <= 1 then 0 else t - 1
  }

  /** `n` ticks in a row. */
  function Ticks(t: nat, n: nat): nat
    decreases n
  {
    if n == 0 then t else Ticks(Tick(t), n - 1)
  }

  /** After `n` ticks the countdown has dropped by `n`, but never below zero. */
  lemma {:induction false} TicksCountDown(t: nat, n: nat)
    ensures Ticks(t, n) == if n <= t then t - n else 0
    decreases n
  {
    if n > 0 {
      TicksCountDown(Tick(t), n - 1);
    }
  }

  /** The timer state of a page: time left, the `hasSubmitted` latch, and how
      many times submission has been started. */
  datatype Clock = Clock(timeLeft: nat, hasSubmitted: bool, submitCalls: nat)

  const StartClock := Clock(TimeBudget, false, 0)

  /** The effect watching `timeLeft` and `hasSubmitted`: at zero, and only
      while unlatched, submit and latch. */
  function Expiry(c: Clock): (r: Clock)
    ensures r.timeLeft == c.timeLeft
    ensures r.hasSubmitted <==> c.hasSubmitted || c.timeLeft == 0
    ensures r.submitCalls == c.submitCalls + (if c.timeLeft == 0 && !c.hasSubmitted then 1 else 0)
  {
    if c.timeLeft == 0 && !c.hasSubmitted then
      c.(hasSubmitted := true, submitCalls := c.submitCalls + 1)
    else c
  }

  /** One second: tick, then run the effect. */
  function Step(c: Clock): Clock {
    Expiry(c.(timeLeft := Tick(c.timeLeft)))
  }

  function Run(c: Clock, n: nat): Clock
    decreases n
  {
    if n == 0 then c else Run(Step(c), n - 1)
  }

  /** The submit button: it does not consult or set the latch. */
  function ManualSubmit(c: Clock): (r: Clock)
    ensures r.timeLeft == c.timeLeft && r.hasSubmitted == c.hasSubmitted
    ensures r.submitCalls == c.submitCalls + 1
  {
    c.(submitCalls := c.submitCalls + 1)
  }

  /** From mount, with no button press, the clock after `n` seconds shows
      900 - n floored at zero, and the timer has submitted exactly once from
      the 900th second on, and never before. */
  lemma {:induction false} TimerSubmitsOnce(n: nat)
    ensures Run(StartClock, n).timeLeft == if n <= TimeBudget then TimeBudget - n else 0
    ensures Run(StartClock, n).submitCalls == if n >= TimeBudget then 1 else 0
    ensures Run(StartClock, n).hasSubmitted <==> n >= TimeBudget
  {
    RunFrom(StartClock, n);
  }

  /** The invariant behind `TimerSubmitsOnce`: the latch is set exactly when
      the timer reached zero, and the calls made are the latch's one call on
      top of those already made. */
  lemma {:induction false} RunFrom(c: Clock, n: nat)
    requires c.hasSubmitted <==> c.timeLeft == 0
    ensures Run(c, n).timeLeft == if n <= c.timeLeft then c.timeLeft - n else 0
    ensures Run(c, n).hasSubmitted <==> n >= c.timeLeft
    ensures Run(c, n).submitCalls == c.submitCalls + (if n >= c.timeLeft && !c.hasSubmitted then 1 else 0)
    decreases n
  {
    if n > 0 {
      RunFrom(Step(c), n - 1);
    }
  }

  /** Once latched, no number of further ticks submits again. */
  lemma {:induction false} LatchedClockNeverSubmits(c: Clock, n: nat)
    requires c.hasSubmitted
    ensures Run(c, n).submitCalls == c.submitCalls && Run(c, n).hasSubmitted
    decreases n
  {
    if n > 0 {
      LatchedClockNeverSubmits(Step(c), n - 1);
    }
  }

  /** The latch guards only the timer path: a press of the submit button
      whose reply does not close the module, followed by the timer running
      out, starts a second submission. */
  lemma ManualSubmitIsNotLatched()
    ensures Run(ManualSubmit(StartClock), TimeBudget).submitCalls == 2
  {
    RunFrom(ManualSubmit(StartClock), TimeBudget);
  }

  // ---------------------------------------------------------------------------
  // Block navigation

  /** `handleNextBlock` without validation. */
  function NextBlock(i: nat, len: nat): (r: nat)
    ensures i <= r <= i + 1
    ensures r > i <==> i + 1 < len
  {
    if i + 1 < len then i + 1 else i
  }

  /** `handlePreviousBlock`. */
  function PreviousBlock(i: nat): (r: nat)
    ensures r <= i <= r + 1
    ensures r < i <==> i > 0
  {
    if i > 0 then i - 1 else i
  }

  datatype Move = Next | Previous

  /** A run of next and previous presses; each moves at most one block. */
  function Navigate(i: nat, len: nat, moves: seq<Move>): (r: nat)
    ensures r <= i + |moves| && i <= r + |moves|
    decreases |moves|
  {
    if moves == [] then i
    else
      var j := if moves[0] == Next then NextBlock(i, len) else PreviousBlock(i);
      Navigate(j, len, moves[1..])
  }

  /** Any sequence of moves keeps the index inside the block list. */
  lemma {:induction false} NavigationStaysInRange(i: nat, len: nat, moves: seq<Move>)
    requires i < len
    ensures Navigate(i, len, moves) < len
    decreases |moves|
  {
    if moves != [] {
      var j := if moves[0] == Next then NextBlock(i, len) else PreviousBlock(i);
      NavigationStaysInRange(j, len, moves[1..]);
    }
  }

  /** Next moves forward exactly when there is a later block; previous undoes it. */
  lemma NextThenPrevious(i: nat, len: nat)
    requires i < len
    ensures NextBlock(i, len) == i + 1 <==> i < len - 1
    ensures NextBlock(i, len) != i + 1 ==> NextBlock(i, len) == i
    ensures i < len - 1 ==> PreviousBlock(NextBlock(i, len)) == i
    ensures i > 0 ==> NextBlock(PreviousBlock(i), len) == i
  {
  }

  /** Navigation where Next is allowed to leave block `i` only when
      `open[i]` holds (Writing's anti-copy gate). */
  function GatedNavigate(open: seq<bool>, i: nat, moves: seq<Move>): (r: nat)
    requires i < |open|
    ensures r < |open|
    decreases |moves|
  {
    if moves == [] then i
    else
      var j := if moves[0] == Next then (if open[i] then NextBlock(i, |open|) else i) else PreviousBlock(i);
      GatedNavigate(open, j, moves[1..])
  }

  /** Wherever the moves lead, every block from the start up to there was
      left forward through an open gate. */
  lemma {:induction false} ReachedThroughOpenGates(open: seq<bool>, i: nat, moves: seq<Move>)
    requires i < |open|
    ensures forall k :: i <= k < GatedNavigate(open, i, moves) ==> open[k]
    decreases |moves|
  {
    if moves != [] {
      var j := if moves[0] == Next then (if open[i] then NextBlock(i, |open|) else i) else PreviousBlock(i);
      ReachedThroughOpenGates(open, j, moves[1..]);
    }
  }

  /** With every gate open, `n` presses of Next advance `n` blocks, stopping
      at the last one. */
  lemma {:induction false} OpenGatesWalk(open: seq<bool>, i: nat, n: nat)
    requires i < |open|
    requires forall k :: 0 <= k < |open| ==> open[k]
    ensures GatedNavigate(open, i, seq(n, _ => Next)) == if i + n < |open| then i + n else |open| - 1
    decreases n
  {
    if n > 0 {
      var moves := seq(n, _ => Next);
      assert moves[0] == Next;
      assert moves[1..] == seq(n - 1, _ => Next);
      OpenGatesWalk(open, NextBlock(i, |open|), n - 1);
    }
  }

  // ---------------------------------------------------------------------------
  // Answers

  /** `setAnswers(prev => ({...prev, [k]: v}))`. */
  function Record<K, V>(m: map<K, V>, k: K, v: V): (r: map<K, V>)
    ensures r.Keys == m.Keys + {k}
    ensures r[k] == v
    ensures forall j :: j in m && j != k ==> r[j] == m[j]
  {
    m[k := v]
  }

  /** The last write to a key wins, and writes to different keys commute. */
  lemma LastWriteWins<K, V>(m: map<K, V>, k: K, j: K, v: V, w: V)
    ensures Record(Record(m, k, v), k, w) == Record(m, k, w)
    ensures j != k ==> Record(Record(m, k, v), j, w) == Record(Record(m, j, w), k, v)
  {
  }

  // ---------------------------------------------------------------------------
  // Progress

  /** What `Math.round(a / t * 100)` can produce: an integer, or NaN for 0/0,
      or Infinity for a positive count over zero. */
  datatype Percent = Finite(value: int) | NotANumber | Infinite

  /** The progress bar: `answered` out of `total`, rounded half up. */
  function ProgressPercent(answered: nat, total: nat): (r: Percent)
    ensures total == 0 ==> (r == if answered == 0 then NotANumber else Infinite)
    ensures total > 0 ==> r.Finite?
    ensures total > 0 ==> 2 * total * r.value <= 200 * answered + total < 2 * total * (r.value + 1)
  {
    if total == 0 then (if answered == 0 then NotANumber else Infinite)
    else Finite((200 * answered + total) / (2 * total))
  }

  /** With no more answered than there are items, the bar reads 0 to 100,
      reads 0 with nothing answered and 100 with everything answered. */
  lemma ProgressBounds(answered: nat, total: nat)
    requires 0 < total && answered <= total
    ensures 0 <= ProgressPercent(answered, total).value <= 100
    ensures answered == total ==> ProgressPercent(answered, total).value == 100
    ensures answered == 0 ==> ProgressPercent(answered, total).value == 0
  {
    var d, n, p := 2 * total, 200 * answered + total, ProgressPercent(answered, total).value;
    QuotientBetween(d, p, n, 0);
    QuotientBetween(d, p, n, 101);
    QuotientBetween(d, p, n, 100);
    QuotientBetween(d, p, n, 1);
  }

  /** More answers never move the bar back. */
  lemma ProgressMonotone(a: nat, b: nat, total: nat)
    requires 0 < total && a <= b
    ensures ProgressPercent(a, total).value <= ProgressPercent(b, total).value
  {
    var p, q := ProgressPercent(a, total).value, ProgressPercent(b, total).value;
    QuotientBetween(2 * total, q, 200 * b + total, p);
  }

  /** An integer bracketed as `d*q <= n < d*(q+1)` compares with any `k`
      the way `n` compares with `d*k`. */
  lemma QuotientBetween(d: int, q: int, n: int, k: int)
    requires d > 0 && d * q <= n < d * (q + 1)
    ensures n < d * k ==> q < k
    ensures d * k <= n ==> k <= q
  {
    if q >= k {
      MulLe(d, k, q);
    } else {
      MulLe(d, q + 1, k);
    }
  }

  lemma MulLe(d: int, a: int, b: int)
    requires d >= 0 && a <= b
    ensures d * a <= d * b
  {
    assert d * b - d * a == d * (b - a);
  }

  /** Eight of ten questions answered reads 80%. */
  lemma EightOfTen()
    ensures ProgressPercent(8, 10) == Finite(80)
  {
  }

  // ---------------------------------------------------------------------------
  // Clock text

  function DigitChar(d: nat): (c: char)
    requires d < 10
    ensures '0' <= c <= '9'
  {
    ('0' as int + d) as char
  }

  function DigitValue(c: char): nat {
    if '0' <= c <= '9' then (c as int - '0' as int) else 0
  }

  /** `n.toString()`. */
  function Decimal(n: nat): (s: string)
    ensures |s| >= 1
    ensures forall i :: 0 <= i < |s| ==> '0' <= s[i] <= '9'
    ensures n < 10 <==> |s| == 1
    ensures n < 100 ==> |s| <= 2
    decreases n
  {
    if n < 10 then [DigitChar(n)] else Decimal(n / 10) + [DigitChar(n % 10)]
  }

  /** Reads a string of digits back as a number. */
  function ParseDecimal(s: string): nat
    decreases |s|
  {
    if s == [] then 0 else ParseDecimal(s[..|s| - 1]) * 10 + DigitValue(s[|s| - 1])
  }

  lemma {:induction false} DecimalRoundTrip(n: nat)
    ensures ParseDecimal(Decimal(n)) == n
    decreases n
  {
    if n >= 10 {
      DecimalRoundTrip(n / 10);
      var s := Decimal(n / 10) + [DigitChar(n % 10)];
      assert s[..|s| - 1] == Decimal(n / 10);
      assert DigitValue(s[|s| - 1]) == n % 10;
    }
  }

  /** Different numbers print differently. */
  lemma DecimalInjective(x: nat, y: nat)
    requires Decimal(x) == Decimal(y)
    ensures x == y
  {
    DecimalRoundTrip(x);
    DecimalRoundTrip(y);
  }

  lemma {:induction false} LeadingZeroIgnored(s: string)
    ensures ParseDecimal(['0'] + s) == ParseDecimal(s)
    decreases |s|
  {
    if s != [] {
      var t := ['0'] + s;
      assert t[..|t| - 1] == ['0'] + s[..|s| - 1];
      LeadingZeroIgnored(s[..|s| - 1]);
    }
  }

  /** `padStart(2, '0')`. */
  function PadTwo(s: string): (r: string)
    ensures |r| == if |s| < 2 then 2 else |s|
  {
    if |s| == 0 then "00" else if |s| == 1 then ['0'] + s else s
  }

  /** `formatTime`: zero-padded minutes, a colon, zero-padded seconds. */
  function FormatTime(seconds: nat): (r: string)
    ensures |r| >= 5 && r[|r| - 3] == ':'
  {
    PadTwo(Decimal(seconds / 60)) + [':'] + PadTwo(Decimal(seconds % 60))
  }

  /** Reading the clock text back: everything before the colon is minutes,
      the two characters after it are seconds. */
  function ParseTime(s: string): nat
    requires |s| >= 3
  {
    ParseDecimal(s[..|s| - 3]) * 60 + ParseDecimal(s[|s| - 2..])
  }

  /** The clock text has the colon third from the end and gives back the
      number of seconds it was made from. */
  lemma FormatTimeRoundTrip(seconds: nat)
    ensures |FormatTime(seconds)| >= 5
    ensures FormatTime(seconds)[|FormatTime(seconds)| - 3] == ':'
    ensures ParseTime(FormatTime(seconds)) == seconds
  {
    var mm, ss := PadTwo(Decimal(seconds / 60)), PadTwo(Decimal(seconds % 60));
    PaddedRoundTrip(seconds / 60);
    PaddedRoundTrip(seconds % 60);
    ColonSplit(mm, ss);
    assert seconds == (seconds / 60) * 60 + seconds % 60;
  }

  lemma ColonSplit(mm: string, ss: string)
    requires |mm| >= 2 && |ss| == 2
    ensures var t := mm + [':'] + ss;
      |t| >= 5 && t[|t| - 3] == ':' && t[..|t| - 3] == mm && t[|t| - 2..] == ss
  {
  }

  /** The full budget reads fifteen minutes on the clock. */
  lemma BudgetReadsFifteenMinutes()
    ensures FormatTime(TimeBudget) == "15:00"
  {
    assert TimeBudget / 60 == 15 && TimeBudget % 60 == 0;
    assert DigitChar(1) == '1' && DigitChar(5) == '5' && DigitChar(0) == '0';
    assert Decimal(1) == "1";
    assert Decimal(15) == Decimal(1) + [DigitChar(5)] == "15";
    assert Decimal(0) == "0";
    assert PadTwo("15") == "15" && PadTwo("0") == "00";
  }

  /** Zero-padding to two digits reads back as the same number. */
  lemma PaddedRoundTrip(n: nat)
    ensures ParseDecimal(PadTwo(Decimal(n))) == n
    ensures n < 100 ==> |PadTwo(Decimal(n))| == 2
  {
    var d := Decimal(n);
    DecimalRoundTrip(n);
    if |d| == 1 {
      LeadingZeroIgnored(d);
    }
  }

  // ---------------------------------------------------------------------------
  // Submission

  /** The `userTestInfo` entry: only the email matters for submitting. */
  datatype StoredUser = StoredUser(email: Option<string>)

  /** `!userInfo || !userInfo.email`: no record, or no or an empty email. */
  predicate HasEmail(user: Option<StoredUser>) {
    user.Some? && user.value.email.Some? && user.value.email.value != ""
  }

  /** What `handleSubmitTest` did: stopped for a missing user, or sent one
      request whose reply was accepted or not. */
  datatype Attempt = NoUser | Sent(accepted: bool)

  function SubmitAttempt(user: Option<StoredUser>, replyOk: bool): (a: Attempt)
    ensures a == NoUser <==> !HasEmail(user)
    ensures a.Sent? ==> a.accepted == replyOk
  {
    if !HasEmail(user) then NoUser else Sent(replyOk)
  }

  /** Listening, Speaking and Writing call `onComplete` after an accepted
      reply and at no other time. */
  predicate CompletesAfter(a: Attempt) {
    a == Sent(true)
  }

  lemma CompletesOnlyWhenAccepted(user: Option<StoredUser>, replyOk: bool)
    ensures CompletesAfter(SubmitAttempt(user, replyOk)) <==> HasEmail(user) && replyOk
  {
  }

  // ---------------------------------------------------------------------------
  // Key order of a JavaScript object with integer keys

  lemma HasMember(s: set<int>)
    requires s != {}
    ensures exists x :: x in s
  {
    if forall x :: x !in s {
      assert false;
    }
  }

  /** The smallest element of a non-empty finite set. */
  method Least(s: set<int>) returns (m: int)
    requires s != {}
    ensures m in s
    ensures forall x :: x in s ==> m <= x
  {
    HasMember(s);
    var x :| x in s;
    m := x;
    var seen: set<int> := {x};
    while seen != s
      invariant seen <= s && m in seen
      invariant forall z :: z in seen ==> m <= z
      decreases |s - seen|
    {
      HasMember(s - seen);
      var y :| y in s - seen;
      if y < m {
        m := y;
      }
      seen := seen + {y};
    }
  }

  /** The keys of `keys`, each once, in ascending order. */
  method AscendingKeys(keys: set<int>) returns (ks: seq<int>)
    ensures forall x :: x in ks <==> x in keys
    ensures |ks| == |keys|
    ensures forall i, j :: 0 <= i < j < |ks| ==> ks[i] < ks[j]
  {
    ks := [];
    var rest := keys;
    while rest != {}
      invariant rest <= keys
      invariant forall x :: x in ks <==> x in keys - rest
      invariant |ks| + |rest| == |keys|
      invariant forall i, j :: 0 <= i < j < |ks| ==> ks[i] < ks[j]
      invariant forall i, x :: 0 <= i < |ks| && x in rest ==> ks[i] < x
      decreases rest
    {
      var m := Least(rest);
      ks := ks + [m];
      rest := rest - {m};
    }
  }

  // ---------------------------------------------------------------------------
  // Property order of a JavaScript object with integer keys

  /** An array index, `0 <= k < 2^32 - 1`: the keys JavaScript lists first,
      in ascending numeric order. Any other integer key, a negative one for
      instance, is an ordinary string key. */
  predicate IsIndexKey(k: int) {
    0 <= k < 0xFFFF_FFFF
  }

  predicate Distinct(s: seq<int>) {
    forall i, j :: 0 <= i < j < |s| ==> s[i] != s[j]
  }

  /** `inserted` lists the keys of `keys` in the order they were first
      stored, each once. */
  predicate InsertionOrder(inserted: seq<int>, keys: set<int>) {
    Distinct(inserted) && (set x | x in inserted) == keys
  }

  /** The string keys of an insertion order, in that order. */
  function StringKeys(inserted: seq<int>): (r: seq<int>)
    ensures forall x :: x in r <==> x in inserted && !IsIndexKey(x)
    ensures |r| <= |inserted|
  {
    if inserted == [] then []
    else (if IsIndexKey(inserted[0]) then [] else [inserted[0]]) + StringKeys(inserted[1..])
  }

  /** Indices only: no string keys. */
  lemma {:induction false} NoStringKeys(inserted: seq<int>)
    requires forall i :: 0 <= i < |inserted| ==> IsIndexKey(inserted[i])
    ensures StringKeys(inserted) == []
    decreases |inserted|
  {
    if inserted != [] {
      NoStringKeys(inserted[1..]);
    }
  }

  /** Keeping some keys of a list without repeats gives a list without repeats. */
  lemma {:induction false} StringKeysDistinct(inserted: seq<int>)
    requires Distinct(inserted)
    ensures Distinct(StringKeys(inserted))
    decreases |inserted|
  {
    if inserted != [] {
      var rest := inserted[1..];
      assert Distinct(rest) by {
        assert forall i :: 0 <= i < |rest| ==> rest[i] == inserted[i + 1];
      }
      StringKeysDistinct(rest);
      assert inserted[0] !in rest;
    }
  }

  /** A list without repeats is as long as the set of its elements. */
  lemma {:induction false} DistinctCount(s: seq<int>)
    requires Distinct(s)
    ensures |set x | x in s| == |s|
    decreases |s|
  {
    if s != [] {
      var rest := s[1..];
      assert Distinct(rest) by {
        assert forall i :: 0 <= i < |rest| ==> rest[i] == s[i + 1];
      }
      DistinctCount(rest);
      assert (set x | x in s) == (set x | x in rest) + {s[0]};
      assert s[0] !in rest;
    }
  }

  /** `ks` is how `Object.keys` lists an object with integer keys `keys`
      stored in the order `inserted`: the array indices in ascending order,
      then every other key in the order it was first stored. */
  predicate ObjectKeyOrder(ks: seq<int>, keys: set<int>, inserted: seq<int>) {
    var strings := StringKeys(inserted);
    var n := |ks| - |strings|;
    && n >= 0
    && ks[n..] == strings
    && (forall i :: 0 <= i < n ==> IsIndexKey(ks[i]))
    && (forall i, j :: 0 <= i < j < n ==> ks[i] < ks[j])
    && (set x | x in ks) == keys
  }

  /** `Object.keys` of an object whose keys are integers. */
  method ObjectKeys(keys: set<int>, inserted: seq<int>) returns (ks: seq<int>)
    requires InsertionOrder(inserted, keys)
    ensures ObjectKeyOrder(ks, keys, inserted)
    ensures Distinct(ks) && |ks| == |keys|
    ensures (forall x :: x in keys ==> IsIndexKey(x)) ==> forall i, j :: 0 <= i < j < |ks| ==> ks[i] < ks[j]
  {
    var indices := AscendingKeys(set x | x in keys && IsIndexKey(x));
    ks := indices + StringKeys(inserted);
    IndicesThenStrings(keys, inserted, indices);
    if forall x :: x in keys ==> IsIndexKey(x) {
      NoStringKeys(inserted);
      assert ks == indices;
    }
  }

  /** There is only one such listing: the order is fixed by the keys and
      the order they were stored in. */
  lemma ObjectKeyOrderUnique(a: seq<int>, b: seq<int>, keys: set<int>, inserted: seq<int>)
    requires ObjectKeyOrder(a, keys, inserted) && ObjectKeyOrder(b, keys, inserted)
    ensures a == b
  {
    var strings := StringKeys(inserted);
    var na, nb := |a| - |strings|, |b| - |strings|;
    IndexPart(a, keys, inserted);
    IndexPart(b, keys, inserted);
    AscendingUnique(a[..na], b[..nb]);
    assert a == a[..na] + a[na..];
    assert b == b[..nb] + b[nb..];
  }

  /** The front of such a listing holds exactly the index keys. */
  lemma IndexPart(ks: seq<int>, keys: set<int>, inserted: seq<int>)
    requires ObjectKeyOrder(ks, keys, inserted)
    ensures var n := |ks| - |StringKeys(inserted)|;
      0 <= n <= |ks| &&
      (forall i, j :: 0 <= i < j < n ==> ks[..n][i] < ks[..n][j]) &&
      forall x :: x in ks[..n] <==> x in keys && IsIndexKey(x)
  {
    var strings := StringKeys(inserted);
    var n := |ks| - |strings|;
    assert ks == ks[..n] + strings;
    forall x | x in keys && IsIndexKey(x) ensures x in ks[..n] {
      assert x in (set y | y in ks);
      assert x !in strings;
    }
    forall x | x in ks[..n] ensures x in keys && IsIndexKey(x) {
      var i :| 0 <= i < n && ks[..n][i] == x;
      assert ks[i] == x;
      assert x in (set y | y in ks);
    }
  }

  /** Two strictly ascending lists of the same elements are the same list. */
  lemma {:induction false} AscendingUnique(p: seq<int>, q: seq<int>)
    requires forall i, j :: 0 <= i < j < |p| ==> p[i] < p[j]
    requires forall i, j :: 0 <= i < j < |q| ==> q[i] < q[j]
    requires forall x :: x in p <==> x in q
    ensures p == q
    decreases |p|
  {
    if p != [] || q != [] {
      var m := (p + q)[0];
      assert m in p + q;
      assert m in p && m in q;
      assert p[0] in q && q[0] in p;
      var i :| 0 <= i < |q| && q[i] == p[0];
      var j :| 0 <= j < |p| && p[j] == q[0];
      assert p[0] == q[0] by {
        assert p[0] <= p[j] && q[0] <= q[i];
      }
      forall x ensures x in p[1..] <==> x in q[1..] {
        if x in p[1..] {
          var k :| 1 <= k < |p| && p[k] == x;
          assert x in q && x != q[0];
        }
        if x in q[1..] {
          var k :| 1 <= k < |q| && q[k] == x;
          assert x in p && x != p[0];
        }
      }
      AscendingUnique(p[1..], q[1..]);
      assert p == [p[0]] + p[1..] && q == [q[0]] + q[1..];
    }
  }

  /** Ascending indices followed by the string keys: every key once, the
      indices exactly at the front. */
  lemma IndicesThenStrings(keys: set<int>, inserted: seq<int>, indices: seq<int>)
    requires InsertionOrder(inserted, keys)
    requires forall x :: x in indices <==> x in keys && IsIndexKey(x)
    requires forall i, j :: 0 <= i < j < |indices| ==> indices[i] < indices[j]
    ensures ObjectKeyOrder(indices + StringKeys(inserted), keys, inserted)
    ensures Distinct(indices + StringKeys(inserted))
    ensures |indices + StringKeys(inserted)| == |keys|
  {
    var others := StringKeys(inserted);
    var ks := indices + others;
    StringKeysDistinct(inserted);
    assert forall i :: 0 <= i < |indices| ==> indices[i] in indices;
    assert forall i :: 0 <= i < |others| ==> others[i] in others;
    DistinctJoin(indices, others);
    assert (set x | x in ks) == keys;
    DistinctCount(ks);
    assert ks[|indices|..] == others;
    assert forall i :: 0 <= i < |indices| ==> ks[i] == indices[i];
  }

  lemma DistinctJoin(a: seq<int>, b: seq<int>)
    requires forall i, j :: 0 <= i < j < |a| ==> a[i] < a[j]
    requires Distinct(b)
    requires forall i :: 0 <= i < |a| ==> a[i] !in b
    ensures Distinct(a + b)
  {
    var ab := a + b;
    forall i, j | 0 <= i < j < |ab| ensures ab[i] != ab[j] {
      if j < |a| {
      } else if i < |a| {
        assert ab[j] == b[j - |a|];
      } else {
        assert ab[i] == b[i - |a|] && ab[j] == b[j - |a|];
      }
    }
  }
}

=== FILE: scoring.dfy ===
/**
 * Scoring of the two multiple-choice modules on the server: every question
 * of every block counts towards the total; a question counts as correct
 * when its answer names an option of that same question flagged correct.
 * The percentage is written into the candidate's profile, whose save
 * recomputes the general result.
 */
module Scoring {
  import opened Wrappers
  import opened Content
  import opened Profile

  /** The `answers` object: question id to selected option id. */
  type Answers = map<int, int>

  /** The option of a question with a given id, looked up among that
      question's options only; ids are primary keys, so the first is the one. */
  function FindOption(opts: seq<Choice>, id: int): (r: Option<Choice>)
    ensures r.Some? ==> r.value in opts && r.value.id == id
    ensures r.None? <==> forall c :: c in opts ==> c.id != id
  {
    if opts == [] then None
    else if opts[0].id == id then Some(opts[0])
    else
      assert forall c :: c in opts <==> c == opts[0] || c in opts[1..];
      FindOption(opts[1..], id)
  }

  /** `if selected_option_id`: a missing answer and an option id of 0 are
      both skipped. */
  predicate Answered(answers: Answers, q: Question) {
    q.id in answers && answers[q.id] != 0
  }

  /** The question is scored as correct. */
  predicate Correct(answers: Answers, q: Question) {
    Answered(answers, q) && FindOption(q.options, answers[q.id]).Some?
      && FindOption(q.options, answers[q.id]).value.isCorrect
  }

  function CorrectIn(qs: seq<Question>, answers: Answers): (n: nat)
    ensures n <= |qs|
  {
    if qs == [] then 0 else (if Correct(answers, qs[0]) then 1 else 0) + CorrectIn(qs[1..], answers)
  }

  /** The reference count of correct answers over all blocks. */
  function CorrectCount(blocks: seq<Block>, answers: Answers): nat {
    if blocks == [] then 0 else CorrectIn(blocks[0].questions, answers) + CorrectCount(blocks[1..], answers)
  }

  lemma {:induction false} CorrectCountBounded(blocks: seq<Block>, answers: Answers)
    ensures CorrectCount(blocks, answers) <= QuestionCount(blocks)
    decreases |blocks|
  {
    if blocks != [] {
      CorrectCountBounded(blocks[1..], answers);
    }
  }

  /** Every question is correct exactly when the count reaches the total. */
  lemma {:induction false} AllCorrectIn(qs: seq<Question>, answers: Answers)
    ensures CorrectIn(qs, answers) == |qs| <==> forall i :: 0 <= i < |qs| ==> Correct(answers, qs[i])
    decreases |qs|
  {
    if qs != [] {
      AllCorrectIn(qs[1..], answers);
      assert forall i :: 1 <= i < |qs| ==> qs[i] == qs[1..][i - 1];
    }
  }

  lemma {:induction false} AllCorrect(blocks: seq<Block>, answers: Answers)
    ensures CorrectCount(blocks, answers) == QuestionCount(blocks) <==>
      forall b, i :: 0 <= b < |blocks| && 0 <= i < |blocks[b].questions| ==> Correct(answers, blocks[b].questions[i])
    decreases |blocks|
  {
    if blocks != [] {
      AllCorrect(blocks[1..], answers);
      AllCorrectIn(blocks[0].questions, answers);
      CorrectCountBounded(blocks[1..], answers);
      assert forall b :: 1 <= b < |blocks| ==> blocks[b] == blocks[1..][b - 1];
    }
  }

  /** Nothing answered, nothing correct. */
  lemma {:induction false} NoAnswersNoneCorrect(blocks: seq<Block>)
    ensures CorrectCount(blocks, map[]) == 0
    decreases |blocks|
  {
    if blocks != [] {
      NoAnswersInBlock(blocks[0].questions);
      NoAnswersNoneCorrect(blocks[1..]);
    }
  }

  lemma {:induction false} NoAnswersInBlock(qs: seq<Question>)
    ensures CorrectIn(qs, map[]) == 0
    decreases |qs|
  {
    if qs != [] {
      NoAnswersInBlock(qs[1..]);
    }
  }

  /** An option id taken from another question scores nothing, even when
      that option is a correct one. */
  lemma ForeignOptionNotCounted(answers: Answers, q: Question)
    requires q.id in answers
    requires forall c :: c in q.options ==> c.id != answers[q.id]
    ensures !Correct(answers, q)
  {
  }

  // ---------------------------------------------------------------------------
  // The tally loop

  lemma {:induction false} CorrectInSnoc(qs: seq<Question>, q: Question, answers: Answers)
    ensures CorrectIn(qs + [q], answers) == CorrectIn(qs, answers) + (if Correct(answers, q) then 1 else 0)
    decreases |qs|
  {
    if qs != [] {
      assert (qs + [q])[1..] == qs[1..] + [q];
      CorrectInSnoc(qs[1..], q, answers);
    }
  }

  lemma {:induction false} CountsSnoc(blocks: seq<Block>, b: Block, answers: Answers)
    ensures CorrectCount(blocks + [b], answers) == CorrectCount(blocks, answers) + CorrectIn(b.questions, answers)
    ensures QuestionCount(blocks + [b]) == QuestionCount(blocks) + |b.questions|
    decreases |blocks|
  {
    if blocks != [] {
      assert (blocks + [b])[1..] == blocks[1..] + [b];
      CountsSnoc(blocks[1..], b, answers);
    }
  }

  /** The nested loop of `submit_answers`: one pass over blocks and their
      questions, counting questions and correct answers. */
  method Tally(blocks: seq<Block>, answers: Answers) returns (total: nat, correct: nat)
    ensures total == QuestionCount(blocks)
    ensures correct == CorrectCount(blocks, answers)
    ensures correct <= total
  {
    total, correct := 0, 0;
    var i := 0;
    while i < |blocks|
      invariant 0 <= i <= |blocks|
      invariant total == QuestionCount(blocks[..i])
      invariant correct == CorrectCount(blocks[..i], answers)
    {
      var qs := blocks[i].questions;
      var j := 0;
      var blockCorrect := 0;
      while j < |qs|
        invariant 0 <= j <= |qs|
        invariant blockCorrect == CorrectIn(qs[..j], answers)
      {
        assert qs[..j + 1] == qs[..j] + [qs[j]];
        CorrectInSnoc(qs[..j], qs[j], answers);
        if Correct(answers, qs[j]) {
          blockCorrect := blockCorrect + 1;
        }
        j := j + 1;
      }
      assert qs[..j] == qs;
      assert blocks[..i + 1] == blocks[..i] + [blocks[i]];
      CountsSnoc(blocks[..i], blocks[i], answers);
      total := total + |qs|;
      correct := correct + blockCorrect;
      i := i + 1;
    }
    assert blocks[..i] == blocks;
    CorrectCountBounded(blocks, answers);
  }

  /** `(correct / total) * 100`, or 0 for a test without questions. */
  function Score(total: nat, correct: nat): (s: real)
    ensures total == 0 ==> s == 0.0
    ensures total > 0 ==> s * total as real == 100.0 * correct as real
  {
    if total > 0 then (correct as real / total as real) * 100.0 else 0.0
  }

  /** The score is a percentage: 0 with nothing correct, 100 exactly when
      every question of a non-empty test is correct, and higher with more
      correct answers. */
  lemma ScoreBounds(total: nat, correct: nat)
    requires correct <= total
    ensures 0.0 <= Score(total, correct) <= 100.0
    ensures correct == 0 ==> Score(total, correct) == 0.0
    ensures total > 0 ==> (Score(total, correct) == 100.0 <==> correct == total)
  {
    if total > 0 {
      var s, t, c := Score(total, correct), total as real, correct as real;
      assert s * t == 100.0 * c;
      CancelPositive(0.0, s, t);
      CancelPositive(s, 100.0, t);
      if correct == total {
        CancelPositive(100.0, s, t);
      }
      if correct == 0 {
        CancelPositive(s, 0.0, t);
      }
    }
  }

  lemma ScoreMonotone(total: nat, c1: nat, c2: nat)
    requires total > 0 && c1 <= c2
    ensures Score(total, c1) <= Score(total, c2)
  {
    var t := total as real;
    assert Score(total, c1) * t <= Score(total, c2) * t;
    CancelPositive(Score(total, c1), Score(total, c2), t);
  }

  /** Dividing both sides of `a * t <= b * t` by a positive `t`. */
  lemma CancelPositive(a: real, b: real, t: real)
    requires t > 0.0 && a * t <= b * t
    ensures a <= b
  {
  }

  // ---------------------------------------------------------------------------
  // The endpoint

  datatype Section = ListeningSection | ReadingSection

  /** The reply of `submit_answers`. */
  datatype Reply = TestNotFound | MissingEmail | UserNotFound | Scored(total: nat, correct: nat, score: real)

  function HttpStatus(r: Reply): (code: int)
    ensures code == 200 <==> r.Scored?
    ensures code == 400 <==> r.MissingEmail?
    ensures code == 404 <==> r.TestNotFound? || r.UserNotFound?
  {
    match r
    case TestNotFound => 404
    case MissingEmail => 400
    case UserNotFound => 404
    case Scored(_, _, _) => 200
  }

  /** Stores the section's result on the profile and saves it. */
  function Record(p: UserProfile, section: Section, score: real): (r: UserProfile)
    ensures section == ListeningSection ==> r.listening == Some(score) && r.reading == p.reading
    ensures section == ReadingSection ==> r.reading == Some(score) && r.listening == p.listening
    ensures r.speaking == p.speaking && r.writing == p.writing && r.email == p.email
    ensures Consistent(r)
  {
    match section
    case ListeningSection => Save(p.(listening := Some(score)))
    case ReadingSection => Save(p.(reading := Some(score)))
  }

  /** `submit_answers`: the test must exist, then a non-empty email is
      required, then a profile with that email; only then is the test
      scored and the result saved. Every error leaves the profiles alone. */
  method SubmitAnswers(section: Section, test: Option<ChoiceTest>, email: Option<string>, answers: Answers,
                       profiles: map<string, UserProfile>)
    returns (reply: Reply, after: map<string, UserProfile>)
    ensures test.None? ==> reply == TestNotFound
    ensures test.Some? && (email.None? || email.value == "") ==> reply == MissingEmail
    ensures test.Some? && email.Some? && email.value != "" && email.value !in profiles ==> reply == UserNotFound
    ensures !reply.Scored? ==> after == profiles
    ensures reply.Scored? <==> test.Some? && email.Some? && email.value != "" && email.value in profiles
    ensures reply.Scored? ==>
      && reply.total == QuestionCount(test.value.blocks)
      && reply.correct == CorrectCount(test.value.blocks, answers)
      && reply.score == Score(reply.total, reply.correct)
      && 0.0 <= reply.score <= 100.0
      && after == profiles[email.value := Record(profiles[email.value], section, reply.score)]
  {
    after := profiles;
    if test.None? {
      return TestNotFound, after;
    }
    if email.None? || email.value == "" {
      return MissingEmail, after;
    }
    if email.value !in profiles {
      return UserNotFound, after;
    }
    var total, correct := Tally(test.value.blocks, answers);
    var score := Score(total, correct);
    ScoreBounds(total, correct);
    after := profiles[email.value := Record(profiles[email.value], section, score)];
    reply := Scored(total, correct, score);
  }
}

=== FILE: session.dfy ===
/**
 * The assessment page that sequences the four modules: a fixed tab order,
 * a completion record kept both in memory and in browser storage, forced
 * advance to the earliest pending module, disabled tabs for completed
 * modules, and the abort that wipes stored progress when the page is hidden.
 */
module Session {
  import opened Wrappers

  datatype ModuleKey = Listening | Speaking | Reading | Writing

  /** The tab order, which is also the order modules are forced through. */
  const Tabs: seq<ModuleKey> := [Listening, Speaking, Reading, Writing]

  /** Position of a module in the tab order. */
  function TabIndex(k: ModuleKey): (i: nat)
    ensures i < |Tabs| && Tabs[i] == k
  {
    match k
    case Listening => 0
    case Speaking => 1
    case Reading => 2
    case Writing => 3
  }

  /** The `completedTests` object: module key to flag. */
  type Completion = map<ModuleKey, bool>

  /** A module counts as completed when its key is present and true. */
  predicate Done(c: Completion, k: ModuleKey) {
    k in c && c[k]
  }

  /** `tabs.every(tab => updated[tab.key])`. */
  predicate AllDone(c: Completion) {
    forall i :: 0 <= i < |Tabs| ==> Done(c, Tabs[i])
  }

  /** Every module is named by some tab, so "every tab done" is "every module done". */
  lemma AllDoneIsEveryModule(c: Completion)
    ensures AllDone(c) <==> forall k :: Done(c, k)
  {
    if AllDone(c) {
      forall k ensures Done(c, k) {
        assert Tabs[TabIndex(k)] == k;
      }
    }
  }

  /** Where the browser is. */
  datatype Route = TestPage | FeedbackEnd | Home

  /** Browser storage as the session sees it: the serialised completion
      record under `completedTests`, and every other key as a string. The
      record has its own field, so in a well-formed store `items` does not
      also hold that key (`StoreWellFormed`). */
  datatype Store = Store(completedTests: Option<Completion>, items: map<string, string>)

  const CompletedKey := "completedTests"

  predicate StoreWellFormed(store: Store) {
    CompletedKey !in store.items
  }

  /** The answer caches cleared on abort. */
  const ResponseKeys: set<string> :=
    {"listening_responses", "reading_responses", "speaking_responses", "writing_responses"}

  const AbortedKey := "test_aborted"

  /** In-memory state of the assessment page. */
  datatype Page = Page(activeTab: ModuleKey, completed: Completion, route: Route)

  /** Mounting the page: listening is active whatever is stored; the
      completion record is read back from storage when present. */
  function Mount(store: Store): (p: Page)
    ensures p.activeTab == Listening && p.route == TestPage
    ensures forall k :: Done(p.completed, k) <==> store.completedTests.Some? && Done(store.completedTests.value, k)
  {
    Page(Listening, if store.completedTests.Some? then store.completedTests.value else map[], TestPage)
  }

  /** `tabs.find(tab => !updated[tab.key])` from position `i` on. */
  function FirstPendingFrom(c: Completion, i: nat): (r: Option<ModuleKey>)
    requires i <= |Tabs|
    ensures r.Some? ==> i <= TabIndex(r.value) && !Done(c, r.value)
    ensures r.Some? ==> forall j :: i <= j < TabIndex(r.value) ==> Done(c, Tabs[j])
    ensures r.None? <==> forall j :: i <= j < |Tabs| ==> Done(c, Tabs[j])
    decreases |Tabs| - i
  {
    if i == |Tabs| then None
    else if !Done(c, Tabs[i]) then Some(Tabs[i])
    else FirstPendingFrom(c, i + 1)
  }

  /** The earliest module in tab order that is not completed, if any. */
  function FirstPending(c: Completion): (r: Option<ModuleKey>)
    ensures r.None? <==> AllDone(c)
    ensures r.Some? ==> !Done(c, r.value)
    ensures r.Some? ==> forall j :: 0 <= j < TabIndex(r.value) ==> Done(c, Tabs[j])
  {
    FirstPendingFrom(c, 0)
  }

  /** `handleModuleCompleted(k)`: mark `k`, persist the record, then leave for
      the feedback page when all four are done, or else force the earliest
      pending module active. */
  function Complete(p: Page, store: Store, k: ModuleKey): (r: (Page, Store))
    ensures Done(r.0.completed, k)
    ensures forall j :: j != k ==> (j in r.0.completed <==> j in p.completed)
    ensures forall j :: j != k && j in p.completed ==> r.0.completed[j] == p.completed[j]
    ensures r.1 == store.(completedTests := Some(r.0.completed))
    ensures AllDone(r.0.completed) ==> r.0.route == FeedbackEnd && r.0.activeTab == p.activeTab
    ensures !AllDone(r.0.completed) ==> r.0.route == p.route
    ensures !AllDone(r.0.completed) ==> !Done(r.0.completed, r.0.activeTab)
    ensures !AllDone(r.0.completed) ==>
      forall j :: 0 <= j < TabIndex(r.0.activeTab) ==> Done(r.0.completed, Tabs[j])
  {
    var updated := p.completed[k := true];
    var store' := store.(completedTests := Some(updated));
    match FirstPending(updated)
    case None => (p.(completed := updated, route := FeedbackEnd), store')
    case Some(next) => (p.(completed := updated, activeTab := next), store')
  }

  /** Completing a module that is already completed leaves the record as it was. */
  lemma CompleteIdempotent(p: Page, store: Store, k: ModuleKey)
    requires Done(p.completed, k)
    ensures Complete(p, store, k).0.completed == p.completed
  {
  }

  /** Clicking a tab: a completed module's tab is disabled, so clicking it
      does nothing; any other tab becomes active. */
  function SelectTab(p: Page, k: ModuleKey): (r: Page)
    ensures r.completed == p.completed && r.route == p.route
    ensures Done(p.completed, k) ==> r == p
    ensures !Done(p.completed, k) ==> r.activeTab == k
    ensures r.activeTab != p.activeTab ==> !Done(r.completed, r.activeTab)
  {
    if Done(p.completed, k) then p else p.(activeTab := k)
  }

  /** On the page, the active module is one still to be taken. Mounting with
      a stored record that already marks listening breaks it; completing and
      selecting restore or keep it. */
  predicate ActiveIsPending(p: Page) {
    p.route == TestPage ==> !Done(p.completed, p.activeTab)
  }

  lemma CompleteEstablishesActiveIsPending(p: Page, store: Store, k: ModuleKey)
    ensures ActiveIsPending(Complete(p, store, k).0)
  {
  }

  lemma SelectTabKeepsActiveIsPending(p: Page, k: ModuleKey)
    requires ActiveIsPending(p)
    ensures ActiveIsPending(SelectTab(p, k))
  {
  }

  /** The visibility handler: the page went to the background, so the
      completion record and the four answer caches are removed, the abort
      flag is written, and the browser goes home. */
  function Abort(p: Page, store: Store): (r: (Page, Store))
    ensures r.0 == p.(route := Home)
    ensures r.1.completedTests.None?
    ensures forall key :: key in ResponseKeys ==> key !in r.1.items
    ensures AbortedKey in r.1.items && r.1.items[AbortedKey] == "true"
    ensures forall key :: key !in ResponseKeys && key != AbortedKey ==>
      (key in r.1.items <==> key in store.items) && (key in store.items ==> r.1.items[key] == store.items[key])
  {
    (p.(route := Home), Store(None, (store.items - ResponseKeys)[AbortedKey := "true"]))
  }

  /** Neither completing nor aborting writes the completion record among
      the other keys. */
  lemma StoreStaysWellFormed(p: Page, store: Store, k: ModuleKey)
    requires StoreWellFormed(store)
    ensures StoreWellFormed(Complete(p, store, k).1)
    ensures StoreWellFormed(Abort(p, store).1)
  {
    assert CompletedKey !in ResponseKeys && CompletedKey != AbortedKey;
  }

  /** The one-second poll: adopt the stored record only when one is stored. */
  function Poll(p: Page, store: Store): (r: Page)
    ensures r.activeTab == p.activeTab && r.route == p.route
    ensures store.completedTests.Some? ==> r.completed == store.completedTests.value
    ensures store.completedTests.None? ==> r == p
  {
    if store.completedTests.Some? then p.(completed := store.completedTests.value) else p
  }

  /** After an abort the cleared store no longer resets the in-memory record. */
  lemma PollAfterAbortKeepsMemory(p: Page, store: Store)
    ensures Poll(Abort(p, store).0, Abort(p, store).1) == Abort(p, store).0
  {
  }

  /** Storage and memory agree after a completion, so the next poll changes nothing. */
  lemma PollAfterCompleteIsNoOp(p: Page, store: Store, k: ModuleKey)
    ensures Poll(Complete(p, store, k).0, Complete(p, store, k).1) == Complete(p, store, k).0
  {
  }

  /** Mounting the page again after an abort starts with nothing completed. */
  lemma RemountAfterAbortStartsEmpty(p: Page, store: Store)
    ensures forall k :: !Done(Mount(Abort(p, store).1).completed, k)
  {
  }

  /** Completing the modules of `ks` one after another. */
  function CompleteAll(p: Page, store: Store, ks: seq<ModuleKey>): (Page, Store)
    decreases |ks|
  {
    if ks == [] then (p, store)
    else
      var r := Complete(p, store, ks[0]);
      CompleteAll(r.0, r.1, ks[1..])
  }

  /** Completing modules in any order marks exactly those modules, and the
      session reaches the feedback page precisely when, after at least one
      completion, every module has been completed. */
  lemma {:induction false} CompletingInAnyOrder(p: Page, store: Store, ks: seq<ModuleKey>)
    requires p.route == TestPage
    ensures forall k :: Done(CompleteAll(p, store, ks).0.completed, k) <==> Done(p.completed, k) || k in ks
    ensures CompleteAll(p, store, ks).0.route == FeedbackEnd <==>
      |ks| > 0 && forall k :: Done(p.completed, k) || k in ks
    ensures CompleteAll(p, store, ks).0.route != FeedbackEnd ==> CompleteAll(p, store, ks).0.route == TestPage
    decreases |ks|
  {
    if ks != [] {
      var r := Complete(p, store, ks[0]);
      var rest := ks[1..];
      AllDoneIsEveryModule(r.0.completed);
      assert forall k :: k in ks <==> k == ks[0] || k in rest;
      if r.0.route == FeedbackEnd {
        FeedbackEndStays(r.0, r.1, rest);
        assert forall k :: Done(r.0.completed, k);
        CompletionOnlyGrows(r.0, r.1, rest);
      } else {
        CompletingInAnyOrder(r.0, r.1, rest);
      }
    }
  }

  /** Completions never unmark a module. */
  lemma {:induction false} CompletionOnlyGrows(p: Page, store: Store, ks: seq<ModuleKey>)
    ensures forall k :: Done(CompleteAll(p, store, ks).0.completed, k) <==> Done(p.completed, k) || k in ks
    decreases |ks|
  {
    if ks != [] {
      var r := Complete(p, store, ks[0]);
      CompletionOnlyGrows(r.0, r.1, ks[1..]);
      assert forall k :: k in ks <==> k == ks[0] || k in ks[1..];
    }
  }

  /** Once every module is done, further completions keep the feedback page. */
  lemma {:induction false} FeedbackEndStays(p: Page, store: Store, ks: seq<ModuleKey>)
    requires p.route == FeedbackEnd && AllDone(p.completed)
    ensures CompleteAll(p, store, ks).0.route == FeedbackEnd
    decreases |ks|
  {
    if ks != [] {
      var r := Complete(p, store, ks[0]);
      AllDoneIsEveryModule(p.completed);
      AllDoneIsEveryModule(r.0.completed);
      FeedbackEndStays(r.0, r.1, ks[1..]);
    }
  }
}

=== FILE: speaking_page.dfy ===
/**
 * The Speaking page: one recorder at a time, each finished take filed under
 * the block on screen when recording started, a submit button enabled once
 * there are as many takes as blocks, and a multipart payload with one audio
 * part per take in ascending block-id order.
 */
module SpeakingPage {
  import opened Wrappers
  import Runner

  /** The recorded chunks of one take. */
  type Audio = seq<int>

  datatype RecorderState = Recording | Inactive

  /** The live `MediaRecorder`, with the block id its stop listener captured. */
  datatype Recorder = Recorder(blockId: int, state: RecorderState)

  datatype PageError = NoMicrophone | NoUser

  /** Recording state of the page. */
  datatype Mic = Mic(recorder: Option<Recorder>, isRecording: bool, recordings: map<int, Audio>, error: Option<PageError>)

  const FreshMic := Mic(None, false, map[], None)

  /** `startRecording(blockId)`: a refused microphone only sets the error;
      otherwise a new recorder for `blockId` replaces any previous one. */
  function StartRecording(m: Mic, blockId: int, granted: bool): (r: Mic)
    ensures r.recordings == m.recordings
    ensures !granted ==> r == m.(error := Some(NoMicrophone))
    ensures granted ==> r.recorder == Some(Recorder(blockId, Recording)) && r.isRecording && r.error == m.error
  {
    if granted then m.(recorder := Some(Recorder(blockId, Recording)), isRecording := true)
    else m.(error := Some(NoMicrophone))
  }

  /** A recorder is running. */
  predicate Live(m: Mic) {
    m.recorder.Some? && m.recorder.value.state == Recording
  }

  /** `stopRecording`, together with the stop listener it triggers: ignored
      unless a recorder is running; otherwise the take is stored under the
      block id captured when recording started. */
  function StopRecording(m: Mic, take: Audio): (r: Mic)
    ensures !Live(m) ==> r == m
    ensures Live(m) ==> !Live(r) && !r.isRecording && r.error == m.error
    ensures Live(m) ==> r.recordings.Keys == m.recordings.Keys + {m.recorder.value.blockId}
    ensures Live(m) ==> r.recordings[m.recorder.value.blockId] == take
    ensures forall b :: b in m.recordings && (!Live(m) || b != m.recorder.value.blockId) ==>
      b in r.recordings && r.recordings[b] == m.recordings[b]
  {
    if Live(m) then
      var rec := m.recorder.value;
      m.(recorder := Some(rec.(state := Inactive)), isRecording := false,
         recordings := Runner.Record(m.recordings, rec.blockId, take))
    else m
  }

  /** A second stop is ignored. */
  lemma StopTwiceIsStopOnce(m: Mic, t1: Audio, t2: Audio)
    ensures StopRecording(StopRecording(m, t1), t2) == StopRecording(m, t1)
  {
  }

  /** The page: the block on screen and the recording state. */
  datatype Speaking = Speaking(index: nat, mic: Mic)

  datatype Event = Move(move: Runner.Move) | Start(granted: bool) | Stop(take: Audio)

  /** One user action on a page of `blockIds`; recording starts on the block
      on screen. Once an error is set the page shows only the error screen,
      whose retry button reloads the tests and keeps the error, so no action
      reaches the page any more. */
  function Apply(s: Speaking, blockIds: seq<int>, e: Event): (r: Speaking)
    requires s.index < |blockIds|
    ensures r.index < |blockIds|
    ensures s.mic.error.Some? ==> r == s
    ensures e.Move? ==> r.mic == s.mic
    ensures !e.Move? ==> r.index == s.index
    ensures s.mic.error.None? && e.Start? && !e.granted ==> r.mic.error == Some(NoMicrophone)
  {
    if s.mic.error.Some? then s
    else
    match e
    case Move(mv) =>
      Runner.NavigationStaysInRange(s.index, |blockIds|, [mv]);
      s.(index := Runner.Navigate(s.index, |blockIds|, [mv]))
    case Start(granted) => s.(mic := StartRecording(s.mic, blockIds[s.index], granted))
    case Stop(take) => s.(mic := StopRecording(s.mic, take))
  }

  /** A run of moves: the block index stays on the page and the recording
      state is untouched. */
  function ApplyMoves(s: Speaking, blockIds: seq<int>, moves: seq<Runner.Move>): (r: Speaking)
    requires s.index < |blockIds|
    ensures r.index < |blockIds|
    ensures r.mic == s.mic
    decreases |moves|
  {
    if moves == [] then s
    else
      ApplyMoves(Apply(s, blockIds, Move(moves[0])), blockIds, moves[1..])
  }

  /** Start recording on one block, move anywhere, stop: the take is filed
      under the block where recording started, not the block now on screen,
      and no other take changes. On the error screen nothing happens. */
  lemma TakeFiledUnderStartingBlock(s: Speaking, blockIds: seq<int>, moves: seq<Runner.Move>, take: Audio)
    requires s.index < |blockIds|
    ensures var started := Apply(s, blockIds, Start(true));
      var moved := ApplyMoves(started, blockIds, moves);
      var stopped := Apply(moved, blockIds, Stop(take));
      (s.mic.error.None? ==> stopped.mic.recordings == s.mic.recordings[blockIds[s.index] := take]) &&
      (s.mic.error.Some? ==> stopped == s)
  {
  }

  /** A run of user actions. */
  function Run(s: Speaking, blockIds: seq<int>, events: seq<Event>): (r: Speaking)
    requires s.index < |blockIds|
    ensures r.index < |blockIds|
    decreases |events|
  {
    if events == [] then s
    else Run(Apply(s, blockIds, events[0]), blockIds, events[1..])
  }

  /** The error screen is final for the mount: no run of actions changes a
      page whose error is set. */
  lemma {:induction false} ErrorScreenIsFinal(s: Speaking, blockIds: seq<int>, events: seq<Event>)
    requires s.index < |blockIds|
    requires s.mic.error.Some?
    ensures Run(s, blockIds, events) == s
    decreases |events|
  {
    if events != [] {
      ErrorScreenIsFinal(Apply(s, blockIds, events[0]), blockIds, events[1..]);
    }
  }

  /** A refused microphone ends recording for the mount: after it, no
      action starts, stops or files a take, or moves between blocks. */
  lemma {:induction false} RefusalEndsRecording(s: Speaking, blockIds: seq<int>, events: seq<Event>)
    requires s.index < |blockIds|
    ensures var refused := Apply(s, blockIds, Start(false));
      refused.mic.error.Some? && refused.mic.recordings == s.mic.recordings &&
      Run(refused, blockIds, events) == refused
  {
    ErrorScreenIsFinal(Apply(s, blockIds, Start(false)), blockIds, events);
  }

  // ---------------------------------------------------------------------------
  // Submit

  /** The submit button on the last block is disabled while there are fewer
      takes than blocks. */
  predicate SubmitEnabled(recordings: map<int, Audio>, blockCount: nat) {
    |recordings.Keys| >= blockCount
  }

  /** Takes are only ever filed under block ids of the page; with distinct
      block ids, the button is enabled exactly when every block has a take. */
  lemma SubmitEnabledIffEveryBlockRecorded(recordings: map<int, Audio>, blockIds: seq<int>)
    requires recordings.Keys <= set b | b in blockIds
    requires |set b | b in blockIds| == |blockIds|
    ensures SubmitEnabled(recordings, |blockIds|) <==> forall i :: 0 <= i < |blockIds| ==> blockIds[i] in recordings
  {
    var ids := set b | b in blockIds;
    if SubmitEnabled(recordings, |blockIds|) {
      SubsetAsLargeIsEqual(recordings.Keys, ids);
      forall i | 0 <= i < |blockIds| ensures blockIds[i] in recordings {
        assert blockIds[i] in ids;
      }
    }
    if forall i :: 0 <= i < |blockIds| ==> blockIds[i] in recordings {
      assert ids == recordings.Keys;
    }
  }

  /** A subset at least as large as the whole set is the whole set. */
  lemma SubsetAsLargeIsEqual<T>(a: set<T>, b: set<T>)
    requires a <= b && |a| >= |b|
    ensures a == b
  {
    assert b == a + (b - a);
    assert |b| == |a| + |b - a|;
  }

  /** `block_<id>.wav`. */
  function FileName(id: int): string {
    "block_" + IdText(id) + ".wav"
  }

  /** How JavaScript prints an integer key. */
  function IdText(id: int): (s: string)
    ensures |s| >= 1
    ensures s[0] == '-' <==> id < 0
    ensures id < 0 ==> s[1..] == Runner.Decimal(-id)
    ensures id >= 0 ==> s == Runner.Decimal(id)
  {
    if id < 0 then ['-'] + Runner.Decimal(-id) else Runner.Decimal(id)
  }

  /** Distinct blocks give distinct file names. */
  lemma FileNamesDistinct(a: int, b: int)
    requires FileName(a) == FileName(b)
    ensures a == b
  {
    var fa, fb := FileName(a), FileName(b);
    assert fa[6..|fa| - 4] == IdText(a);
    assert fb[6..|fb| - 4] == IdText(b);
    IdTextDistinct(a, b);
  }

  lemma IdTextDistinct(a: int, b: int)
    requires IdText(a) == IdText(b)
    ensures a == b
  {
    if a < 0 {
      Runner.DecimalInjective(-a, -b);
    } else {
      Runner.DecimalInjective(a, b);
    }
  }

  datatype Part = Part(fileName: string, audio: Audio)

  /** The `audio` parts of the form, one per take, in the order
      `Object.entries` lists the integer keys of `recordings` when the takes
      were first stored in the order `inserted`: block ids that are array
      indices ascending, any other id after them in the order stored. */
  method AudioParts(recordings: map<int, Audio>, inserted: seq<int>) returns (ids: seq<int>, parts: seq<Part>)
    requires Runner.InsertionOrder(inserted, recordings.Keys)
    ensures Runner.ObjectKeyOrder(ids, recordings.Keys, inserted)
    ensures |ids| == |parts| == |recordings.Keys|
    ensures forall b :: b in recordings <==> b in ids
    ensures (forall b :: b in recordings ==> Runner.IsIndexKey(b)) ==> forall i, j :: 0 <= i < j < |ids| ==> ids[i] < ids[j]
    ensures forall i :: 0 <= i < |parts| ==> parts[i] == Part(FileName(ids[i]), recordings[ids[i]])
    ensures forall i, j :: 0 <= i < j < |parts| ==> parts[i].fileName != parts[j].fileName
  {
    ids := Runner.ObjectKeys(recordings.Keys, inserted);
    forall b ensures b in recordings <==> b in ids {
      assert b in ids <==> b in (set x | x in ids);
    }
    assert forall i :: 0 <= i < |ids| ==> ids[i] in ids;
    parts := PartsOf(recordings, ids);
    DistinctIdsDistinctNames(ids, parts);
  }

  function PartsOf(recordings: map<int, Audio>, ids: seq<int>): (parts: seq<Part>)
    requires forall i :: 0 <= i < |ids| ==> ids[i] in recordings
    ensures |parts| == |ids|
    ensures forall i :: 0 <= i < |parts| ==> parts[i] == Part(FileName(ids[i]), recordings[ids[i]])
  {
    seq(|ids|, i requires 0 <= i < |ids| => Part(FileName(ids[i]), recordings[ids[i]]))
  }

  lemma DistinctIdsDistinctNames(ids: seq<int>, parts: seq<Part>)
    requires |parts| == |ids|
    requires Runner.Distinct(ids)
    requires forall i :: 0 <= i < |parts| ==> parts[i].fileName == FileName(ids[i])
    ensures forall i, j :: 0 <= i < j < |parts| ==> parts[i].fileName != parts[j].fileName
  {
    forall i, j | 0 <= i < j < |parts|
      ensures parts[i].fileName != parts[j].fileName
    {
      if parts[i].fileName == parts[j].fileName {
        FileNamesDistinct(ids[i], ids[j]);
      }
    }
  }

  // ---------------------------------------------------------------------------
  // Reply

  /** The submission reply: rejected, or the score with the optional report
      object and CEFR level string. */
  datatype Reply = Rejected | Accepted(score: real, report: Option<string>, cefrLevel: Option<string>)

  /** What the submission leaves behind: the page error, the score written
      into the stored user record, browser storage, and whether the module
      completes. */
  datatype Outcome = Outcome(error: Option<PageError>, savedScore: Option<real>, items: map<string, string>, completes: bool)

  const FeedbackKey := "speaking_feedback"
  const LevelKey := "speaking_level"

  /** `handleSubmitTest` on Speaking after the reply arrived. */
  function SpeakingSubmit(user: Option<Runner.StoredUser>, items: map<string, string>, reply: Reply): (r: Outcome)
    ensures r.completes <==> Runner.CompletesAfter(Runner.SubmitAttempt(user, reply.Accepted?))
    ensures r.error == Some(NoUser) <==> !Runner.HasEmail(user)
    ensures !r.completes ==> r.items == items && r.savedScore.None?
    ensures r.completes ==> r.savedScore == Some(reply.score)
    ensures r.completes ==> (LevelKey in r.items <==> LevelKey in items || (reply.cefrLevel.Some? && reply.cefrLevel.value != ""))
    ensures r.completes ==> (FeedbackKey in r.items <==> FeedbackKey in items || reply.report.Some?)
    ensures r.completes ==> (
      && reply.Accepted?
      && (reply.report.Some? ==> r.items[FeedbackKey] == reply.report.value)
      && (reply.report.None? && FeedbackKey in items ==> r.items[FeedbackKey] == items[FeedbackKey]))
    ensures r.completes ==> (
      && reply.Accepted?
      && (reply.cefrLevel.Some? && reply.cefrLevel.value != "" ==> r.items[LevelKey] == reply.cefrLevel.value)
      && ((reply.cefrLevel.None? || reply.cefrLevel.value == "") && LevelKey in items ==> r.items[LevelKey] == items[LevelKey]))
    ensures forall k :: k != LevelKey && k != FeedbackKey ==> (k in r.items <==> k in items) && (k in items ==> r.items[k] == items[k])
  {
    if !Runner.HasEmail(user) then Outcome(Some(NoUser), None, items, false)
    else match reply
      case Rejected => Outcome(None, None, items, false)
      case Accepted(score, report, level) =>
        var withReport := if report.Some? then items[FeedbackKey := report.value] else items;
        var withLevel := if level.Some? && level.value != "" then withReport[LevelKey := level.value] else withReport;
        Outcome(None, Some(score), withLevel, true)
  }
}

=== FILE: words.dfy ===
/**
 * Words of a text: its maximal runs of non-white-space characters, in
 * order. The same splitting serves the front end, where white space is
 * JavaScript's `\s`, and the back end, where it is Python's `str.isspace`.
 */
module WordSplit {
  import opened Ascii

  /** Whose notion of white space a split uses. */
  datatype Blanks = JsBlanks | PyBlanks

  predicate IsBlank(b: Blanks, c: char) {
    if b == JsBlanks then IsJsSpace(c) else IsPySpace(c)
  }

  predicate AllBlank(b: Blanks, s: string) {
    forall i :: 0 <= i < |s| ==> IsBlank(b, s[i])
  }

  /** A non-empty run without white space. */
  predicate IsWord(b: Blanks, w: string) {
    w != [] && forall i :: 0 <= i < |w| ==> !IsBlank(b, w[i])
  }

  /** Length of the white-space run `s` starts with. */
  function SpaceRun(b: Blanks, s: string): (n: nat)
    ensures n <= |s|
    ensures forall i :: 0 <= i < n ==> IsBlank(b, s[i])
    ensures n < |s| ==> !IsBlank(b, s[n])
    decreases |s|
  {
    if s == [] || !IsBlank(b, s[0]) then 0 else 1 + SpaceRun(b, s[1..])
  }

  /** Length of the word `s` starts with. */
  function WordRun(b: Blanks, s: string): (n: nat)
    ensures n <= |s|
    ensures forall i :: 0 <= i < n ==> !IsBlank(b, s[i])
    ensures n < |s| ==> IsBlank(b, s[n])
    decreases |s|
  {
    if s == [] || IsBlank(b, s[0]) then 0 else 1 + WordRun(b, s[1..])
  }

  /** The words of `s`, with white space of any length dropped at the ends
      and between them: Python's `str.split()` with no separator. */
  function Words(b: Blanks, s: string): (ws: seq<string>)
    ensures forall i :: 0 <= i < |ws| ==> IsWord(b, ws[i])
    decreases |s|
  {
    var a := SpaceRun(b, s);
    if a == |s| then []
    else
      var rest := s[a..];
      var n := WordRun(b, rest);
      [rest[..n]] + Words(b, rest[n..])
  }

  /** A text has no words exactly when it is all white space. */
  lemma {:induction false} WordsOfBlanks(b: Blanks, s: string)
    ensures Words(b, s) == [] <==> AllBlank(b, s)
  {
    var a := SpaceRun(b, s);
    if a < |s| {
      assert !IsBlank(b, s[a]);
    }
  }

  /** Words separated by single spaces. */
  function Unwords(ws: seq<string>): string {
    if ws == [] then []
    else if |ws| == 1 then ws[0]
    else ws[0] + " " + Unwords(ws[1..])
  }

  /** Splitting undoes joining with single spaces. */
  lemma {:induction false} WordsUnwords(b: Blanks, ws: seq<string>)
    requires forall i :: 0 <= i < |ws| ==> IsWord(b, ws[i])
    ensures Words(b, Unwords(ws)) == ws
    decreases |ws|
  {
    if |ws| == 1 {
      WordThenBlank(b, ws[0], []);
      Unwords1(ws);
    } else if |ws| > 1 {
      var w, rest := ws[0], ws[1..];
      var tail := Unwords(rest);
      UnwordsCons(ws);
      WordThenBlank(b, w, " " + tail);
      UnwordsHead(b, rest);
      OneSpaceDropped(b, tail);
      WordsUnwords(b, rest);
    }
  }

  lemma {:induction false} Unwords1(ws: seq<string>)
    requires |ws| == 1
    ensures Unwords(ws) == ws[0] + [] && ws == [ws[0]] + []
  {
  }

  lemma {:induction false} UnwordsCons(ws: seq<string>)
    requires |ws| > 1
    ensures Unwords(ws) == ws[0] + (" " + Unwords(ws[1..]))
    ensures ws == [ws[0]] + ws[1..]
  {
  }

  /** Joining a word before a non-empty list puts one space between. */
  lemma {:induction false} UnwordsPrepend(w: string, ws: seq<string>)
    requires ws != []
    ensures Unwords([w] + ws) == w + (" " + Unwords(ws))
  {
    var all := [w] + ws;
    assert all[0] == w && all[1..] == ws;
    UnwordsCons(all);
  }

  /** A join of words starts with the first letter of the first word. */
  lemma {:induction false} UnwordsHead(b: Blanks, ws: seq<string>)
    requires |ws| >= 1 && IsWord(b, ws[0])
    ensures Unwords(ws) != [] && Unwords(ws)[0] == ws[0][0]
  {
  }

  /** One space before a word-first text changes nothing. */
  lemma {:induction false} OneSpaceDropped(b: Blanks, t: string)
    requires t != [] && !IsBlank(b, t[0])
    ensures Words(b, " " + t) == Words(b, t)
  {
    var s := " " + t;
    assert s[1..] == t;
    assert SpaceRun(b, s) == 1;
  }

  lemma {:induction false} SpaceRunPrefix(b: Blanks, p: string, t: string)
    requires AllBlank(b, p)
    ensures SpaceRun(b, p + t) == |p| + SpaceRun(b, t)
    decreases |p|
  {
    if p == [] {
      assert p + t == t;
    } else {
      assert (p + t)[0] == p[0];
      assert (p + t)[1..] == p[1..] + t;
      SpaceRunPrefix(b, p[1..], t);
    }
  }

  /** White space before a text does not change its words. */
  lemma {:induction false} LeadingBlanksDropped(b: Blanks, p: string, t: string)
    requires AllBlank(b, p)
    ensures Words(b, p + t) == Words(b, t)
  {
    SpaceRunPrefix(b, p, t);
    var s, k := p + t, SpaceRun(b, t);
    assert s[|p| + k..] == t[k..];
    SameAfterSpace(b, s, t);
  }

  lemma {:induction false} SameAfterSpace(b: Blanks, s: string, t: string)
    requires s[SpaceRun(b, s)..] == t[SpaceRun(b, t)..]
    ensures Words(b, s) == Words(b, t)
  {
    WordsAfterSpace(b, s);
    WordsAfterSpace(b, t);
  }

  /** The words of a text are those of what follows its leading white space. */
  lemma {:induction false} WordsAfterSpace(b: Blanks, s: string)
    ensures Words(b, s) == Words(b, s[SpaceRun(b, s)..])
  {
    var u := s[SpaceRun(b, s)..];
    assert SpaceRun(b, u) == 0;
    assert u[0..] == u;
  }

  /** A word followed by white space, or by nothing, is read as one word. */
  lemma {:induction false} WordThenBlank(b: Blanks, w: string, t: string)
    requires IsWord(b, w)
    requires t == [] || IsBlank(b, t[0])
    ensures Words(b, w + t) == [w] + Words(b, t)
  {
    var s := w + t;
    assert s[0] == w[0];
    WordRunPrefix(b, w, t);
    assert s[0..][..|w|] == w;
    assert s[0..][|w|..] == t;
  }

  lemma {:induction false} WordRunPrefix(b: Blanks, w: string, t: string)
    requires forall i :: 0 <= i < |w| ==> !IsBlank(b, w[i])
    requires t == [] || IsBlank(b, t[0])
    ensures WordRun(b, w + t) == |w|
    decreases |w|
  {
    if w != [] {
      assert (w + t)[1..] == w[1..] + t;
      WordRunPrefix(b, w[1..], t);
    }
  }

  /** A non-empty run of white space separates words: the words of
      `x + sp + y` are those of `x` followed by those of `y`. */
  lemma {:induction false} WordsAcrossBlank(b: Blanks, x: string, sp: string, y: string)
    requires sp != [] && AllBlank(b, sp)
    ensures Words(b, x + sp + y) == Words(b, x) + Words(b, y)
    decreases |x|, 1
  {
    if AllBlank(b, x) {
      BlanksThenText(b, x, sp, y);
    } else {
      WordThenBlankRun(b, x, sp, y);
    }
  }

  lemma {:induction false} WordThenBlankRun(b: Blanks, x: string, sp: string, y: string)
    requires sp != [] && AllBlank(b, sp)
    requires !AllBlank(b, x)
    ensures Words(b, x + sp + y) == Words(b, x) + Words(b, y)
    decreases |x|, 0
  {
    var w, rest := FirstWordBefore(b, x, sp + y);
    WordsAcrossBlank(b, rest, sp, y);
    Assoc(x, sp, y);
    Assoc(rest, sp, y);
    Assoc([w], Words(b, rest), Words(b, y));
  }

  lemma {:induction false} Cut<T>(x: seq<T>, a: nat, n: nat)
    requires a <= |x| && n <= |x| - a
    ensures x == x[..a] + x[a..][..n] + x[a..][n..]
    ensures x[a..] == x[a..][..n] + x[a..][n..]
  {
  }

  lemma {:induction false} Assoc<T>(p: seq<T>, q: seq<T>, r: seq<T>)
    ensures p + q + r == p + (q + r)
  {
  }

  lemma {:induction false} Regroup(x: string, pre: string, w: string, rest: string, t: string)
    requires x == pre + w + rest
    ensures x + t == pre + (w + (rest + t))
  {
  }

  lemma {:induction false} BlanksThenText(b: Blanks, x: string, sp: string, y: string)
    requires AllBlank(b, x) && AllBlank(b, sp)
    ensures Words(b, x) == [] && Words(b, x + sp + y) == Words(b, y)
  {
    assert AllBlank(b, x + sp);
    LeadingBlanksDropped(b, x + sp, y);
    WordsOfBlanks(b, x);
  }

  /** The first word of a text that is not all white space stays its first
      word when white space and more text follow. */
  lemma {:induction false} FirstWordBefore(b: Blanks, x: string, t: string) returns (w: string, rest: string)
    requires !AllBlank(b, x)
    requires t == [] || IsBlank(b, t[0])
    ensures |rest| < |x|
    ensures Words(b, x) == [w] + Words(b, rest)
    ensures Words(b, x + t) == [w] + Words(b, rest + t)
  {
    var pre;
    pre, w, rest := FirstWord(b, x);
    var after := rest + t;
    assert after == [] || IsBlank(b, after[0]) by {
      if rest == [] { assert after == t; } else { assert after[0] == rest[0]; }
    }
    Regroup(x, pre, w, rest, t);
    LeadingBlanksDropped(b, pre, w + after);
    WordThenBlank(b, w, after);
  }

  /** Splits a text that is not all white space around its first word. */
  lemma {:induction false} FirstWord(b: Blanks, x: string) returns (pre: string, w: string, rest: string)
    requires !AllBlank(b, x)
    ensures x == pre + w + rest && |rest| < |x|
    ensures AllBlank(b, pre) && IsWord(b, w) && (rest == [] || IsBlank(b, rest[0]))
    ensures Words(b, x) == [w] + Words(b, rest)
  {
    var a := SpaceRun(b, x);
    var r := x[a..];
    var n := WordRun(b, r);
    pre, w, rest := x[..a], r[..n], r[n..];
    Cut(x, a, n);
    WordsAfterSpace(b, x);
    WordThenBlank(b, w, rest);
  }

  /** White space after a text does not change its words. */
  lemma {:induction false} TrailingBlanksDropped(b: Blanks, x: string, q: string)
    requires AllBlank(b, q)
    ensures Words(b, x + q) == Words(b, x)
  {
    if q == [] {
      assert x + q == x;
    } else {
      WordsAcrossBlank(b, x, q, []);
      assert x + q + [] == x + q;
    }
  }

  /** A word with nothing but white space after it is the only word. */
  lemma {:induction false} WordAlone(b: Blanks, w: string, q: string)
    requires IsWord(b, w) && AllBlank(b, q)
    ensures Words(b, w + q) == [w]
  {
    TrailingBlanksDropped(b, w, q);
    WordThenBlank(b, w, []);
    Assoc(w, [], []);
    assert w + [] == w;
  }

  /** A visible character put before a text joins its first word, or forms
      a word of its own when the text is empty or starts with white space. */
  lemma {:induction false} ConsWords(b: Blanks, c: char, x: string)
    requires !IsBlank(b, c)
    ensures x == [] || IsBlank(b, x[0]) ==> Words(b, [c] + x) == [[c]] + Words(b, x)
    ensures x != [] && !IsBlank(b, x[0]) ==>
      Words(b, x) != [] && Words(b, [c] + x) == [[c] + Words(b, x)[0]] + Words(b, x)[1..]
  {
    var s := [c] + x;
    if x == [] || IsBlank(b, x[0]) {
      WordThenBlank(b, [c], x);
    } else {
      assert s[1..] == x;
      var n := WordRun(b, x);
      assert WordRun(b, s) == 1 + n;
      assert s[0..][..1 + n] == [c] + x[0..][..n];
      assert s[0..][1 + n..] == x[0..][n..];
    }
  }

  /** Texts with the same words keep the same words when the same visible
      character is put before both, provided they start alike. */
  lemma {:induction false} ConsSameWords(b: Blanks, c: char, x: string, y: string)
    requires !IsBlank(b, c)
    requires Words(b, x) == Words(b, y)
    requires x == [] <==> y == []
    requires x != [] ==> (IsBlank(b, x[0]) <==> IsBlank(b, y[0]))
    ensures Words(b, [c] + x) == Words(b, [c] + y)
  {
    ConsWords(b, c, x);
    ConsWords(b, c, y);
  }
}

=== FILE: wrappers.dfy ===
/** Failure-compatible wrappers shared by every module of the model. */
module Wrappers {

  /** A value that may be absent: a missing dictionary key, `null` or `None`. */
  datatype Option<+T> = None | Some(value: T) {

    /** The wrapped value, or `default` when absent. */
    function GetOr(default: T): T {
      match this
      case Some(v) => v
      case None => default
    }
  }

  /** Either a value or an error. */
  datatype Result<+R, +E> = Success(value: R) | Failure(error: E) {

    predicate IsFailure() {
      Failure?
    }

    function PropagateFailure<U>(): Result<U, E>
      requires Failure?
    {
      Failure(error)
    }

    function Extract(): R
      requires Success?
    {
      value
    }
  }

  /** Python truthiness of an optional text: present and not empty. */
  predicate Truthy(s: Option<string>) {
    s.Some? && s.value != ""
  }
}

=== FILE: writing_grade.dfy ===
/**
 * Grading of the Writing module on the server: the external evaluator's
 * criteria are read with a default of 0 for each missing one, the score is
 * their plain mean, the profile keeps the mean as computed and the reply
 * carries it rounded to two decimals. A criterion that is present but not a
 * number makes the sum raise, and the request ends in a server error.
 */
module WritingGrade {
  import opened Wrappers
  import opened Profile

  /** A value of the evaluator's parsed JSON object: a number, a boolean
      (which Python's `sum` counts as 1 or 0), or anything else (`null`, a
      string, a list, an object), which `sum` refuses. */
  datatype JsonValue = Number(n: real) | Boolean(b: bool) | NotNumeric

  /** The evaluator's parsed JSON object. */
  type RawCriteria = map<string, JsonValue>

  /** `criterios_normalizados`. */
  datatype Criteria = Criteria(clarity: real, verbTenses: real, vocabulary: real, conciseness: real)

  /** What `sum` adds for one value, if it can add it at all. */
  function Numeric(v: JsonValue): (r: Option<real>)
    ensures r.None? <==> v.NotNumeric?
    ensures v.Number? ==> r == Some(v.n)
    ensures v.Boolean? ==> r == Some(if v.b then 1.0 else 0.0)
  {
    match v
    case Number(n) => Some(n)
    case Boolean(b) => Some(if b then 1.0 else 0.0)
    case NotNumeric => None
  }

  /** `criterios.get(key, 0)`, as the sum will see it. */
  function Field(raw: RawCriteria, key: string): (v: Option<real>)
    ensures key in raw ==> v == Numeric(raw[key])
    ensures key !in raw ==> v == Some(0.0)
  {
    if key in raw then Numeric(raw[key]) else Some(0.0)
  }

  /** The evaluator's long key names, in the order the four short ones are read. */
  const CriterionKeys := ["clarity_and_coherence", "verb_tenses", "technical_vocabulary", "conciseness"]

  /** The evaluator's long key names mapped onto the four short ones; no
      criteria at all when one of them is present but not a number. */
  function Normalise(raw: RawCriteria): (c: Option<Criteria>)
    ensures c.None? <==> exists i :: 0 <= i < 4 && CriterionKeys[i] in raw && raw[CriterionKeys[i]].NotNumeric?
    ensures c.Some? ==> Some(c.value.clarity) == Field(raw, "clarity_and_coherence")
    ensures c.Some? ==> Some(c.value.verbTenses) == Field(raw, "verb_tenses")
    ensures c.Some? ==> Some(c.value.vocabulary) == Field(raw, "technical_vocabulary")
    ensures c.Some? ==> Some(c.value.conciseness) == Field(raw, "conciseness")
  {
    var a, b, v, d := Field(raw, CriterionKeys[0]), Field(raw, CriterionKeys[1]), Field(raw, CriterionKeys[2]), Field(raw, CriterionKeys[3]);
    if a.Some? && b.Some? && v.Some? && d.Some? then Some(Criteria(a.value, b.value, v.value, d.value))
    else None
  }

  /** `sum(values) / len(values)` over the four criteria. */
  function Average(c: Criteria): (r: real)
    ensures (c.clarity - r) + (c.verbTenses - r) + (c.vocabulary - r) + (c.conciseness - r) == 0.0
  {
    (c.clarity + c.verbTenses + c.vocabulary + c.conciseness) / 4.0
  }

  predicate AllWithin(c: Criteria, lo: real, hi: real) {
    lo <= c.clarity <= hi && lo <= c.verbTenses <= hi && lo <= c.vocabulary <= hi && lo <= c.conciseness <= hi
  }

  /** The score lies between the lowest and the highest criterion; criteria
      the evaluator left out pull it towards zero. */
  lemma AverageBetween(c: Criteria, lo: real, hi: real)
    requires AllWithin(c, lo, hi)
    ensures lo <= Average(c) <= hi
  {
  }

  lemma MissingCriteriaScoreZero(raw: RawCriteria)
    requires forall k :: k in raw ==> k !in {"clarity_and_coherence", "verb_tenses", "technical_vocabulary", "conciseness"}
    ensures Normalise(raw) == Some(Criteria(0.0, 0.0, 0.0, 0.0))
    ensures Average(Normalise(raw).value) == 0.0
  {
  }

  /** `round(score, 2)`, rounding halves up. */
  function Round2(x: real): (r: real)
    ensures x - 0.005 < r <= x + 0.005
    ensures (r * 100.0).Floor as real == r * 100.0
  {
    (x * 100.0 + 0.5).Floor as real / 100.0
  }

  /** A value with at most two decimals is left as it is, so rounding twice
      is rounding once. */
  lemma Round2KeepsTwoDecimals(x: real)
    requires (x * 100.0).Floor as real == x * 100.0
    ensures Round2(x) == x
  {
    var f := (x * 100.0).Floor;
    assert x * 100.0 + 0.5 == f as real + 0.5;
    assert (x * 100.0 + 0.5).Floor == f;
  }

  lemma Round2Idempotent(x: real)
    ensures Round2(Round2(x)) == Round2(x)
  {
    Round2KeepsTwoDecimals(Round2(x));
  }

  /** With whole-number criteria the mean is a multiple of 0.25, so the
      rounded score in the reply equals the unrounded one in the profile. */
  lemma WholeCriteriaNeedNoRounding(a: int, b: int, c: int, d: int)
    ensures Round2(Average(Criteria(a as real, b as real, c as real, d as real))) ==
      Average(Criteria(a as real, b as real, c as real, d as real))
  {
    var avg := Average(Criteria(a as real, b as real, c as real, d as real));
    assert avg * 100.0 == (25 * (a + b + c + d)) as real;
    Round2KeepsTwoDecimals(avg);
  }

  // ---------------------------------------------------------------------------
  // The endpoint

  /** The evaluator call and JSON parsing: failed (the call raised, the text
      is not JSON, or it is JSON but not an object), or the parsed object with
      its optional `overall_feedback`. */
  datatype Evaluation = Unavailable | Evaluated(raw: RawCriteria, feedback: Option<string>)

  datatype Reply = TestNotFound | MissingInput | UserNotFound | ServerError | Graded(criteria: Criteria, score: real, feedback: string)

  function HttpStatus(r: Reply): (code: int)
    ensures code == 200 <==> r.Graded?
    ensures code == 400 <==> r.MissingInput?
    ensures code == 404 <==> r.TestNotFound? || r.UserNotFound?
    ensures code == 500 <==> r.ServerError?
  {
    match r
    case TestNotFound => 404
    case MissingInput => 400
    case UserNotFound => 404
    case ServerError => 500
    case Graded(_, _, _) => 200
  }

  /** `submit_answers` for Writing. The evaluator is consulted only after
      the test, both inputs and the profile are found; when it fails, or a
      criterion cannot be summed, nothing is saved. */
  function SubmitWriting(testExists: bool, email: Option<string>, texto: Option<string>,
                         profiles: map<string, UserProfile>, eval: Evaluation): (r: (Reply, map<string, UserProfile>))
    ensures !testExists ==> r.0 == TestNotFound
    ensures testExists && (!Truthy(email) || !Truthy(texto)) ==> r.0 == MissingInput
    ensures testExists && Truthy(email) && Truthy(texto) && email.value !in profiles ==> r.0 == UserNotFound
    ensures (testExists && Truthy(email) && Truthy(texto) && email.value in profiles &&
             (eval.Unavailable? || Normalise(eval.raw).None?)) ==> r.0 == ServerError
    ensures !r.0.Graded? ==> r.1 == profiles
    ensures r.0.Graded? <==>
      testExists && Truthy(email) && Truthy(texto) && email.value in profiles && eval.Evaluated? && Normalise(eval.raw).Some?
    ensures r.0.Graded? ==>
      && r.0.criteria == Normalise(eval.raw).value
      && r.0.score == Round2(Average(r.0.criteria))
      && r.0.feedback == (if eval.feedback.Some? then eval.feedback.value else "")
      && r.1 == profiles[email.value := Save(profiles[email.value].(writing := Some(Average(r.0.criteria))))]
  {
    if !testExists then (TestNotFound, profiles)
    else if !Truthy(email) || !Truthy(texto) then (MissingInput, profiles)
    else if email.value !in profiles then (UserNotFound, profiles)
    else match eval
      case Unavailable => (ServerError, profiles)
      case Evaluated(raw, feedback) =>
        match Normalise(raw)
        case None => (ServerError, profiles)
        case Some(c) =>
          var score := Average(c);
          var saved := Save(profiles[email.value].(writing := Some(score)));
          (Graded(c, Round2(score), if feedback.Some? then feedback.value else ""), profiles[email.value := saved])
  }

  /** A criterion such as `null` or `"8"` makes the request a server error
      that leaves every profile as it was. */
  lemma NonNumericCriterionIsServerError(email: string, texto: string, profiles: map<string, UserProfile>,
                                          raw: RawCriteria, fb: Option<string>, key: string)
    requires email != "" && texto != "" && email in profiles
    requires key in CriterionKeys && key in raw && raw[key].NotNumeric?
    ensures SubmitWriting(true, Some(email), Some(texto), profiles, Evaluated(raw, fb)) == (ServerError, profiles)
  {
    var i :| 0 <= i < 4 && CriterionKeys[i] == key;
  }

  /** The profile keeps the unrounded mean of the criteria... */
  lemma StoredScoreIsMean(email: string, texto: string, profiles: map<string, UserProfile>, raw: RawCriteria, fb: Option<string>)
    requires email != "" && texto != "" && email in profiles
    ensures Normalise(raw).Some? ==>
      SubmitWriting(true, Some(email), Some(texto), profiles, Evaluated(raw, fb)).1[email].writing == Some(Average(Normalise(raw).value))
  {
  }

  /** ...while the reply carries it rounded, so within half a hundredth of it. */
  lemma RepliedScoreIsRounded(email: string, texto: string, profiles: map<string, UserProfile>, raw: RawCriteria, fb: Option<string>)
    requires email != "" && texto != "" && email in profiles
    ensures Normalise(raw).Some? ==>
      SubmitWriting(true, Some(email), Some(texto), profiles, Evaluated(raw, fb)).0.score == Round2(Average(Normalise(raw).value))
  {
    var r := SubmitWriting(true, Some(email), Some(texto), profiles, Evaluated(raw, fb));
    if Normalise(raw).Some? {
      assert r.0.Graded?;
      assert r.0.criteria == Normalise(raw).value;
    }
  }
}

=== FILE: writing_page.dfy ===
/**
 * The Writing page: free-text answers per block, the anti-copy check that
 * gates the Next button, the joined text sent on submit, and the criteria
 * and score kept after an accepted reply.
 */
module WritingPage {
  import opened Wrappers
  import opened Content
  import opened AntiCopy
  import Runner

  /** `answers`: block id to the text typed for it. */
  type Answers = map<int, string>

  /** `validateAnswer(blockId, text)`: the example checked against is the one
      of the block on screen; `blockId` is not consulted. */
  function ValidateAnswer(blocks: seq<Prompt>, index: nat, blockId: int, text: string): (ok: bool)
    requires index < |blocks|
    ensures !ok <==> exists x :: x in Sentences(blocks[index].example) && IsSubstring(Normalize(x), Normalize(text))
  {
    Validate(text, blocks[index].example)
  }

  /** The block id passed in makes no difference to the verdict. */
  lemma ValidationIgnoresBlockId(blocks: seq<Prompt>, index: nat, b1: int, b2: int, text: string)
    requires index < |blocks|
    ensures ValidateAnswer(blocks, index, b1, text) == ValidateAnswer(blocks, index, b2, text)
  {
  }

  /** `answers[id] || ''`: a block never typed into counts as empty. */
  function AnswerOf(answers: Answers, id: int): (t: string)
    ensures id in answers ==> t == answers[id]
    ensures id !in answers ==> t == ""
  {
    if id in answers then answers[id] else ""
  }

  /** The current block's answer passes the anti-copy check. */
  predicate Passes(blocks: seq<Prompt>, answers: Answers, index: nat)
    requires index < |blocks|
  {
    ValidateAnswer(blocks, index, blocks[index].id, AnswerOf(answers, blocks[index].id))
  }

  /** `handleNextBlock`: a refused answer keeps the block; otherwise move on
      when there is a later block. */
  function NextBlock(blocks: seq<Prompt>, index: nat, answers: Answers): (r: nat)
    requires index < |blocks|
    ensures r < |blocks|
    ensures r != index <==> Passes(blocks, answers, index) && index < |blocks| - 1
    ensures r != index ==> r == index + 1
  {
    if !Passes(blocks, answers, index) then index
    else Runner.NextBlock(index, |blocks|)
  }

  /** The verdict for every block, with the answers as they stand. */
  function Gates(blocks: seq<Prompt>, answers: Answers): (g: seq<bool>)
    ensures |g| == |blocks|
    ensures forall k :: 0 <= k < |g| ==> g[k] == Passes(blocks, answers, k)
  {
    seq(|blocks|, k requires 0 <= k < |blocks| => Passes(blocks, answers, k))
  }

  /** Moving around the page with the answers as they stand. */
  function Navigate(blocks: seq<Prompt>, index: nat, answers: Answers, moves: seq<Runner.Move>): (r: nat)
    requires index < |blocks|
    ensures r < |blocks|
    decreases |moves|
  {
    if moves == [] then index
    else
      var j := if moves[0] == Runner.Next then NextBlock(blocks, index, answers) else Runner.PreviousBlock(index);
      Navigate(blocks, j, answers, moves[1..])
  }

  /** The page's navigation is gated navigation with the blocks' verdicts
      as gates. */
  lemma {:induction false} NavigateIsGated(blocks: seq<Prompt>, index: nat, answers: Answers, moves: seq<Runner.Move>)
    requires index < |blocks|
    ensures Navigate(blocks, index, answers, moves) == Runner.GatedNavigate(Gates(blocks, answers), index, moves)
    decreases |moves|
  {
    if moves != [] {
      var j := if moves[0] == Runner.Next then NextBlock(blocks, index, answers) else Runner.PreviousBlock(index);
      NavigateIsGated(blocks, j, answers, moves[1..]);
    }
  }

  /** Every block between where the candidate started and where they ended
      up was left forward, so its answer passed the check. */
  lemma ReachedBlocksPassed(blocks: seq<Prompt>, index: nat, answers: Answers, moves: seq<Runner.Move>)
    requires index < |blocks|
    ensures forall k :: index <= k < Navigate(blocks, index, answers, moves) ==> Passes(blocks, answers, k)
  {
    NavigateIsGated(blocks, index, answers, moves);
    Runner.ReachedThroughOpenGates(Gates(blocks, answers), index, moves);
  }

  /** With nothing typed, every block passes, so `n` presses of Next from
      the first block reach block `n` (or the last one). */
  lemma BlankAnswersWalkThrough(blocks: seq<Prompt>, index: nat, n: nat)
    requires index < |blocks|
    ensures Navigate(blocks, index, map[], seq(n, _ => Runner.Next)) == if index + n < |blocks| then index + n else |blocks| - 1
  {
    var g := Gates(blocks, map[]);
    forall k | 0 <= k < |g| ensures g[k] {
      EmptyAnswerPasses(blocks[k].example);
    }
    NavigateIsGated(blocks, index, map[], seq(n, _ => Runner.Next));
    Runner.OpenGatesWalk(g, index, n);
  }

  // ---------------------------------------------------------------------------
  // Submit

  /** The answers in the order `Object.values` lists integer keys. */
  function ValuesAt(answers: Answers, ids: seq<int>): (vs: seq<string>)
    requires forall i :: 0 <= i < |ids| ==> ids[i] in answers
    ensures |vs| == |ids|
    ensures forall i :: 0 <= i < |ids| ==> vs[i] == answers[ids[i]]
  {
    seq(|ids|, i requires 0 <= i < |ids| => answers[ids[i]])
  }

  const Separator := "\n\n"

  /** The `texto` field: every typed answer, joined by a blank line, in the
      order `Object.values` lists the integer keys of `answers` first typed
      in the order `inserted` (block ids that are array indices ascending,
      any other id after them in the order typed). No answer is validated
      on the way. */
  method Texto(answers: Answers, inserted: seq<int>) returns (ids: seq<int>, text: string)
    requires Runner.InsertionOrder(inserted, answers.Keys)
    ensures Runner.ObjectKeyOrder(ids, answers.Keys, inserted)
    ensures forall b :: b in answers <==> b in ids
    ensures (forall b :: b in answers ==> Runner.IsIndexKey(b)) ==> forall i, j :: 0 <= i < j < |ids| ==> ids[i] < ids[j]
    ensures forall i :: 0 <= i < |ids| ==> ids[i] in answers
    ensures text == JoinWith(ValuesAt(answers, ids), Separator)
    ensures forall b :: b in answers ==> IsSubstring(answers[b], text)
  {
    ids := Runner.ObjectKeys(answers.Keys, inserted);
    forall b ensures b in answers <==> b in ids {
      assert b in ids <==> b in (set x | x in ids);
    }
    assert forall i :: 0 <= i < |ids| ==> ids[i] in ids;
    var vs := ValuesAt(answers, ids);
    text := JoinWith(vs, Separator);
    forall b | b in answers ensures IsSubstring(answers[b], text) {
      var i :| 0 <= i < |ids| && ids[i] == b;
      JoinedPieceOccurs(vs, Separator, i);
    }
  }

  /** Every piece of a join occurs in it. */
  lemma {:induction false} JoinedPieceOccurs(ps: seq<string>, sep: string, i: nat)
    requires i < |ps|
    ensures IsSubstring(ps[i], JoinWith(ps, sep))
    decreases |ps|
  {
    var whole := JoinWith(ps, sep);
    if |ps| == 1 {
      assert OccursAt(ps[0], whole, 0);
    } else if i == 0 {
      assert whole == ps[0] + (sep + JoinWith(ps[1..], sep));
      assert OccursAt(ps[0], whole, 0);
    } else {
      JoinedPieceOccurs(ps[1..], sep, i - 1);
      var tail := JoinWith(ps[1..], sep);
      var k :| OccursAt(ps[i], tail, k);
      assert whole == (ps[0] + sep) + tail;
      OccursAfterPrefix(ps[i], ps[0] + sep, tail, k);
    }
  }

  /** An occurrence in `tail` is one in `prefix + tail`, shifted by the prefix. */
  lemma OccursAfterPrefix(p: string, prefix: string, tail: string, k: int)
    requires OccursAt(p, tail, k)
    ensures OccursAt(p, prefix + tail, |prefix| + k)
  {
    assert (prefix + tail)[|prefix| + k..|prefix| + k + |p|] == tail[k..k + |p|];
  }

  /** The submission reply: rejected, or the score with the criteria breakdown. */
  datatype Reply = Rejected | Accepted(score: real, criteria: string)

  datatype PageError = NoUser

  /** What the submission leaves behind: the page error, the score written
      into the stored user record, browser storage, and whether the module
      completes. */
  datatype Outcome = Outcome(error: Option<PageError>, savedScore: Option<real>, items: map<string, string>, completes: bool)

  const CriteriaKey := "writing_criterios"

  /** `handleSubmitTest` on Writing after the reply arrived. */
  function WritingSubmit(user: Option<Runner.StoredUser>, items: map<string, string>, reply: Reply): (r: Outcome)
    ensures r.completes <==> Runner.CompletesAfter(Runner.SubmitAttempt(user, reply.Accepted?))
    ensures r.error == Some(NoUser) <==> !Runner.HasEmail(user)
    ensures !r.completes ==> r.items == items && r.savedScore.None?
    ensures r.completes ==> r.savedScore == Some(reply.score) && r.items == items[CriteriaKey := reply.criteria]
  {
    if !Runner.HasEmail(user) then Outcome(Some(NoUser), None, items, false)
    else match reply
      case Rejected => Outcome(None, None, items, false)
      case Accepted(score, criteria) => Outcome(None, Some(score), items[CriteriaKey := criteria], true)
  }
}
